=== FILE: README.md ===
# http-client core, modelled in Dafny

This project models the sequential core of `com.pkulak.httpclient`. That is an
asynchronous HTTP client over AsyncHttpClient. It is immutable in the
"mutant factory" style, limits concurrency, and maps responses through
pluggable `AsyncHandler`s. The model has three parts.

- **Admission control.** `RequestExecutor` is a flat semaphore with a FIFO
  backlog. `RequestThrottler` is a tree of nodes that share one semaphore.
  Each node keeps its own backlog, and every completion drains the tree
  depth-first from the root. Both are written as pure transitions over
  (free permits, backlogs, running tasks, futures):
  - `Submit`/`Execute`;
  - `CheckQueue`/`DrainNode`;
  - `Complete`.

  The invariant each operation keeps is proved about it: permits are
  conserved, dispatch is FIFO, futures resolve once, and no permit sits idle
  while work waits.
- **Response handlers.** `AsyncHandler` drives the transport's callback
  protocol over a handler's five callbacks:
  - status, then headers, then each body part, then `onCompleted`;
  - an `Abort` answer skips to `onCompleted`;
  - a throwing callback ends the exchange.

  Every handler of the library is a state record with those callbacks:
  - `JacksonResponseMapper`: buffer, then switch to a pipe at 1024 bytes, or
    capture the error body when the status is 300 or above;
  - `JacksonResponseHandler`: buffer or pipe, chosen from Content-Length;
  - the void, string, raw, header-only and status-only handlers.

  A lemma per handler states what a whole exchange yields.
- **Requests.** The parts modelled:
  - `Form` (`application/x-www-form-urlencoded` encoding after
    `URLEncoder`/`URLDecoder`, the multimap encoding and `decode`);
  - `Request` and its builder (url shortcut and parsing, path templates,
    `getUrl`, `toString`);
  - `HttpClient` (derived clients, the url guard, content-type resolution,
    the request mapper's fallback, `synchronize`).

The JSON codec is a parameter `decode: Bytes -> Result<T, Throwable>`. The
transport is the `Response` it delivers: status, headers, and the body as
parts. Whatever a future yields is a parameter too. The support modules are:
- `Utf8`: UTF-8 encoding, and decoding with U+FFFD replacement;
- `JavaStrings`: the `String.split`, `String.replace`, `Integer.parseInt`
  and 32-bit `int` arithmetic that the code leans on;
- `Multimaps`: Guava's `ImmutableMultimap`, with values grouped by key in
  first-insertion order.

Where the behaviour comes from the Java runtime, the model follows JDK 8. That
covers the protocols `java.net.URL` knows (http, https, ftp, file, jar,
mailto, netdoc), the rules of `URLStreamHandler.parseURL`, the messages of
`URLDecoder` and `ByteBuffer.allocate`, and UTF-8 decoding.

All paths below are under `src/main/java/com/pkulak/httpclient/` unless they
start with `src/test`.

## Model

| member | source | states |
|---|---|---|
| RequestExecutor.New | src/main/java/com/pkulak/httpclient/RequestExecutor.java:16-24 | a new executor has every permit free, an empty backlog and nothing running |
| RequestExecutor.CheckQueue | src/main/java/com/pkulak/httpclient/RequestExecutor.java:53-60 | at most one task leaves the backlog, from the front: what was dispatched followed by what still waits is unchanged, and free permits plus running tasks stay the same |
| RequestExecutor.Submit | src/main/java/com/pkulak/httpclient/RequestExecutor.java:26-33 | the caller gets the new task's own id, whose future is pending; every other future is untouched |
| RequestExecutor.Resolution | src/main/java/com/pkulak/httpclient/RequestExecutor.java:68-76 | a success resolves with the model; a failure resolves exceptionally with an HttpException whose cause is the transport's throwable |
| RequestExecutor.Complete | src/main/java/com/pkulak/httpclient/RequestExecutor.java:65-77 | completing a running task conserves free + running, and changes exactly that task's future, to its resolution |
| RequestExecutorLemmas.NewInv | src/main/java/com/pkulak/httpclient/RequestExecutor.java:16-24 | the executor invariant holds from construction |
| RequestExecutorLemmas.SubmitInv | src/main/java/com/pkulak/httpclient/RequestExecutor.java:26-33 | submission keeps the invariant: free + running = permits, FIFO log, distinct running ids, a future pending exactly while its task waits or runs, and no free permit while the backlog is non-empty |
| RequestExecutorLemmas.CheckQueueInv | src/main/java/com/pkulak/httpclient/RequestExecutor.java:53-60 | after one append or one release, a single `checkQueue` restores "no idle permit while work waits" |
| RequestExecutorLemmas.CompleteInv | src/main/java/com/pkulak/httpclient/RequestExecutor.java:65-77 | completion keeps the invariant and takes the task out of the running set |
| RequestExecutorLemmas.DispatchOrder | src/main/java/com/pkulak/httpclient/RequestExecutor.java:55 | the i-th task dispatched is the i-th task submitted |
| RequestExecutorLemmas.AwaitAllIff | src/main/java/com/pkulak/httpclient/RequestExecutor.java:46-50 | `awaitAll`'s exit condition holds exactly when nothing is running |
| RequestExecutorLemmas.CompleteResolvesOnce | src/main/java/com/pkulak/httpclient/RequestExecutor.java:65-77 | a completion resolves its own future (model, or HttpException with the throwable as cause), removes the task from the running set, and leaves every other future alone |
| RequestExecutorLemmas.ResolvedStays | src/main/java/com/pkulak/httpclient/RequestExecutor.java:65-77 | a resolved future is never changed by a later submission or completion |
| RequestExecutorLemmas.Burst | src/test/java/com/pkulak/httpclient/HttpClientTest.java:153-185 | after M submissions to an executor of N permits, min(M, N) run and the rest wait, with the invariant intact |
| RequestThrottler.New | src/main/java/com/pkulak/httpclient/RequestThrottler.java:24-26 | a throttler with no root is a one-node tree, its own root, with all permits free and an empty backlog |
| RequestThrottler.WithHandler | src/main/java/com/pkulak/httpclient/RequestThrottler.java:28-32 | the new node shares the semaphore and permits, has an empty backlog, and is appended to this node's children; every other node and all tasks are unchanged |
| RequestThrottler.WithMaxConcurrency | src/main/java/com/pkulak/httpclient/RequestThrottler.java:34-36 | the result is a fresh one-node tree with a new semaphore of the new size, sharing nothing with the old tree |
| RequestThrottler.Execute | src/main/java/com/pkulak/httpclient/RequestThrottler.java:51-66 | the request runs at once exactly when a permit is free; otherwise it is appended to this node's backlog; either way its future is pending |
| RequestThrottler.Visit | src/main/java/com/pkulak/httpclient/RequestThrottler.java:93-99 | one node's visit dispatches the front of its backlog when a permit is free, and otherwise changes nothing |
| RequestThrottler.DrainNode | src/main/java/com/pkulak/httpclient/RequestThrottler.java:89-115 | a drain keeps the tree, the futures and free + running, and never takes the free count below zero |
| RequestThrottler.Resolution | src/main/java/com/pkulak/httpclient/RequestThrottler.java:108-112 | a queued task's future gets the model, or the transport's throwable itself, unwrapped |
| RequestThrottler.Complete | src/main/java/com/pkulak/httpclient/RequestThrottler.java:104-113 | completion conserves free + running and changes exactly the finished task's future |
| RequestThrottlerLemmas.DrainNodeIsDfs | src/main/java/com/pkulak/httpclient/RequestThrottler.java:89-91 | draining a node equals visiting the nodes in depth-first order, children before the node itself |
| RequestThrottlerLemmas.DfsOrderReaches | src/main/java/com/pkulak/httpclient/RequestThrottler.java:89-91 | that order contains exactly the nodes reachable from the start node |
| RequestThrottlerLemmas.EveryNodeVisited | src/main/java/com/pkulak/httpclient/RequestThrottler.java:85-91 | a drain from the root visits every node of the tree |
| RequestThrottlerLemmas.DrainListWorkConserving | src/main/java/com/pkulak/httpclient/RequestThrottler.java:93-99 | once every non-empty backlog has been visited, either no permit is free or every backlog is empty |
| RequestThrottlerLemmas.DrainListIdle | src/main/java/com/pkulak/httpclient/RequestThrottler.java:93-98 | with every backlog empty a drain changes nothing: each acquired permit is given back |
| RequestThrottlerLemmas.DrainListFifo | src/main/java/com/pkulak/httpclient/RequestThrottler.java:94 | a drain only appends to the running tasks and only removes tasks from the front of each backlog |
| RequestThrottlerLemmas.NewInv | src/main/java/com/pkulak/httpclient/RequestThrottler.java:24-26 | the tree invariant holds from construction: rooted shape, free + running = permits, no idle permit while any backlog holds work, and each pending future has exactly one task running or waiting while every other id has none |
| RequestThrottlerLemmas.WithHandlerInv | src/main/java/com/pkulak/httpclient/RequestThrottler.java:28-32 | adding a child keeps the tree invariant |
| RequestThrottlerLemmas.ExecuteInv | src/main/java/com/pkulak/httpclient/RequestThrottler.java:51-66 | `execute` keeps the tree invariant |
| RequestThrottlerLemmas.CompleteInv | src/main/java/com/pkulak/httpclient/RequestThrottler.java:104-113 | completion keeps the tree invariant |
| RequestThrottlerLemmas.ReleasedDrain | src/main/java/com/pkulak/httpclient/RequestThrottler.java:104-106 | completion is one permit released, then a drain from the root in depth-first order, then the future resolved |
| RequestThrottlerLemmas.CompleteWithWaiting | src/main/java/com/pkulak/httpclient/RequestThrottler.java:104-106 | when work waits anywhere in the tree, the released permit is taken again at once |
| RequestThrottlerLemmas.CompleteIdle | src/main/java/com/pkulak/httpclient/RequestThrottler.java:104-106 | when nothing waits, the permit stays released and the backlogs are untouched |
| RequestThrottlerLemmas.CompleteResolvesOnce | src/main/java/com/pkulak/httpclient/RequestThrottler.java:104-113 | the completed request's future was pending until then and is now resolved, and its task is neither running nor waiting anywhere, so it cannot complete again |
| RequestThrottlerLemmas.ResolvedStays | src/main/java/com/pkulak/httpclient/RequestThrottler.java:51-66 | a resolved future is unchanged by later `execute` calls and by the completion of any running request |
| RequestThrottlerLemmas.AwaitAllIff | src/main/java/com/pkulak/httpclient/RequestThrottler.java:79-83 | `awaitAll`'s exit condition holds exactly when nothing is running |
| JacksonResponseMapper.OnStatus | src/main/java/com/pkulak/httpclient/mapper/JacksonResponseMapper.java:70-77 | always CONTINUE; a status of 300 or above starts capturing the error body, any other leaves the state alone |
| JacksonResponseMapper.SwitchToStreaming | src/main/java/com/pkulak/httpclient/mapper/JacksonResponseMapper.java:89-107 | after the switch the mapper streams into one sink, and the bytes bound for the decoder are unchanged (the buffer goes into the pipe first) |
| JacksonResponseMapper.Accept | src/main/java/com/pkulak/httpclient/mapper/JacksonResponseMapper.java:120-131 | a part extends the decoder's input by exactly its bytes; the counters grow as Java ints; the mapper streams iff it already did or the byte count reached 1024 |
| JacksonResponseMapper.OnPart | src/main/java/com/pkulak/httpclient/mapper/JacksonResponseMapper.java:110-134 | outside error capture a part is accepted; in error capture it only extends the captured text; always CONTINUE |
| JacksonResponseMapper.Finish | src/main/java/com/pkulak/httpclient/mapper/JacksonResponseMapper.java:144-166 | error capture always fails with InvalidStatusException; streaming gives the decode thread's outcome; an empty buffer gives null; otherwise the buffer is decoded |
| JacksonResponseMapper.StreamedAsWritten | src/main/java/com/pkulak/httpclient/mapper/JacksonResponseMapper.java:94-102 | as written, a streamed exchange whose decoder fails only at end of input does not fail: the decode failure leaves the model null |
| JacksonResponseMapper.AcceptBody | src/main/java/com/pkulak/httpclient/mapper/JacksonResponseMapper.java:104-131 | whichever mode is active and wherever the switch falls, the decoder's input is the parts concatenated in order, and streaming never reverts |
| JacksonResponseMapper.AcceptCountsBytes | src/main/java/com/pkulak/httpclient/mapper/JacksonResponseMapper.java:120 | `totalBytes` is the sum of the part lengths, as a Java int |
| JacksonResponseMapper.AcceptCountsParts | src/main/java/com/pkulak/httpclient/mapper/JacksonResponseMapper.java:121 | `totalParts` is the number of parts, as a Java int |
| JacksonResponseMapper.AcceptStreamsIffLarge | src/main/java/com/pkulak/httpclient/mapper/JacksonResponseMapper.java:123-125 | after any run of parts the mapper streams exactly when the bytes seen reach 1024 |
| JacksonResponseMapper.FeedError | src/main/java/com/pkulak/httpclient/mapper/JacksonResponseMapper.java:115-118 | in error capture every part goes to the void mapper's text and nothing is counted or buffered |
| JacksonResponseMapper.ErrorRun | src/main/java/com/pkulak/httpclient/mapper/JacksonResponseMapper.java:70-87 | an error status leads to completion with the status and the whole body as captured text |
| JacksonResponseMapper.SuccessRun | src/main/java/com/pkulak/httpclient/mapper/JacksonResponseMapper.java:110-134 | a success status leads to completion with the whole body as decoder input, counted exactly, streaming iff it is 1024 bytes or more |
| JacksonResponseMapper.RunMapper | src/main/java/com/pkulak/httpclient/mapper/JacksonResponseMapper.java:144-166 | an exchange fails with the status and body text on an error status, gives null for an empty body, and otherwise gives the decoder's outcome on the whole body, in either mode |
| JacksonResponseMapper.StreamedFailureIsLost | src/main/java/com/pkulak/httpclient/mapper/JacksonResponseMapper.java:94-102 | as written, a body of 1024 bytes or more that the decoder rejects at end of input completes with null, where the corrected mapper fails with the decode error |
| JacksonResponseMapper.AsWrittenAgreesOtherwise | src/main/java/com/pkulak/httpclient/mapper/JacksonResponseMapper.java:154-165 | for a body under 1024 bytes, or one that decodes, the mapper as written and the corrected one give the same outcome |
| JacksonResponseHandler.OnHeaders | src/main/java/com/pkulak/httpclient/mapper/JacksonResponseHandler.java:60-74 | Content-Length below 2048 buffers with exactly that capacity; 2048 or more, or no length, streams; an unparsable length fails with NumberFormatException and a negative one with IllegalArgumentException |
| JacksonResponseHandler.OnPart | src/main/java/com/pkulak/httpclient/mapper/JacksonResponseHandler.java:101-110 | a buffered part fails with BufferOverflowException iff it overflows the capacity; only streamed parts are counted; always CONTINUE |
| JacksonResponseHandler.BackingArray | src/main/java/com/pkulak/httpclient/mapper/JacksonResponseHandler.java:122 | the buffer's backing array has the declared capacity: the written bytes, then zeros |
| JacksonResponseHandler.Finish | src/main/java/com/pkulak/httpclient/mapper/JacksonResponseHandler.java:116-128 | a buffer with nothing written gives null; otherwise the whole backing array is decoded; streaming gives the decode thread's outcome |
| JacksonResponseHandler.Streamed | src/main/java/com/pkulak/httpclient/mapper/JacksonResponseHandler.java:85-97 | corrected: a decode failure is swallowed (null) exactly when no bytes arrived, and is the exchange's error otherwise |
| JacksonResponseHandler.StreamedAsWritten | src/main/java/com/pkulak/httpclient/mapper/JacksonResponseHandler.java:85-97 | as written, a streamed exchange whose decoder fails only at end of input does not fail: the failure is thrown on the decode thread and the model stays null |
| JacksonResponseHandler.FeedBuffered | src/main/java/com/pkulak/httpclient/mapper/JacksonResponseHandler.java:101-104 | buffering a run of parts overflows iff their total exceeds the capacity, and otherwise appends them in order |
| JacksonResponseHandler.FeedStreamed | src/main/java/com/pkulak/httpclient/mapper/JacksonResponseHandler.java:105-107 | streaming a run of parts writes their concatenation to the pipe and counts its length as a Java int |
| JacksonResponseHandler.RunBadLength | src/main/java/com/pkulak/httpclient/mapper/JacksonResponseHandler.java:61-62 | a malformed or negative Content-Length fails the exchange before any body is read |
| JacksonResponseHandler.RunBuffered | src/main/java/com/pkulak/httpclient/mapper/JacksonResponseHandler.java:116-122 | with a buffering length: overflow fails, an empty body gives null, otherwise the zero-padded backing array is decoded |
| JacksonResponseHandler.StreamedRun | src/main/java/com/pkulak/httpclient/mapper/JacksonResponseHandler.java:80-107 | with a streaming length the pipe receives the whole body in order and the count is its length |
| JacksonResponseHandler.RunStreamed | src/main/java/com/pkulak/httpclient/mapper/JacksonResponseHandler.java:116-127 | with a streaming length the exchange yields the decoded body; a decode failure gives null for an empty body and is the error otherwise |
| JacksonResponseHandler.StreamedFailureIsLost | src/main/java/com/pkulak/httpclient/mapper/JacksonResponseHandler.java:85-97 | as written, a non-empty streamed body that the decoder rejects at end of input completes with null, where the corrected handler fails |
| JacksonResponseHandler.LostFailureExample | src/main/java/com/pkulak/httpclient/mapper/JacksonResponseHandler.java:88-93 | a 200 response with no Content-Length and the one-byte body `{` yields null as written and the decode error when corrected |
| JacksonResponseHandler.AsWrittenAgreesOtherwise | src/main/java/com/pkulak/httpclient/mapper/JacksonResponseHandler.java:116-128 | as written and corrected agree whenever the body is buffered, decodes, or is empty |
| StringResponseMapper.OnPart | src/main/java/com/pkulak/httpclient/mapper/StringResponseMapper.java:22-25 | a part only appends to the text built so far, and answers CONTINUE |
| StringResponseMapper.RunString | src/main/java/com/pkulak/httpclient/mapper/StringResponseMapper.java:9-33 | an exchange yields each part decoded as UTF-8 on its own, joined in arrival order; no body gives "" |
| StringResponseMapper.DecodeEachOnBoundaries | src/main/java/com/pkulak/httpclient/mapper/StringResponseMapper.java:23 | when every part ends on a character boundary, the result is exactly the text that was sent |
| VoidResponseMapper.OnStatus | src/main/java/com/pkulak/httpclient/mapper/VoidResponseMapper.java:18-26 | CONTINUE iff the status is 300 or more, in which case it is recorded with an empty capture; otherwise ABORT and nothing recorded |
| VoidResponseMapper.OnPart | src/main/java/com/pkulak/httpclient/mapper/VoidResponseMapper.java:34-37 | in error mode a part extends the captured text; with no capture it fails with NullPointerException |
| VoidResponseMapper.OnCompleted | src/main/java/com/pkulak/httpclient/mapper/VoidResponseMapper.java:43-49 | fails iff an error status was seen, with InvalidStatusException carrying that status and the captured text |
| VoidResponseMapper.RunVoid | src/main/java/com/pkulak/httpclient/mapper/VoidResponseMapper.java:18-53 | a success status yields no value at once; an error status fails with that status and the whole body as text |
| RawResponseMapper.OnPart | src/main/java/com/pkulak/httpclient/mapper/RawResponseMapper.java:33-36 | a part's bytes are appended to the body and nothing else changes |
| RawResponseMapper.RunRaw | src/main/java/com/pkulak/httpclient/mapper/RawResponseMapper.java:16-44 | an exchange yields the status, the headers and the parts' bytes in order; no body gives an empty array |
| HeaderResponseMapper.RunHeaders | src/main/java/com/pkulak/httpclient/mapper/HeaderResponseMapper.java:14-38 | an exchange yields the status and headers with an empty body |
| HeaderResponseMapper.BodyIgnored | src/main/java/com/pkulak/httpclient/mapper/HeaderResponseMapper.java:20-28 | the outcome does not depend on the body, which is never requested |
| StatusResponseHandler.RunStatus | src/main/java/com/pkulak/httpclient/mapper/StatusResponseHandler.java:21-42 | every exchange yields its status code, error codes included, whatever follows the status line |
| StatusResponseHandler.DefaultStatus | src/main/java/com/pkulak/httpclient/mapper/StatusResponseHandler.java:14 | completing before any status gives 500 |
| Form.UrlEncode | src/main/java/com/pkulak/httpclient/util/Form.java:12-18 | the output uses only letters, digits, `.-*_`, `+` and upper-case `%XX`, so never `&` or `=`; it is empty iff the input is |
| Form.Encode | src/main/java/com/pkulak/httpclient/util/Form.java:20-24 | the empty multimap encodes to "" and no other does |
| Form.Pair | src/main/java/com/pkulak/httpclient/util/Form.java:22 | an encoded entry holds an `=` and no `&` |
| Form.DecodePieces | src/main/java/com/pkulak/httpclient/util/Form.java:29-37 | a successful decode yields one entry per `&`-separated piece |
| FormLemmas.UrlDecodeEncode | src/main/java/com/pkulak/httpclient/util/Form.java:34-35 | URL-decoding the URL-encoding of any text gives the text back |
| FormLemmas.DecodePieceOfPair | src/main/java/com/pkulak/httpclient/util/Form.java:30-35 | an encoded entry decodes to itself iff its value is non-empty; an empty value fails (index out of range) |
| FormLemmas.FormRoundTrip | src/main/java/com/pkulak/httpclient/util/Form.java:20-40 | `decode(encode(m))` succeeds iff m is non-empty with non-empty values, and then gives m's entries in order |
| FormLemmas.EscapeFailures | src/main/java/com/pkulak/httpclient/util/Form.java:34-35 | `URLDecoder` fails on "%zz" with the NumberFormatException text appended, on "%-1" with "negative value", and on a cut-short "%2" with "Incomplete trailing escape", and decodes "%41" to "A" |
| FormLemmas.EncodeExamples | src/test/java/com/pkulak/httpclient/HttpClientTest.java:244-254 | "a&w" encodes to "a%26w" and {a: 6, b: "y&p"} to "a=6&b=y%26p" |
| Requests.NewBuilder | src/main/java/com/pkulak/httpclient/Request.java:125-134 | a builder starts with method GET, path "/", and no query params, path params or headers |
| Requests.SetUrl | src/main/java/com/pkulak/httpclient/Request.java:136-141 | `url(u)` sets the url, clears path and query params, and keeps method, path params and headers |
| Requests.SetMethod | src/main/java/com/pkulak/httpclient/Request.java:143-146 | the method is stored upper-cased, letter by letter, and nothing else changes |
| Requests.AddPath | src/main/java/com/pkulak/httpclient/Request.java:153-156 | the new path is the old path followed by the argument, and nothing else changes |
| Requests.PathParam | src/main/java/com/pkulak/httpclient/Request.java:158-164 | a new key is appended; a key already present fails with IllegalArgumentException |
| Requests.Build | src/main/java/com/pkulak/httpclient/Request.java:30-74 | method, path params and headers pass through; only a url that is not the shortcut form can fail |
| RequestLemmas.QueryParamAppends | src/main/java/com/pkulak/httpclient/Request.java:166-180 | `setQueryParam` is `addQueryParam`: one more value under the key, every other entry kept |
| RequestLemmas.HeaderAppends | src/main/java/com/pkulak/httpclient/Request.java:182-196 | `setHeader` is `addHeader`: one more value under the name, every other entry kept |
| RequestLemmas.SetQueryParamTwiceKeepsBoth | src/main/java/com/pkulak/httpclient/Request.java:166-172 | setting a query parameter twice keeps both values, in order |
| RequestLemmas.MethodIdempotent | src/main/java/com/pkulak/httpclient/Request.java:143-146 | setting the stored method again changes nothing |
| RequestLemmas.AddPathTwice | src/main/java/com/pkulak/httpclient/Request.java:153-156 | appending p then q equals appending p + q |
| RequestLemmas.UrlResetsPathAndQuery | src/main/java/com/pkulak/httpclient/Request.java:136-141 | a base url with no `?` and two slashes builds with an empty path and no query params, headers kept |
| RequestLemmas.BuildShortcut | src/main/java/com/pkulak/httpclient/Request.java:43-48 | a null url, or one with no `?` and exactly two `/`, keeps url, path and query unchanged |
| RequestLemmas.BuildInvalid | src/main/java/com/pkulak/httpclient/Request.java:52-56 | an unparsable url fails with "invalid URL: " and the url |
| RequestLemmas.BuildParsed | src/main/java/com/pkulak/httpclient/Request.java:58-73 | a parsed url becomes protocol://authority; the url's path is used only when the builder's is empty; the url's query values come before the builder's |
| RequestLemmas.UncNameHasNoAuthority | src/main/java/com/pkulak/httpclient/Request.java:52-53 | an `http:` url whose part before the query starts with four slashes (a UNC name) parses with no authority, and every slash stays in the path |
| RequestLemmas.UncNameBuildsNullAuthority | src/main/java/com/pkulak/httpclient/Request.java:58-73 | such a url without a query builds into the base url "http://null", with the whole UNC name as the path |
| RequestLemmas.BuildIdempotent | src/main/java/com/pkulak/httpclient/Request.java:114-122 | rebuilding a built request through `toBuilder` gives the same request |
| RequestLemmas.BuildKeepsUrlSet | src/main/java/com/pkulak/httpclient/Request.java:94-96 | a built request has its url set iff the builder's url was non-null and non-empty |
| RequestLemmas.GetUrlWithoutParams | src/main/java/com/pkulak/httpclient/Request.java:84-92 | with no path params the url is the base url followed by the path |
| RequestLemmas.PathParamSubstituted | src/main/java/com/pkulak/httpclient/Request.java:87-91 | a `{key}` placeholder in the path is replaced by the form-encoded value, the rest of the path kept |
| RequestLemmas.SubstituteAbsent | src/main/java/com/pkulak/httpclient/Request.java:87-89 | path params whose placeholders do not occur leave the path alone |
| RequestLemmas.ToStringQuery | src/main/java/com/pkulak/httpclient/Request.java:99-102 | `toString` is method, space and url; `?` and the form encoding follow iff there are query params, and that suffix decodes back to the params when their values are non-empty |
| HttpClient.CreateDefault | src/main/java/com/pkulak/httpclient/HttpClient.java:79-100 | the default client has a fresh executor of 4 permits, cutoff 1024, JSON both ways, and the request the builder makes of the url; it fails iff that build fails |
| HttpClient.Edit | src/main/java/com/pkulak/httpclient/HttpClient.java:117-120 | a request edit changes only the request, and fails exactly when the rebuild does |
| HttpClient.Method | src/main/java/com/pkulak/httpclient/HttpClient.java:254-256 | the new client differs only in its request, whose method is the argument upper-cased |
| HttpClient.PathParam | src/main/java/com/pkulak/httpclient/HttpClient.java:294-298 | a key already bound fails with IllegalArgumentException; otherwise only the request changes |
| HttpClient.ResponseMapper | src/main/java/com/pkulak/httpclient/HttpClient.java:207-215 | the new handler, the model type reset to Void, and the same executor, request and request mapper |
| HttpClient.ForModelType | src/main/java/com/pkulak/httpclient/HttpClient.java:179-181 | the JSON handler for the new type with the current mapper and cutoff, same executor |
| HttpClient.ObjectMapper | src/main/java/com/pkulak/httpclient/HttpClient.java:189-198 | the new mapper is used for requests and responses, same executor and request |
| HttpClient.MaxConcurrency | src/main/java/com/pkulak/httpclient/HttpClient.java:242-247 | a new executor of the given size, every other field kept |
| HttpClient.ExecuteAsync | src/main/java/com/pkulak/httpclient/HttpClient.java:581-592 | fails iff the url is not set, with "url has not been set"; otherwise sends method, rendered url, headers and query params, no body |
| HttpClient.ExecuteWithBody | src/main/java/com/pkulak/httpclient/HttpClient.java:631-652 | fails with the url guard when the url is not set, and with the request mapper's `Error` when it throws one; otherwise sends the request with the resolved Content-Type set over any earlier one, and the mapped body, or no bytes when the mapper threw an `Exception` |
| HttpClient.WithHeader | src/main/java/com/pkulak/httpclient/HttpClient.java:649 | the transport's `setHeader` leaves one entry of the name, last, and keeps every entry of other names |
| HttpClient.HeadAsync | src/main/java/com/pkulak/httpclient/HttpClient.java:410-412 | a HEAD request with the status-only handler, no body, on the same executor |
| HttpClient.Synchronize | src/main/java/com/pkulak/httpclient/HttpClient.java:555-565 | a value passes through; an Exception becomes HttpException("Could not perform " + request), with an ExecutionException's Exception cause unwrapped; an Error propagates |
| HttpClientLemmas.GetOfBuilt | src/main/java/com/pkulak/httpclient/HttpClient.java:374-376 | `getAsync` fails only on the url guard and sends GET with the client's handler |
| HttpClientLemmas.DeleteOfBuilt | src/main/java/com/pkulak/httpclient/HttpClient.java:392-394 | `deleteAsync` fails only on the url guard and sends DELETE |
| HttpClientLemmas.HeadOfBuilt | src/main/java/com/pkulak/httpclient/HttpClient.java:410-412 | `headAsync` fails only on the url guard |
| HttpClientLemmas.SendOfBuilt | src/main/java/com/pkulak/httpclient/HttpClient.java:430-432 | `putAsync`, `postAsync` and `patchAsync` fail only on the url guard or an `Error` from the request mapper, and send their verb |
| HttpClientLemmas.NoUrl | src/main/java/com/pkulak/httpclient/HttpClient.java:582-584 | a default client made without a url refuses `get()` with "url has not been set" |
| HttpClientLemmas.OneContentType | src/main/java/com/pkulak/httpclient/HttpClient.java:636-649 | a request with a body carries exactly one Content-Type: a non-empty explicit type, else the first stored "Content-Type" value, else the mapper's default |
| HttpClientLemmas.MapperFailureSendsEmptyBody | src/main/java/com/pkulak/httpclient/HttpClient.java:567-574 | a request mapper that throws an `Exception` sends the same request as one that maps to no bytes; an `Error` is not caught, so nothing is sent and the caller gets the `Error` |
| HttpClientLemmas.SynchronizeUnwrapsOnce | src/main/java/com/pkulak/httpclient/HttpClient.java:555-565 | an executor failure inside ExecutionException surfaces as the cause of an HttpException naming the request |
| HttpClientLemmas.SharedExecutor | src/main/java/com/pkulak/httpclient/HttpClient.java:189-247 | along any chain of derived clients the executor is the original until a `maxConcurrency` replaces it, and the last one wins |
| HttpClientLemmas.NoLimitKeepsExecutor | src/main/java/com/pkulak/httpclient/HttpClient.java:189-233 | a chain with no `maxConcurrency` keeps the original executor |
| HttpClientLemmas.MaxConcurrencyUnshared | src/main/java/com/pkulak/httpclient/HttpClient.java:242-247 | `maxConcurrency` never hands back the receiver's pool |
| Utf8Lemmas.EncodedSurrogateIsOneReplacement | src/main/java/com/pkulak/httpclient/mapper/StringResponseMapper.java:23 | an encoded surrogate such as ED A0 80 decodes to one U+FFFD, cut short to ED A0 it still gives one, and ED A0 41 gives U+FFFD then "A", while ED 9F BF is U+D7FF |
| Utf8Lemmas.DecodeEncode | src/main/java/com/pkulak/httpclient/mapper/StringResponseMapper.java:23 | decoding the UTF-8 encoding of any text gives the text back |
| JavaStringsLemmas.SplitJoin | src/main/java/com/pkulak/httpclient/util/Form.java:29-30 | `split` on a separator undoes joining non-empty, separator-free pieces with it |
| JavaStringsLemmas.ParseIntExamples | src/main/java/com/pkulak/httpclient/mapper/JacksonResponseHandler.java:62 | `Integer.parseInt` accepts a leading sign and rejects "", "-" and trailing junk |

## Left out

- Threads. Every callback and completion is one atomic step. Semaphore
  atomicity, the concurrent deque and future callback threads are not
  modelled.
- The blocking waits. `await()` is not modelled; `awaitAll()` is only its
  exit condition.
- The pipe, latch and executor of the Jackson handlers. The pipe is the
  sequence of bytes written to it. The decode thread's outcome is `decode`
  applied to that sequence once the pipe closes.
- Jackson. `ObjectMapper` and `ObjectReader` become the `decode` parameter,
  and an object mapper is known only by identity (`MapperRef`).
  `JacksonRequestMapper` is Jackson alone: its bytes are the `mapped`
  parameter.
- The transport. AsyncHttpClient, `BoundRequestBuilder` and `close()` are
  out. A request handed to the executor is the `Prepared` record. What a
  future yields is the `got` parameter of `Get`, `Head` and `Post`.
- `java.net.URL`. Parsing is a small concrete parser: known protocol `://`,
  authority, path, `?` query, `#` fragment. It models the user-info split at
  a single '@' and the port check of `URLStreamHandler.parseURL`: the port
  must parse as an int of at least -1. It also models that method's UNC
  rule: after four slashes there is no authority, and the slashes stay in
  the path. It does not model the checks on a bracketed IPv6 host, which
  the model accepts as it stands. It also does not model the rules of
  particular protocol handlers, such as the `!/` that a `jar:` url needs.
- `Requests.Build`: the path read back from `java.net.URL` keeps any `/./`
  and `/../` segments. `URLStreamHandler.parseURL` removes them, so for such
  a url the model's path differs from the one the constructor stores.
- Non-ASCII case mapping. `toUpperCase` and header-name case folding are
  ASCII-only. `URLEncoder` and `URLDecoder` are modelled for all of Unicode
  through UTF-8, including the JDK's handling of malformed UTF-8, with one
  exception. `URLDecoder` reads a `%` escape with
  `Integer.parseInt(…, 16)`, which goes through `Character.digit`. That also
  accepts fullwidth `Ａ`–`Ｆ` and non-ASCII decimal digits, so Java decodes
  `%ＡＡ` as the byte 0xAA. `Form.Decode` accepts only ASCII hex digits and
  fails on such an escape.
- `RequestThrottler.DrainNode`: siblings are drained in the order they were
  added. In the source the children are a set backed by a WeakHashMap
  (RequestThrottler.java line 44), and `children.forEach` (line 91) visits
  them in hash order. So which waiting sibling gets a freed permit is
  unspecified there, and the model fixes one choice.
  `RequestThrottlerLemmas.DrainListWorkConserving` holds for any visiting
  order.
- Children under WeakHashMap. The throttler's children are strong
  references in the model; what garbage collection would drop is not
  modelled.
- The throttler's per-node response handler is not modelled. It only
  chooses which AsyncHandler the transport runs.
- `RequestThrottler.Resolution`: the future of a request that ran at once
  is the transport's own future. The model gives it the same resolution as
  a queued one.
- Logging. The filters, `BodyListener`, and the log lines in the mappers
  are not modelled.
- The `GenericObjectPool` in `createDefault`: no modelled handler uses it.
- `Supplier` path parameters and null values are not modelled.
  `pathParam(key, null)` fails `checkNotNull` in the source; the model has
  no null.
- `HttpClient.StatusOnly`: `statusOnly()` (HttpClient.java lines 155-157)
  constructs a `StatusResponseMapper`, a class that is not part of this
  model. The model takes it to be the `StatusResponseHandler` that is part
  of it.
- The revisions differ: `HttpClient.appendPath` calls a builder
  `appendPath`, while `Request.Builder` has `addPath`. The model routes
  `appendPath` through `addPath`. `addPath` concatenates the strings, so
  "append_empty" on the base url "http://localhost:8089" renders as
  "http://localhost:8089append_empty". The test at
  src/test/java/com/pkulak/httpclient/HttpClientTest.java:314-321 expects
  "/append_empty".
- `HttpClient` sends through `requestExecutor.execute(responseHandler, …)`,
  while `RequestExecutor.execute` takes the client. The model's executor
  keeps the client only as the owner name used in the failure message.
- `setQueryParam` and `setHeader` append rather than replace. The doc
  comment at src/main/java/com/pkulak/httpclient/HttpClient.java:305-310 and the test at
  src/test/java/com/pkulak/httpclient/HttpClientTest.java:262-280
  say "replace", but the builder appends. The model follows the builder,
  and `RequestLemmas.SetQueryParamTwiceKeepsBoth` states the appending.
- `Requests.PathParam`: Guava reports a duplicate key from `build()` with
  its own message. The model only says that the failure is
  IllegalArgumentException.
- `Form.EscapeRun`: a `%` escape that is not a number fails with
  "URLDecoder: Illegal hex characters in escape (%) pattern - " followed by
  the `NumberFormatException` message of `Integer.parseInt(String, 16)`, as
  JDK 8 words it, for example `For input string: "zz"`. Later JDKs word that
  message differently: some add the radix, and some give the error index
  when the escape is parsed in place. Those wordings are not modelled.
- `JacksonResponseHandler.OnHeaders`: a negative Content-Length fails with
  the message of JDK 8's `ByteBuffer.allocate`, "Negative capacity: n".
  JDK 9 and later word it "capacity < 0: (n < 0)"; that wording and the rest
  of `ByteBuffer` are not modelled.
- `JacksonResponseMapper.StreamedAsWritten`, `JacksonResponseMapper.StreamedFailureIsLost`,
  `JacksonResponseHandler.StreamedAsWritten`, `JacksonResponseHandler.StreamedFailureIsLost`:
  `decode` is applied to the whole pipe, so these describe a decoder that
  fails only at end of input. Jackson closes its input stream when
  `readValue` returns or fails. A decoder that rejects the body early,
  for example a 4 KB body starting with `<html>`, therefore closes the pipe
  while parts are still arriving. The next write (JacksonResponseMapper.java
  lines 104 and 128, JacksonResponseHandler.java line 106) throws
  IOException "Pipe closed", and the exchange fails instead of yielding null.
  That early failure is not modelled.
- `JacksonResponseMapper.RunMapper`, `JacksonResponseMapper.SuccessRun`,
  `JacksonResponseMapper.AcceptStreamsIffLarge`,
  `JacksonResponseMapper.StreamedFailureIsLost`: these state the
  non-empty-body outcome only for bodies up to 2^31 - 1 bytes. Beyond that,
  `totalBytes` wraps negative and the Java code decides on the wrapped value.
  The step functions model the wrap; the run lemmas do not follow it.
- `JacksonResponseHandler.RunStreamed`, `JacksonResponseHandler.StreamedFailureIsLost`:
  same bound, for the streamed byte count.
- `totalBytes` is read on the decode thread while callbacks update it. The
  model reads it once the pipe is closed.
- The `Exception`-wrapping the transport adds before `whenComplete` runs is
  not modelled; the executor receives the throwable as given.
- Synchronous wrappers. Only `get()`, `head()` and `post()` are written
  out. `delete()`, `put()`, `patch()` and `execute()` are the same
  `synchronize` over their async forms.
- The body verbs. `HttpClientLemmas.SendOfBuilt` states `putAsync`,
  `postAsync` and `patchAsync` through their common `SendWithBody` rather
  than one lemma per verb.
- `FormRequestMapper` and `RequestMapper` only delegate to `Form.encode`
  and a default content type. `RawResponse`, `FullResponse`,
  `HeaderResponse` and `InvalidStatusException` are plain datatypes.

## Findings

| source | as written | input that shows it | evidently intended | confidence | as-written member | corrected member |
|---|---|---|---|---|---|---|
| src/main/java/com/pkulak/httpclient/mapper/JacksonResponseMapper.java:94-102 | In streaming mode a decode failure is thrown as UncheckedIOException on the executor thread, where nothing observes it. `onCompleted` (lines 154-159) then returns the model, still null. | A 200 response whose body is 1024 or more bytes of JSON cut short, such as an array missing its closing `]`, so that the decoder fails only at end of input | The decode failure fails the exchange, as it does on the buffered path (line 165) | not executed | JacksonResponseMapper.StreamedFailureIsLost | JacksonResponseMapper.RunMapper |
| src/main/java/com/pkulak/httpclient/mapper/JacksonResponseHandler.java:85-97 | With bytes received, the decode failure is thrown on the executor thread; `onCompleted` (lines 124-126) returns null | A 200 response with no Content-Length whose body is the single byte `{` | The failure reaches the caller when bytes were received; only an empty body is swallowed, as the `totalBytes == 0` test intends | not executed | JacksonResponseHandler.LostFailureExample | JacksonResponseHandler.RunStreamed |

=== FILE: async_handler.dfy ===
/** The `AsyncHandler` protocol the transport drives: one status callback,
    then one headers callback, then one callback per body part, then
    `onCompleted`. Each callback answers `Continue` or `Abort`; after an
    `Abort` nothing more is delivered and the transport goes straight to
    `onCompleted`. A callback that throws ends the exchange with that
    throwable. */
module AsyncHandler {
  import opened Wrappers
  import opened HttpTypes

  /** What the server sends: a status code, the headers, and the body as the
      parts the transport happens to deliver. */
  datatype Response = Response(status: int, headers: Headers, parts: seq<Bytes>)

  /** The outcome of one callback: the handler's next state and its answer, or
      the throwable it raised. */
  type Step<S> = Result<(S, Signal), Throwable>

  /** The five callbacks of one handler class, over its state `S`. */
  datatype Handler<!S, T> = Handler(
    onStatus: (S, int) -> Step<S>,
    onHeaders: (S, Headers) -> Step<S>,
    onPart: (S, Bytes) -> Step<S>,
    onCompleted: S -> Result<T, Throwable>)

  /** Body parts are delivered one by one until a callback answers `Abort`
      or throws. */
  function Feed<S>(onPart: (S, Bytes) -> Step<S>, s: S, parts: seq<Bytes>): (r: Result<S, Throwable>)
    ensures parts == [] ==> r == Ok(s)
    decreases |parts|
  {
    if parts == [] then Ok(s)
    else
      var step :- onPart(s, parts[0]);
      if step.1.Abort? then Ok(step.0) else Feed(onPart, step.0, parts[1..])
  }

  /** One exchange: what the handler's future completes with. */
  function Run<S, T>(h: Handler<S, T>, init: S, resp: Response): (r: Result<T, Throwable>)
  {
    var afterStatus :- h.onStatus(init, resp.status);
    if afterStatus.1.Abort? then h.onCompleted(afterStatus.0)
    else
      var afterHeaders :- h.onHeaders(afterStatus.0, resp.headers);
      if afterHeaders.1.Abort? then h.onCompleted(afterHeaders.0)
      else
        var afterBody :- Feed(h.onPart, afterHeaders.0, resp.parts);
        h.onCompleted(afterBody)
  }

  /** When the status callback answers `Continue`, the exchange fails with the
      headers callback's throwable, or goes on to the body and completes with
      the state the parts leave unless one of them throws. */
  lemma RunStages<S, T>(h: Handler<S, T>, init: S, resp: Response)
    requires h.onStatus(init, resp.status).Ok? && h.onStatus(init, resp.status).value.1 == Continue
    ensures var hd := h.onHeaders(h.onStatus(init, resp.status).value.0, resp.headers);
      && (hd.Err? ==> Run(h, init, resp) == Err(hd.error))
      && (hd.Ok? && hd.value.1 == Abort ==> Run(h, init, resp) == h.onCompleted(hd.value.0))
      && (hd.Ok? && hd.value.1 == Continue ==>
            var fed := Feed(h.onPart, hd.value.0, resp.parts);
            && (fed.Err? ==> Run(h, init, resp) == Err(fed.error))
            && (fed.Ok? ==> Run(h, init, resp) == h.onCompleted(fed.value)))
  {
  }
}

=== FILE: executor.dfy ===
/** `RequestExecutor`: a flat pool of permits with a FIFO backlog. A request is
    queued, then dispatched as soon as a permit is free; each completion gives
    its permit back and dispatches the next queued request before resolving
    the finished request's future. Every callback is one atomic step. */
module RequestExecutor {
  import opened Wrappers
  import opened HttpTypes

  /** A submitted request. `owner` is the submitting client's `toString()`,
      which the failure message quotes. */
  datatype Task = Task(id: nat, owner: string)

  /** `permits` is the constructor argument (a `Semaphore` accepts a negative
      count); `free` is the semaphore's available permits; `inFlight` holds the
      dispatched tasks whose transport future has not completed. `submitted`
      and `dispatched` record the task ids in submission and dispatch order;
      the Java class does not keep them, they only serve to state FIFO. */
  datatype Executor<M> = Executor(
    permits: int,
    free: int,
    deque: seq<Task>,
    inFlight: seq<Task>,
    futures: map<nat, Future<M>>,
    nextId: nat,
    submitted: seq<nat>,
    dispatched: seq<nat>)

  function Ids(ts: seq<Task>): (r: seq<nat>)
    ensures |r| == |ts|
    ensures forall i :: 0 <= i < |ts| ==> r[i] == ts[i].id
  {
    if ts == [] then [] else [ts[0].id] + Ids(ts[1..])
  }

  predicate Distinct(xs: seq<nat>) {
    forall i, j :: 0 <= i < j < |xs| ==> xs[i] != xs[j]
  }

  /** Everything a reachable state satisfies except the "no idle permit while
      work waits" rule, which holds again after each `checkQueue`. */
  ghost predicate Core<M>(e: Executor<M>) {
    // conservation of permits
    && e.free + |e.inFlight| == e.permits
    && (e.permits >= 0 ==> e.free >= 0)
    // FIFO: what has left the backlog, then what is still in it, is what was submitted
    && e.dispatched + Ids(e.deque) == e.submitted
    && |e.submitted| == e.nextId
    && (forall i :: 0 <= i < |e.submitted| ==> e.submitted[i] == i)
    // running tasks are distinct dispatched ones
    && Distinct(Ids(e.inFlight))
    && (forall i :: 0 <= i < |e.inFlight| ==> e.inFlight[i].id < |e.dispatched|)
    // one future per submitted task, pending exactly while it waits or runs
    && (forall id :: id in e.futures ==> id < e.nextId)
    && (forall id :: 0 <= id < e.nextId ==> id in e.futures)
    && (forall id :: id in e.futures ==>
          (e.futures[id].Pending? <==> id >= |e.dispatched| || id in Ids(e.inFlight)))
  }

  /** The facts every reachable state satisfies. */
  ghost predicate Inv<M>(e: Executor<M>) {
    Core(e) && (e.deque != [] ==> e.free <= 0)
  }

  /** `new RequestExecutor(permits)`. */
  function New<M>(permits: int): (e: Executor<M>)
    ensures e.free == e.permits == permits && e.deque == [] && e.inFlight == []
  {
    Executor(permits, permits, [], [], map[], 0, [], [])
  }

  /** `checkQueue()`: take a permit if one is free; then take the first queued
      task and dispatch it, or give the permit back when nothing is queued. */
  function CheckQueue<M>(e: Executor<M>): (r: Executor<M>)
    ensures r.free + |r.inFlight| == e.free + |e.inFlight|
    ensures |r.dispatched| <= |e.dispatched| + 1
    ensures r.dispatched + Ids(r.deque) == e.dispatched + Ids(e.deque)
    ensures r.futures == e.futures && r.submitted == e.submitted && r.permits == e.permits
  {
    if e.free > 0 && e.deque != [] then
      var t := e.deque[0];
      IdsFront(e.deque);
      assert e.dispatched + [t.id] + Ids(e.deque[1..]) == e.dispatched + ([t.id] + Ids(e.deque[1..]));
      e.(free := e.free - 1, deque := e.deque[1..], inFlight := e.inFlight + [t],
         dispatched := e.dispatched + [t.id])
    else
      e
  }

  /** `deque.add(task)`: the new task, with its fresh pending future, goes to
      the back of the backlog. */
  function Enqueue<M>(e: Executor<M>, owner: string): (r: Executor<M>)
    ensures r.deque == e.deque + [Task(e.nextId, owner)] && r.inFlight == e.inFlight
    ensures r.free == e.free && r.permits == e.permits && r.dispatched == e.dispatched
    ensures r.nextId == e.nextId + 1 && r.submitted == e.submitted + [e.nextId]
    ensures r.futures == e.futures[e.nextId := Pending]
  {
    var t := Task(e.nextId, owner);
    e.(deque := e.deque + [t], futures := e.futures[t.id := Pending],
       nextId := e.nextId + 1, submitted := e.submitted + [t.id])
  }

  /** `execute(client, request)`: queue a new task at the back, run one
      `checkQueue`, and hand back the new task's future (by its id). */
  function Submit<M>(e: Executor<M>, owner: string): (r: (Executor<M>, nat))
    ensures r.1 == e.nextId && r.0.nextId == e.nextId + 1
    ensures r.0.submitted == e.submitted + [r.1]
    ensures r.1 in r.0.futures && r.0.futures[r.1].Pending?
    ensures forall id :: id in e.futures && id != r.1 ==> id in r.0.futures && r.0.futures[id] == e.futures[id]
  {
    (CheckQueue(Enqueue(e, owner)), e.nextId)
  }

  lemma IdsFront(ts: seq<Task>)
    requires ts != []
    ensures Ids(ts) == [ts[0].id] + Ids(ts[1..])
  {
  }

  /** Position of the in-flight task with the given id. */
  function IndexOfId(ts: seq<Task>, id: nat): (i: nat)
    requires id in Ids(ts)
    ensures i < |ts| && ts[i].id == id
  {
    if ts[0].id == id then 0 else 1 + IndexOfId(ts[1..], id)
  }

  /** The value the task's future is resolved with: the model, or an
      `HttpException` naming the client and wrapping the transport's throwable. */
  function Resolution<M>(owner: string, outcome: Result<M, Throwable>): (f: Future<M>)
    ensures !f.Pending?
    ensures outcome.Ok? <==> f.Completed?
    ensures outcome.Ok? ==> f.model == outcome.value
    ensures outcome.Err? ==> f.error.HttpException? && f.error.cause == Some(outcome.error)
  {
    match outcome
    case Ok(model) => Completed(model)
    case Err(t) => Failed(HttpException("Could not execute " + owner, Some(t)))
  }

  /** The index that position `j` of a sequence with index `i` removed had
      before the removal. */
  function Skip(j: nat, i: nat): nat {
    if j < i then j else j + 1
  }

  /** `ts` without its element at index `i`. */
  function RemoveAt(ts: seq<Task>, i: nat): (r: seq<Task>)
    requires i < |ts|
    ensures |r| == |ts| - 1
    ensures forall j :: 0 <= j < |r| ==> r[j] == ts[Skip(j, i)]
  {
    ts[..i] + ts[i + 1..]
  }

  /** The completion callback of a dispatched task: release the permit, run
      `checkQueue`, then resolve the task's future. */
  function Complete<M>(e: Executor<M>, id: nat, outcome: Result<M, Throwable>): (r: Executor<M>)
    requires id in Ids(e.inFlight)
    ensures r.free + |r.inFlight| == e.free + |e.inFlight|
    ensures r.futures == e.futures[id := Resolution(e.inFlight[IndexOfId(e.inFlight, id)].owner, outcome)]
  {
    var i := IndexOfId(e.inFlight, id);
    var t := e.inFlight[i];
    var released := e.(free := e.free + 1, inFlight := RemoveAt(e.inFlight, i));
    var next := CheckQueue(released);
    next.(futures := next.futures[id := Resolution(t.owner, outcome)])
  }

  /** `awaitAll()` returns once the available permits reach the initial count. */
  predicate AwaitAllDone<M>(e: Executor<M>) {
    e.free >= e.permits
  }
}

module RequestExecutorLemmas {
  import opened Wrappers
  import opened HttpTypes
  import opened RequestExecutor

  lemma {:induction false} IdsAppend(a: seq<Task>, b: seq<Task>)
    ensures Ids(a + b) == Ids(a) + Ids(b)
  {
    var l := Ids(a + b);
    assert forall i :: 0 <= i < |l| ==> l[i] == (Ids(a) + Ids(b))[i];
  }

  /** The queued tasks are exactly the submitted ones not yet dispatched. */
  lemma QueuedIds<M>(e: Executor<M>, k: nat)
    requires Core(e) && k < |e.deque|
    ensures e.deque[k].id == |e.dispatched| + k
  {
    assert e.submitted[|e.dispatched| + k] == Ids(e.deque)[k];
  }

  lemma NewInv<M>(permits: int)
    ensures Inv(New<M>(permits))
  {
    var e := New<M>(permits);
    assert Ids([]) == [];
  }

  /** One `checkQueue` from a state with at most one spare permit or at most
      one waiting task restores the full invariant. */
  lemma CheckQueueInv<M>(e: Executor<M>)
    requires Core(e)
    requires |e.deque| <= 1 || e.free <= 1
    ensures Inv(CheckQueue(e))
  {
    var r := CheckQueue(e);
    if e.free > 0 && e.deque != [] {
      var t := e.deque[0];
      QueuedIds(e, 0);
      IdsAppend(e.inFlight, [t]);
      assert Ids([t]) == [t.id];
      assert Ids(r.inFlight) == Ids(e.inFlight) + [t.id];
      forall id | id in r.futures
        ensures r.futures[id].Pending? <==> id >= |r.dispatched| || id in Ids(r.inFlight)
      {
        if id == t.id {
          assert Ids(r.inFlight)[|e.inFlight|] == id;
        }
      }
    }
  }

  lemma EnqueueCore<M>(e: Executor<M>, owner: string)
    requires Inv(e)
    ensures Core(Enqueue(e, owner))
  {
    var t := Task(e.nextId, owner);
    var q := Enqueue(e, owner);
    IdsAppend(e.deque, [t]);
    assert Ids([t]) == [t.id];
    assert q.dispatched + Ids(q.deque) == q.submitted;
    assert |e.dispatched| <= |e.submitted| == t.id;
    forall id | id in q.futures
      ensures q.futures[id].Pending? <==> id >= |q.dispatched| || id in Ids(q.inFlight)
    {
      if id != t.id {
        assert id in e.futures;
      }
    }
  }

  /** Submitting keeps the invariant. */
  lemma SubmitInv<M>(e: Executor<M>, owner: string)
    requires Inv(e)
    ensures Inv(Submit(e, owner).0)
  {
    EnqueueCore(e, owner);
    CheckQueueInv(Enqueue(e, owner));
  }

  lemma IdsSkip(ts: seq<Task>, i: nat)
    requires i < |ts|
    ensures forall j :: 0 <= j < |ts| - 1 ==> Ids(RemoveAt(ts, i))[j] == Ids(ts)[Skip(j, i)]
  {
  }

  /** Removing one position from a sequence of distinct ids removes exactly
      that id. */
  lemma DistinctSkip(ids: seq<nat>, rids: seq<nat>, i: nat)
    requires i < |ids| && |rids| == |ids| - 1 && Distinct(ids)
    requires forall j :: 0 <= j < |rids| ==> rids[j] == ids[Skip(j, i)]
    ensures Distinct(rids)
    ensures forall x :: x in rids <==> x in ids && x != ids[i]
  {
    forall a, b | 0 <= a < b < |rids|
      ensures rids[a] != rids[b]
    {
      assert rids[a] == ids[Skip(a, i)];
      assert rids[b] == ids[Skip(b, i)];
    }
    forall x
      ensures x in rids <==> x in ids && x != ids[i]
    {
      if x in rids {
        var j :| 0 <= j < |rids| && rids[j] == x;
        assert ids[Skip(j, i)] == x;
      }
      if x in ids && x != ids[i] {
        var j :| 0 <= j < |ids| && ids[j] == x;
        var k := if j < i then j else j - 1;
        assert rids[k] == ids[Skip(k, i)];
      }
    }
  }

  lemma RemoveAtIds(ts: seq<Task>, i: nat, ids: seq<nat>, rids: seq<nat>)
    requires i < |ts| && ids == Ids(ts) && Distinct(ids)
    requires rids == Ids(RemoveAt(ts, i))
    ensures Distinct(rids)
    ensures forall x :: x in rids <==> x in ids && x != ts[i].id
  {
    IdsSkip(ts, i);
    DistinctSkip(ids, rids, i);
  }

  /** The completion with the future resolved before the `checkQueue` rather
      than after it; `checkQueue` does not look at futures. */
  function Released<M>(e: Executor<M>, id: nat, outcome: Result<M, Throwable>): Executor<M>
    requires id in Ids(e.inFlight)
  {
    var i := IndexOfId(e.inFlight, id);
    e.(free := e.free + 1, inFlight := RemoveAt(e.inFlight, i),
       futures := e.futures[id := Resolution(e.inFlight[i].owner, outcome)])
  }

  lemma ReleasedCore<M>(e: Executor<M>, id: nat, outcome: Result<M, Throwable>)
    requires Inv(e) && id in Ids(e.inFlight)
    ensures Core(Released(e, id, outcome))
    ensures id !in Ids(Released(e, id, outcome).inFlight)
    ensures id < |Released(e, id, outcome).dispatched|
  {
    var i := IndexOfId(e.inFlight, id);
    var r := Released(e, id, outcome);
    RemoveAtIds(e.inFlight, i, Ids(e.inFlight), Ids(r.inFlight));
    RemoveAtBelow(e.inFlight, i, |e.dispatched|);
    ReleasedFutures(e, id, outcome);
  }

  /** Removing a task keeps every remaining id under a bound. */
  lemma RemoveAtBelow(ts: seq<Task>, i: nat, bound: nat)
    requires i < |ts| && forall j :: 0 <= j < |ts| ==> ts[j].id < bound
    ensures forall j :: 0 <= j < |RemoveAt(ts, i)| ==> RemoveAt(ts, i)[j].id < bound
  {
    var r := RemoveAt(ts, i);
    forall j | 0 <= j < |r|
      ensures r[j].id < bound
    {
      assert r[j] == ts[Skip(j, i)];
    }
  }

  /** After the release, a future is pending exactly while its task waits or
      runs. */
  lemma ReleasedFutures<M>(e: Executor<M>, id: nat, outcome: Result<M, Throwable>)
    requires Inv(e) && id in Ids(e.inFlight)
    requires forall x :: x in Ids(Released(e, id, outcome).inFlight) <==> x in Ids(e.inFlight) && x != id
    ensures var r := Released(e, id, outcome);
      forall x :: x in r.futures ==>
        (r.futures[x].Pending? <==> x >= |r.dispatched| || x in Ids(r.inFlight))
  {
    var r := Released(e, id, outcome);
    forall x | x in r.futures
      ensures r.futures[x].Pending? <==> x >= |r.dispatched| || x in Ids(r.inFlight)
    {
      if x != id {
        assert x in e.futures;
      }
    }
  }

  /** A completion keeps the invariant. */
  lemma CompleteInv<M>(e: Executor<M>, id: nat, outcome: Result<M, Throwable>)
    requires Inv(e) && id in Ids(e.inFlight)
    ensures Inv(Complete(e, id, outcome))
    ensures id !in Ids(Complete(e, id, outcome).inFlight)
    ensures id < |Complete(e, id, outcome).dispatched|
  {
    var r := Released(e, id, outcome);
    ReleasedCore(e, id, outcome);
    CheckQueueInv(r);
    assert CheckQueue(r) == Complete(e, id, outcome);
    var c := CheckQueue(r);
    if c.dispatched != r.dispatched {
      IdsAppend(r.inFlight, [r.deque[0]]);
      QueuedIds(r, 0);
      assert Ids([r.deque[0]]) == [r.deque[0].id];
    }
  }

  /** Tasks leave the backlog in the order they were submitted: the i-th
      dispatch is the i-th submission. */
  lemma DispatchOrder<M>(e: Executor<M>)
    requires Inv(e)
    ensures |e.dispatched| <= e.nextId
    ensures forall i :: 0 <= i < |e.dispatched| ==> e.dispatched[i] == i
  {
    assert forall i :: 0 <= i < |e.dispatched| ==> e.dispatched[i] == e.submitted[i];
  }

  /** `awaitAll` can return exactly when nothing is in flight. */
  lemma AwaitAllIff<M>(e: Executor<M>)
    requires Inv(e)
    ensures AwaitAllDone(e) <==> e.inFlight == []
  {
  }

  /** A completion resolves its own future, exactly once: afterwards the task
      is neither running nor waiting, so no later step can resolve it again,
      and every other future is untouched. */
  lemma CompleteResolvesOnce<M>(e: Executor<M>, id: nat, outcome: Result<M, Throwable>)
    requires Inv(e) && id in Ids(e.inFlight)
    ensures var r := Complete(e, id, outcome);
      && id in r.futures && !r.futures[id].Pending?
      && (outcome.Ok? ==> r.futures[id] == Completed(outcome.value))
      && (outcome.Err? ==> r.futures[id].Failed? && r.futures[id].error.cause == Some(outcome.error))
      && id !in Ids(r.inFlight) && id < |r.dispatched|
      && (forall other :: other in e.futures && other != id ==> other in r.futures && r.futures[other] == e.futures[other])
  {
    CompleteInv(e, id, outcome);
    assert id in e.futures;
  }

  /** Resolved futures never change: neither a submission nor the completion
      of another task touches them. */
  lemma ResolvedStays<M>(e: Executor<M>, id: nat, owner: string, other: nat, outcome: Result<M, Throwable>)
    requires Inv(e) && id in e.futures && !e.futures[id].Pending?
    ensures id in Submit(e, owner).0.futures && Submit(e, owner).0.futures[id] == e.futures[id]
    ensures other in Ids(e.inFlight) ==>
      id in Complete(e, other, outcome).futures && Complete(e, other, outcome).futures[id] == e.futures[id]
  {
    if other in Ids(e.inFlight) {
      assert id != other;
    }
  }

  /** Submitting `labels` one after the other. */
  function SubmitAll<M>(e: Executor<M>, owners: seq<string>): Executor<M>
    decreases |owners|
  {
    if owners == [] then e else SubmitAll(Submit(e, owners[0]).0, owners[1..])
  }

  /** A burst of `n` submissions to an idle executor with `permits >= 0`
      starts `min(n, permits)` requests at once and queues the rest: the
      basis of the ceil(n / permits) rounds the concurrency test times. */
  lemma {:induction false} Burst<M>(e: Executor<M>, owners: seq<string>)
    requires Inv(e) && e.permits >= 0
    ensures Inv(SubmitAll(e, owners))
    ensures |SubmitAll(e, owners).inFlight| == Min(|e.inFlight| + |e.deque| + |owners|, e.permits)
    ensures |SubmitAll(e, owners).deque| == |e.inFlight| + |e.deque| + |owners| - Min(|e.inFlight| + |e.deque| + |owners|, e.permits)
    decreases |owners|
  {
    if owners != [] {
      SubmitInv(e, owners[0]);
      var e' := Submit(e, owners[0]).0;
      Burst(e', owners[1..]);
    }
  }

  function Min(a: int, b: int): int {
    if a <= b then a else b
  }
}

=== FILE: form.dfy ===
/** application/x-www-form-urlencoded encoding and decoding (section 17.13.4.1
    of HTML 4.01, percent-encoding as in section 2.1 of RFC 3986), as
    `java.net.URLEncoder`/`URLDecoder` do it with UTF-8, and the `Form` helper
    built on them. A multimap is given by its entries, in iteration order. */
module Form {
  import opened Wrappers
  import opened HttpTypes
  import Utf8
  import opened JavaStrings

  type Entries = seq<(string, string)>

  /** Characters `URLEncoder` leaves alone. */
  predicate IsUnreserved(c: char) {
    ('a' <= c <= 'z') || ('A' <= c <= 'Z') || ('0' <= c <= '9')
    || c == '.' || c == '-' || c == '*' || c == '_'
  }

  predicate IsUpperHex(c: char) {
    ('0' <= c <= '9') || ('A' <= c <= 'F')
  }

  /** Every character `URLEncoder` can produce. */
  predicate IsEncodedChar(c: char) {
    IsUnreserved(c) || c == '+' || c == '%' || IsUpperHex(c)
  }

  /** `r` is made of characters `URLEncoder` can produce only. */
  predicate InEncodedAlphabet(r: string) {
    forall i :: 0 <= i < |r| ==> IsEncodedChar(r[i])
  }

  function HexDigit(d: int): (c: char)
    requires 0 <= d < 16
    ensures IsUpperHex(c)
  {
    if d < 10 then ('0' as int + d) as char else ('A' as int + d - 10) as char
  }

  /** "%XY" for every byte, upper-case hexadecimal. */
  function PercentEncode(bs: Bytes): (r: string)
    ensures |r| == 3 * |bs|
    ensures InEncodedAlphabet(r)
    ensures bs != [] ==> r[0] == '%'
  {
    if bs == [] then []
    else
      var head := ['%', HexDigit(bs[0] as int / 16), HexDigit(bs[0] as int % 16)];
      var r := head + PercentEncode(bs[1..]);
      assert forall i :: 3 <= i < |r| ==> r[i] == PercentEncode(bs[1..])[i - 3];
      r
  }

  function EncodeChar(c: char): (r: string)
    ensures r != []
    ensures InEncodedAlphabet(r)
  {
    if IsUnreserved(c) then [c]
    else if c == ' ' then "+"
    else PercentEncode(Utf8.EncodeChar(c))
  }

  /** `URLEncoder.encode(s, "UTF-8")`. */
  function UrlEncode(s: string): (r: string)
    ensures InEncodedAlphabet(r)
    ensures '&' !in r && '=' !in r
    ensures r == [] <==> s == []
  {
    if s == [] then []
    else
      var head := EncodeChar(s[0]);
      var tail := UrlEncode(s[1..]);
      AlphabetAppend(head, tail);
      head + tail
  }

  /** Text in the encoded alphabet stays in it when concatenated, and never
      holds the form separators. */
  lemma AlphabetAppend(a: string, b: string)
    requires InEncodedAlphabet(a) && InEncodedAlphabet(b)
    ensures InEncodedAlphabet(a + b)
    ensures '&' !in a + b && '=' !in a + b
  {
    assert forall i :: |a| <= i < |a + b| ==> (a + b)[i] == b[i - |a|];
  }

  predicate IsHex(c: char) {
    ('0' <= c <= '9') || ('a' <= c <= 'f') || ('A' <= c <= 'F')
  }

  function HexValue(c: char): (v: int)
    requires IsHex(c)
    ensures 0 <= v < 16
  {
    if '0' <= c <= '9' then c as int - '0' as int
    else if 'a' <= c <= 'f' then c as int - 'a' as int + 10
    else c as int - 'A' as int + 10
  }

  /** `Integer.parseInt(a + b, 16)`, which also takes a sign in front of a single
      digit ("+F" is 15, "-1" is -1). */
  function ParseHexPair(a: char, b: char): Option<int> {
    if a == '+' && IsHex(b) then Some(HexValue(b))
    else if a == '-' && IsHex(b) then Some(-HexValue(b))
    else if IsHex(a) && IsHex(b) then Some(16 * HexValue(a) + HexValue(b))
    else None
  }

  /** The bytes of a run of consecutive "%XY" escapes at the front of `s`, and
      how many characters the run takes. An escape that is not a number
      fails with the `NumberFormatException` message of
      `Integer.parseInt(String, 16)` appended. */
  function EscapeRun(s: string): (r: Result<(Bytes, int), Throwable>)
    ensures r.Ok? ==> 0 <= r.value.1 <= |s| && r.value.1 == 3 * |r.value.0|
    decreases |s|
  {
    if |s| >= 3 && s[0] == '%' then
      match ParseHexPair(s[1], s[2])
      case None => Err(IllegalArgumentException(
        "URLDecoder: Illegal hex characters in escape (%) pattern - For input string: \"" + [s[1], s[2]] + "\""))
      case Some(v) =>
        if v < 0 then Err(IllegalArgumentException("URLDecoder: Illegal hex characters in escape (%) pattern - negative value"))
        else
          match EscapeRun(s[3..])
          case Err(e) => Err(e)
          case Ok((bs, k)) => Ok(([v as Byte] + bs, k + 3))
    else if |s| > 0 && s[0] == '%' then
      Err(IllegalArgumentException("URLDecoder: Incomplete trailing escape (%) pattern"))
    else
      Ok(([], 0))
  }

  /** `URLDecoder.decode(s, "UTF-8")`: '+' is a space, each run of escapes is
      decoded as one UTF-8 byte sequence, everything else is copied. */
  function UrlDecode(s: string): (r: Result<string, Throwable>)
    decreases |s|
  {
    if s == [] then Ok([])
    else if s[0] == '+' then
      match UrlDecode(s[1..])
      case Err(e) => Err(e)
      case Ok(t) => Ok([' '] + t)
    else if s[0] == '%' then
      match EscapeRun(s)
      case Err(e) => Err(e)
      case Ok((bs, k)) =>
        match UrlDecode(s[k..])
        case Err(e) => Err(e)
        case Ok(t) => Ok(Utf8.Decode(bs) + t)
    else
      match UrlDecode(s[1..])
      case Err(e) => Err(e)
      case Ok(t) => Ok([s[0]] + t)
  }

  /** `Form.encode(Multimap)`: "key=value" for every entry, joined by '&'. */
  function Encode(m: Entries): (r: string)
    ensures m == [] <==> r == []
  {
    Join(Pairs(m), "&")
  }

  function Pair(e: (string, string)): (r: string)
    ensures '=' in r && '&' !in r
  {
    UrlEncode(e.0) + "=" + UrlEncode(e.1)
  }

  function Pairs(m: Entries): (r: seq<string>)
    ensures |r| == |m|
    ensures forall i :: 0 <= i < |m| ==> r[i] == Pair(m[i])
  {
    if m == [] then [] else [Pair(m[0])] + Pairs(m[1..])
  }

  /** `Form.decode`: split on '&', split each piece on '=', decode the first two
      parts as key and value. A piece without a value part fails the way the
      array access `keyValue[1]` does. */
  function Decode(input: string): Result<Entries, Throwable> {
    DecodePieces(Split(input, '&'))
  }

  function DecodePieces(pieces: seq<string>): (r: Result<Entries, Throwable>)
    ensures r.Ok? ==> |r.value| == |pieces|
  {
    if pieces == [] then Ok([])
    else
      match DecodePiece(pieces[0])
      case Err(e) => Err(e)
      case Ok(kv) =>
        match DecodePieces(pieces[1..])
        case Err(e) => Err(e)
        case Ok(rest) => Ok([kv] + rest)
  }

  function DecodePiece(piece: string): Result<(string, string), Throwable> {
    var keyValue := Split(piece, '=');
    if |keyValue| == 0 then Err(IndexOutOfBoundsException(0))
    else
      match UrlDecode(keyValue[0])
      case Err(e) => Err(e)
      case Ok(k) =>
        if |keyValue| < 2 then Err(IndexOutOfBoundsException(1))
        else
          match UrlDecode(keyValue[1])
          case Err(e) => Err(e)
          case Ok(v) => Ok((k, v))
  }
}

module FormLemmas {
  import opened Wrappers
  import opened HttpTypes
  import Utf8
  import Utf8Lemmas
  import opened JavaStrings
  import JavaStringsLemmas
  import opened Form

  lemma HexPairOfByte(b: Byte)
    ensures ParseHexPair(HexDigit(b as int / 16), HexDigit(b as int % 16)) == Some(b as int)
  {
    var hi := HexDigit(b as int / 16);
    var lo := HexDigit(b as int % 16);
    assert HexValue(hi) == b as int / 16;
    assert HexValue(lo) == b as int % 16;
  }

  lemma {:induction false} PercentEncodeAppend(a: Bytes, b: Bytes)
    ensures PercentEncode(a + b) == PercentEncode(a) + PercentEncode(b)
    decreases |a|
  {
    if a == [] {
      assert a + b == b;
    } else {
      assert (a + b)[0] == a[0];
      assert (a + b)[1..] == a[1..] + b;
      PercentEncodeAppend(a[1..], b);
    }
  }

  /** A run of escapes produced by `PercentEncode` and not followed by another
      escape is read back as exactly the bytes it encodes. */
  lemma {:induction false} EscapeRunOfPercentEncode(bs: Bytes, t: string)
    requires t == [] || t[0] != '%'
    ensures EscapeRun(PercentEncode(bs) + t) == Ok((bs, 3 * |bs|))
    decreases |bs|
  {
    var s := PercentEncode(bs) + t;
    if bs == [] {
      assert s == t;
    } else {
      HexPairOfByte(bs[0]);
      assert s[0] == '%';
      assert s[1] == HexDigit(bs[0] as int / 16) && s[2] == HexDigit(bs[0] as int % 16);
      assert s[3..] == PercentEncode(bs[1..]) + t;
      EscapeRunOfPercentEncode(bs[1..], t);
      assert [bs[0]] + bs[1..] == bs;
    }
  }

  /** `UrlDecode` with `x` put in front of a successful result. */
  function Prefixed(x: string, r: Result<string, Throwable>): Result<string, Throwable> {
    match r
    case Ok(t) => Ok(x + t)
    case Err(e) => Err(e)
  }

  /** A character other than '%' at the front is decoded on its own. */
  lemma DecodePlainFront(c: char, t: string)
    requires c != '%'
    ensures UrlDecode([c] + t) == Prefixed([if c == '+' then ' ' else c], UrlDecode(t))
  {
    assert ([c] + t)[1..] == t;
  }

  /** A run of escapes at the front is decoded as one UTF-8 byte sequence. */
  lemma DecodeRunFront(bs: Bytes, t: string)
    requires bs != []
    requires t == [] || t[0] != '%'
    ensures UrlDecode(PercentEncode(bs) + t) == Prefixed(Utf8.Decode(bs), UrlDecode(t))
  {
    var s := PercentEncode(bs) + t;
    EscapeRunOfPercentEncode(bs, t);
    assert s[0] == PercentEncode(bs)[0] == '%';
    assert s[3 * |bs|..] == t;
  }

  lemma EncodePlainFront(s: string)
    requires s != [] && (IsUnreserved(s[0]) || s[0] == ' ')
    ensures UrlEncode(s) == [if s[0] == ' ' then '+' else s[0]] + UrlEncode(s[1..])
  {
  }

  lemma EncodeEscapedFront(s: string)
    requires s != [] && !IsUnreserved(s[0]) && s[0] != ' '
    ensures UrlEncode(s) == PercentEncode(Utf8.EncodeChar(s[0])) + UrlEncode(s[1..])
  {
  }

  /** Extending the pending run by one more escaped character. */
  lemma ExtendRun(p: string, c: char)
    ensures PercentEncode(Utf8.Encode(p)) + PercentEncode(Utf8.EncodeChar(c))
         == PercentEncode(Utf8.Encode(p + [c]))
  {
    PercentEncodeAppend(Utf8.Encode(p), Utf8.EncodeChar(c));
    Utf8Lemmas.EncodeAppend(p, [c]);
    assert [c][1..] == [];
    assert Utf8.Encode([]) == [];
    assert Utf8.Encode([c]) == Utf8.EncodeChar(c) + [];
    assert Utf8.EncodeChar(c) + [] == Utf8.EncodeChar(c);
  }

  /** No pending run, a plain character next. */
  lemma StepPlain(s: string)
    requires s != [] && (IsUnreserved(s[0]) || s[0] == ' ')
    requires UrlDecode(UrlEncode(s[1..])) == Ok(s[1..])
    ensures UrlDecode(UrlEncode(s)) == Ok(s)
  {
    EncodePlainFront(s);
    var c' := if s[0] == ' ' then '+' else s[0];
    DecodePlainFront(c', UrlEncode(s[1..]));
    assert [s[0]] + s[1..] == s;
  }

  /** A pending run, then the end of the input or a plain character. */
  lemma StepCloseRun(p: string, s: string)
    requires p != []
    requires s == [] || IsUnreserved(s[0]) || s[0] == ' '
    requires UrlDecode(UrlEncode(s)) == Ok(s)
    ensures UrlDecode(PercentEncode(Utf8.Encode(p)) + UrlEncode(s)) == Ok(p + s)
  {
    Utf8Lemmas.DecodeEncode(p);
    if s != [] {
      EncodePlainFront(s);
    }
    DecodeRunFront(Utf8.Encode(p), UrlEncode(s));
  }

  /** An escaped character joins the pending run. */
  lemma StepExtendRun(p: string, s: string)
    requires s != [] && !IsUnreserved(s[0]) && s[0] != ' '
    ensures PercentEncode(Utf8.Encode(p)) + UrlEncode(s)
         == PercentEncode(Utf8.Encode(p + [s[0]])) + UrlEncode(s[1..])
  {
    EncodeEscapedFront(s);
    ExtendRun(p, s[0]);
    Regroup(PercentEncode(Utf8.Encode(p)), PercentEncode(Utf8.EncodeChar(s[0])), UrlEncode(s[1..]),
            UrlEncode(s), PercentEncode(Utf8.Encode(p + [s[0]])));
  }

  lemma Regroup(a: string, b: string, c: string, x: string, y: string)
    requires x == b + c && a + b == y
    ensures a + x == y + c
  {
    assert a + (b + c) == (a + b) + c;
  }

  lemma ConsFront(p: string, s: string)
    requires s != []
    ensures p + [s[0]] + s[1..] == p + s
  {
    assert s == [s[0]] + s[1..];
  }

  /** Rewrites the input of UrlDecode along a string equality without unfolding the decoder. */
  lemma SameDecode(x: string, y: string, v: string)
    requires x == y && UrlDecode(y) == Ok(v)
    ensures UrlDecode(x) == Ok(v)
  {
  }

  /** The percent-encoded UTF-8 of `p` followed by the encoding of `s` decodes
      to `p + s`; consecutive escapes from neighbouring characters are decoded
      as one byte run and still come back intact. */
  lemma {:induction false} UrlDecodeEncodeAfterRun(p: string, s: string)
    ensures UrlDecode(PercentEncode(Utf8.Encode(p)) + UrlEncode(s)) == Ok(p + s)
    decreases |s|, |p|, 1
  {
    if s != [] && !IsUnreserved(s[0]) && s[0] != ' ' {
      AfterRunExtend(p, s);
    } else if p != [] {
      AfterRunClose(p, s);
    } else {
      AfterRunPlain(s);
      assert p + s == s;
    }
  }

  lemma {:induction false} AfterRunExtend(p: string, s: string)
    requires s != [] && !IsUnreserved(s[0]) && s[0] != ' '
    ensures UrlDecode(PercentEncode(Utf8.Encode(p)) + UrlEncode(s)) == Ok(p + s)
    decreases |s|, |p|, 0
  {
    UrlDecodeEncodeAfterRun(p + [s[0]], s[1..]);
    StepExtendRun(p, s);
    ConsFront(p, s);
    SameDecode(PercentEncode(Utf8.Encode(p)) + UrlEncode(s),
               PercentEncode(Utf8.Encode(p + [s[0]])) + UrlEncode(s[1..]), p + s);
  }

  lemma {:induction false} AfterRunClose(p: string, s: string)
    requires p != []
    requires s == [] || IsUnreserved(s[0]) || s[0] == ' '
    ensures UrlDecode(PercentEncode(Utf8.Encode(p)) + UrlEncode(s)) == Ok(p + s)
    decreases |s|, |p|, 0
  {
    UrlDecodeEncodeAfterRun([], s);
    EmptyRun(UrlEncode(s));
    assert [] + s == s;
    SameDecode(UrlEncode(s), PercentEncode(Utf8.Encode([])) + UrlEncode(s), s);
    StepCloseRun(p, s);
  }

  lemma {:induction false} AfterRunPlain(s: string)
    requires s == [] || IsUnreserved(s[0]) || s[0] == ' '
    ensures UrlDecode(PercentEncode(Utf8.Encode([])) + UrlEncode(s)) == Ok(s)
    decreases |s|, 0, 0
  {
    EmptyRun(UrlEncode(s));
    if s != [] {
      UrlDecodeEncodeAfterRun([], s[1..]);
      EmptyRun(UrlEncode(s[1..]));
      assert [] + s[1..] == s[1..];
      SameDecode(UrlEncode(s[1..]), PercentEncode(Utf8.Encode([])) + UrlEncode(s[1..]), s[1..]);
      StepPlain(s);
    } else {
      assert UrlEncode(s) == [];
    }
    SameDecode(PercentEncode(Utf8.Encode([])) + UrlEncode(s), UrlEncode(s), s);
  }

  /** Round trip of `URLEncoder`/`URLDecoder`: every string comes back. */
  lemma UrlDecodeEncode(s: string)
    ensures UrlDecode(UrlEncode(s)) == Ok(s)
  {
    EmptyRun(UrlEncode(s));
    UrlDecodeEncodeAfterRun([], s);
    assert [] + s == s;
  }

  lemma EmptyRun(t: string)
    ensures PercentEncode(Utf8.Encode([])) + t == t
  {
    assert Utf8.Encode([]) == [];
    assert PercentEncode([]) == [];
  }

  /** One encoded entry decodes back to itself exactly when its value is not
      empty; an empty value leaves `keyValue[1]` out of range. */
  lemma DecodePieceOfPair(e: (string, string))
    ensures e.1 != "" ==> DecodePiece(Pair(e)) == Ok(e)
    ensures e.1 == "" ==> DecodePiece(Pair(e)).Err?
  {
    var ek := UrlEncode(e.0);
    var ev := UrlEncode(e.1);
    assert Pair(e) == Join([ek, ev], "=");
    JavaStringsLemmas.PiecesJoin([ek, ev], '=');
    assert Pair(e)[|ek|] == '=';
    UrlDecodeEncode(e.0);
    UrlDecodeEncode(e.1);
    if e.1 == "" {
      assert ev == "";
    }
  }

  /** Every entry of `m` has a non-empty value. */
  predicate AllValued(m: Entries) {
    m == [] || (m[0].1 != "" && AllValued(m[1..]))
  }

  lemma {:induction false} AllValuedIff(m: Entries)
    ensures AllValued(m) <==> forall i :: 0 <= i < |m| ==> m[i].1 != ""
  {
    if m != [] {
      AllValuedIff(m[1..]);
      assert forall i :: 1 <= i < |m| ==> m[i] == m[1..][i - 1];
    }
  }

  /** `DecodePieces` read from the front: it fails where the first piece
      fails, and otherwise puts the first entry before the rest's. */
  lemma DecodePiecesFront(pieces: seq<string>)
    requires pieces != []
    ensures DecodePiece(pieces[0]).Err? ==> DecodePieces(pieces).Err?
    ensures DecodePiece(pieces[0]).Ok? ==>
      (DecodePieces(pieces).Ok? <==> DecodePieces(pieces[1..]).Ok?)
    ensures DecodePiece(pieces[0]).Ok? && DecodePieces(pieces[1..]).Ok? ==>
      DecodePieces(pieces).value == [DecodePiece(pieces[0]).value] + DecodePieces(pieces[1..]).value
  {
  }

  /** Pieces that each decode to the matching entry, or fail where its value
      is empty, decode together exactly when every value is present. */
  lemma {:induction false} DecodeEachPiece(ps: seq<string>, m: Entries)
    requires |ps| == |m|
    requires forall i :: 0 <= i < |m| && m[i].1 != "" ==> DecodePiece(ps[i]) == Ok(m[i])
    requires forall i :: 0 <= i < |m| && m[i].1 == "" ==> DecodePiece(ps[i]).Err?
    ensures DecodePieces(ps).Ok? <==> AllValued(m)
    ensures DecodePieces(ps).Ok? ==> DecodePieces(ps).value == m
    decreases |m|
  {
    if m != [] {
      assert forall i :: 0 <= i < |m[1..]| ==> ps[1..][i] == ps[i + 1] && m[1..][i] == m[i + 1];
      DecodeEachPiece(ps[1..], m[1..]);
      DecodePiecesFront(ps);
      if m[0].1 != "" {
        assert [m[0]] + m[1..] == m;
      }
    }
  }

  lemma DecodePiecesOfPairs(m: Entries)
    ensures DecodePieces(Pairs(m)).Ok? <==> AllValued(m)
    ensures DecodePieces(Pairs(m)).Ok? ==> DecodePieces(Pairs(m)).value == m
  {
    var ps := Pairs(m);
    forall i | 0 <= i < |m|
      ensures m[i].1 != "" ==> DecodePiece(ps[i]) == Ok(m[i])
      ensures m[i].1 == "" ==> DecodePiece(ps[i]).Err?
    {
      DecodePieceOfPair(m[i]);
    }
    DecodeEachPiece(ps, m);
  }

  /** `Form.decode(Form.encode(m))` succeeds exactly when `m` is not empty and
      none of its values is empty, and then gives back `m`'s entries in the
      same order, duplicate keys and empty keys included. */
  lemma FormRoundTrip(m: Entries)
    ensures Decode(Encode(m)).Ok? <==> (m != [] && forall i :: 0 <= i < |m| ==> m[i].1 != "")
    ensures Decode(Encode(m)).Ok? ==> Decode(Encode(m)).value == m
  {
    if m == [] {
      assert Split("", '&') == [""];
      assert Split("", '=') == [""];
      assert UrlDecode("") == Ok("");
    } else {
      forall i | 0 <= i < |Pairs(m)|
        ensures '&' !in Pairs(m)[i] && Pairs(m)[i] != ""
      {
        assert '=' in Pair(m[i]);
      }
      JavaStringsLemmas.SplitJoin(Pairs(m), '&');
      DecodePiecesOfPairs(m);
      AllValuedIff(m);
    }
  }

  /** The three ways an escape fails: not a number, a negative number, or
      cut short; a well-formed escape decodes. */
  lemma EscapeFailures()
    ensures UrlDecode("%zz") == Err(IllegalArgumentException(
      "URLDecoder: Illegal hex characters in escape (%) pattern - For input string: \"zz\""))
    ensures UrlDecode("%-1") == Err(IllegalArgumentException(
      "URLDecoder: Illegal hex characters in escape (%) pattern - negative value"))
    ensures UrlDecode("a%2") == Err(IllegalArgumentException("URLDecoder: Incomplete trailing escape (%) pattern"))
    ensures UrlDecode("%41") == Ok("A")
  {
    var prefix := "URLDecoder: Illegal hex characters in escape (%) pattern - For input string: \"";
    assert ParseHexPair('z', 'z') == None;
    assert prefix + ['z', 'z'] + "\"" == prefix + "zz\"";
    var s := "%zz";
    assert s[0] == '%' && s[1] == 'z' && s[2] == 'z' && |s| == 3;
    assert EscapeRun(s) == Err(IllegalArgumentException(prefix + [s[1], s[2]] + "\""));
    assert UrlDecode(s) == Err(IllegalArgumentException(prefix + "zz\""));
    assert prefix + "zz\"" == "URLDecoder: Illegal hex characters in escape (%) pattern - For input string: \"zz\"";
    assert "a%2"[1..] == "%2";
    assert "%41"[3..] == [];
    assert Utf8.Decode([0x41]) == "A" by {
      assert [0x41 as Byte][1..] == [];
    }
  }

  /** The two encodings the test suite checks. */
  lemma EncodeExamples()
    ensures UrlEncode("a&w") == "a%26w"
    ensures Encode([("a", "6"), ("b", "y&p")]) == "a=6&b=y%26p"
  {
    assert Utf8.EncodeChar('&') == [0x26];
    assert UrlEncode("a&w") == "a" + UrlEncode("&w");
    assert UrlEncode("&w") == "%26" + UrlEncode("w");
    assert UrlEncode("y&p") == "y" + UrlEncode("&p");
    assert UrlEncode("&p") == "%26" + UrlEncode("p");
  }
}

=== FILE: http_client.dfy ===
/** `HttpClient`: an immutable client in the "mutant factory" style. Every
    edit returns a new client. Request edits rebuild the request through its
    builder. Derived clients share the receiver's `RequestExecutor` unless a
    new concurrency limit is asked for. The transport, the JSON codec and the
    thread pool are outside the model: the request handed to the executor is
    returned as a `Prepared` record, and what a future yields is a
    parameter. */
module HttpClient {
  import opened Wrappers
  import opened HttpTypes
  import opened Multimaps
  import opened Requests

  /** An `ObjectMapper`, known only by identity. */
  datatype MapperRef = MapperRef(id: nat)

  /** `JacksonConfig`: the object mapper, the name of the model type decoded
      into, and the streaming cutoff. */
  datatype JacksonConfig = JacksonConfig(mapper: MapperRef, modelType: string, cutoff: int)

  /** The response-handler supplier a client carries. */
  datatype ResponseHandler =
    | JsonHandler(config: JacksonConfig)
    | StatusHandler
    | StringHandler
    | VoidHandler
    | CustomHandler(name: string)

  /** The request mapper a client carries. */
  datatype RequestMapper =
    | JsonRequest(mapper: MapperRef)
    | FormRequest
    | CustomRequest(name: string, contentType: string)

  /** A `RequestExecutor`, known by identity and permit count. Clients that
      hold the same reference share one permit pool. */
  datatype ExecutorRef = ExecutorRef(id: nat, permits: int)

  datatype Client = Client(
    executor: ExecutorRef,
    config: JacksonConfig,
    response: ResponseHandler,
    requestMapper: RequestMapper,
    request: Request)

  /** What `executeAsync` hands the executor: the request as the transport
      sends it, the handler that will read the response, and the executor
      that admits it. */
  datatype Prepared = Prepared(
    httpMethod: string,
    url: string,
    headers: seq<(string, string)>,
    queryParams: seq<(string, string)>,
    body: Option<Bytes>,
    response: ResponseHandler,
    executor: ExecutorRef)

  const DefaultConcurrency: int := 4
  const DefaultCutoff: int := 1024
  const JsonContentType: string := "application/json"
  const FormContentType: string := "application/x-www-form-urlencoded"

  function DefaultContentType(m: RequestMapper): string {
    match m
    case JsonRequest(_) => JsonContentType
    case FormRequest => FormContentType
    case CustomRequest(_, contentType) => contentType
  }

  // ---------------------------------------------------------- construction

  /** `createDefault(url)`: a JSON client over a fresh executor of 4 permits
      and a cutoff of 1024 bytes. A url the request constructor rejects makes
      this throw. */
  function CreateDefault(url: Option<string>, mapper: MapperRef, executorId: nat): (r: Result<Client, Throwable>)
    ensures r.Ok? <==> Build(NewBuilder(url)).Ok?
    ensures r.Ok? ==>
      && r.value.executor == ExecutorRef(executorId, DefaultConcurrency)
      && r.value.config == JacksonConfig(mapper, "JsonNode", DefaultCutoff)
      && r.value.response == JsonHandler(r.value.config)
      && r.value.requestMapper == JsonRequest(mapper)
      && Build(NewBuilder(url)) == Ok(r.value.request)
  {
    var request :- Build(NewBuilder(url));
    var config := JacksonConfig(mapper, "JsonNode", DefaultCutoff);
    Ok(Client(ExecutorRef(executorId, DefaultConcurrency), config, JsonHandler(config), JsonRequest(mapper), request))
  }

  // --------------------------------------------------------- request edits

  /** `clone(request.toBuilder()....build())`: only the request changes, and
      the edit fails exactly when the rebuilt request does. */
  function Edit(c: Client, b: Builder): (r: Result<Client, Throwable>)
    ensures r.Ok? <==> Build(b).Ok?
    ensures r.Ok? ==> r.value == c.(request := r.value.request) && Build(b) == Ok(r.value.request)
    ensures r.Err? ==> r.error == Build(b).error
  {
    var request :- Build(b);
    Ok(c.(request := request))
  }

  function Method(c: Client, m: string): (r: Result<Client, Throwable>)
    ensures r.Ok? ==> r.value == c.(request := r.value.request)
    ensures r.Ok? ==> r.value.request.httpMethod == ToUpperAscii(m)
  {
    Edit(c, SetMethod(ToBuilder(c.request), m))
  }

  function Url(c: Client, url: string): (r: Result<Client, Throwable>)
    ensures r.Ok? ==> r.value == c.(request := r.value.request)
  {
    Edit(c, SetUrl(ToBuilder(c.request), Some(url)))
  }

  function Path(c: Client, path: string): (r: Result<Client, Throwable>)
    ensures r.Ok? ==> r.value == c.(request := r.value.request)
  {
    Edit(c, SetPath(ToBuilder(c.request), path))
  }

  /** `appendPath` goes through the builder's `addPath`. */
  function AppendPath(c: Client, path: string): (r: Result<Client, Throwable>)
    ensures r.Ok? ==> r.value == c.(request := r.value.request)
  {
    Edit(c, AddPath(ToBuilder(c.request), path))
  }

  function PathParam(c: Client, key: string, val: string): (r: Result<Client, Throwable>)
    ensures key in PathParamKeys(c.request.pathParams) ==> r.Err? && r.error.IllegalArgumentException?
    ensures r.Ok? ==> r.value == c.(request := r.value.request)
  {
    var b :- Requests.PathParam(ToBuilder(c.request), key, val);
    Edit(c, b)
  }

  function SetQueryParam(c: Client, key: string, val: string): (r: Result<Client, Throwable>)
    ensures r.Ok? ==> r.value == c.(request := r.value.request)
  {
    Edit(c, Requests.SetQueryParam(ToBuilder(c.request), key, val))
  }

  function AddQueryParam(c: Client, key: string, val: string): (r: Result<Client, Throwable>)
    ensures r.Ok? ==> r.value == c.(request := r.value.request)
  {
    Edit(c, Requests.AddQueryParam(ToBuilder(c.request), key, val))
  }

  function SetHeader(c: Client, key: string, val: string): (r: Result<Client, Throwable>)
    ensures r.Ok? ==> r.value == c.(request := r.value.request)
  {
    Edit(c, Requests.SetHeader(ToBuilder(c.request), key, val))
  }

  function AddHeader(c: Client, key: string, val: string): (r: Result<Client, Throwable>)
    ensures r.Ok? ==> r.value == c.(request := r.value.request)
  {
    Edit(c, Requests.AddHeader(ToBuilder(c.request), key, val))
  }

  // ------------------------------------------------------ mapper derivation

  /** `responseMapper(h)`: the new handler, a config whose model type is
      reset to `Void`, and the same executor. */
  function ResponseMapper(c: Client, h: ResponseHandler): (r: Client)
    ensures r.executor == c.executor && r.request == c.request && r.requestMapper == c.requestMapper
    ensures r.response == h && r.config == c.config.(modelType := "Void")
  {
    c.(config := c.config.(modelType := "Void"), response := h)
  }

  function StatusOnly(c: Client): (r: Client)
    ensures r.response == StatusHandler && r.executor == c.executor && r.request == c.request
  {
    ResponseMapper(c, StatusHandler)
  }

  function StringResponse(c: Client): (r: Client)
    ensures r.response == StringHandler && r.executor == c.executor && r.request == c.request
  {
    ResponseMapper(c, StringHandler)
  }

  function VoidResponse(c: Client): (r: Client)
    ensures r.response == VoidHandler && r.executor == c.executor && r.request == c.request
  {
    ResponseMapper(c, VoidHandler)
  }

  /** `forModelType(t)`: the JSON handler decodes into `t` with the current
      mapper and cutoff. */
  function ForModelType(c: Client, modelType: string): (r: Client)
    ensures r.response == JsonHandler(JacksonConfig(c.config.mapper, modelType, c.config.cutoff))
    ensures r.executor == c.executor && r.request == c.request && r.requestMapper == c.requestMapper
  {
    ResponseMapper(c, JsonHandler(c.config.(modelType := modelType)))
  }

  /** `objectMapper(m)`: JSON both ways with the new mapper, same executor. */
  function ObjectMapper(c: Client, m: MapperRef): (r: Client)
    ensures r.config == c.config.(mapper := m)
    ensures r.response == JsonHandler(r.config) && r.requestMapper == JsonRequest(m)
    ensures r.executor == c.executor && r.request == c.request
  {
    var config := c.config.(mapper := m);
    c.(config := config, response := JsonHandler(config), requestMapper := JsonRequest(m))
  }

  function WithRequestMapper(c: Client, m: RequestMapper): Client {
    c.(requestMapper := m)
  }

  function WithForm(c: Client): Client {
    WithRequestMapper(c, FormRequest)
  }

  /** `maxConcurrency(n)`: a brand-new executor of `n` permits; `newId` is the
      identity the allocation gives it. */
  function MaxConcurrency(c: Client, max: int, newId: nat): (r: Client)
    ensures r.executor.permits == max && r.executor.id == newId
    ensures r == c.(executor := r.executor)
  {
    c.(executor := ExecutorRef(newId, max))
  }

  // ------------------------------------------------------------- execution

  /** The guard both `executeAsync` forms start with. */
  const UrlNotSet: Throwable := HttpException("url has not been set", None)

  /** `executeAsync()`: no body; the request's method, rendered url, headers
      and query parameters. */
  function ExecuteAsync(c: Client): (r: Result<Prepared, Throwable>)
    ensures r.Err? <==> !IsUrlSet(c.request)
    ensures r.Err? ==> r.error == UrlNotSet
    ensures r.Ok? ==>
      && r.value.httpMethod == c.request.httpMethod && r.value.url == GetUrl(c.request)
      && r.value.headers == Entries(c.request.headers) && r.value.queryParams == Entries(c.request.queryParams)
      && r.value.body.None? && r.value.response == c.response && r.value.executor == c.executor
  {
    if !IsUrlSet(c.request) then Err(UrlNotSet)
    else Ok(Prepared(c.request.httpMethod, GetUrl(c.request), Entries(c.request.headers),
                     Entries(c.request.queryParams), None, c.response, c.executor))
  }

  /** The content type a request with a body is sent with: a non-empty
      explicit one; else the first value stored under exactly
      "Content-Type"; else the request mapper's default. */
  function ContentType(explicit: Option<string>, headers: Multimap, m: RequestMapper): string {
    if explicit.Some? && explicit.value != "" then explicit.value
    else if Multimaps.Get(headers, "Content-Type") != [] then Multimaps.Get(headers, "Content-Type")[0]
    else DefaultContentType(m)
  }

  /** Header names compare without regard to ASCII case on the wire. */
  predicate SameHeaderName(a: string, b: string) {
    ToLowerAscii(a) == ToLowerAscii(b)
  }

  /** The entries not named `name`, in order. */
  function Without(entries: seq<(string, string)>, name: string): (r: seq<(string, string)>)
    ensures forall i :: 0 <= i < |r| ==> r[i] in entries && !SameHeaderName(r[i].0, name)
    ensures forall e :: e in entries && !SameHeaderName(e.0, name) ==> e in r
  {
    if entries == [] then []
    else if SameHeaderName(entries[0].0, name) then Without(entries[1..], name)
    else [entries[0]] + Without(entries[1..], name)
  }

  /** `setHeader(name, value)` on the transport's request: every earlier value
      of the name, in any case, is replaced by the one new entry. */
  function WithHeader(entries: seq<(string, string)>, name: string, value: string): (r: seq<(string, string)>)
    ensures |r| > 0 && r[|r| - 1] == (name, value)
    ensures forall i :: 0 <= i < |r| - 1 ==> r[i] in entries && !SameHeaderName(r[i].0, name)
    ensures forall e :: e in entries && !SameHeaderName(e.0, name) ==> e in r
  {
    Without(entries, name) + [(name, value)]
  }

  /** `mapRequest`: the mapper's bytes, or an empty body when it throws an
      `Exception`; an `Error` is not caught and leaves `executeAsync`. */
  function MapRequest(mapped: Result<Bytes, Throwable>): Result<Bytes, Throwable> {
    match mapped
    case Ok(bytes) => Ok(bytes)
    case Err(e) => if e.IsException() then Ok([]) else Err(e)
  }

  /** `executeAsync(contentType, body)`, with `mapped` what the request
      mapper makes of the body. */
  function ExecuteWithBody(c: Client, contentType: Option<string>, mapped: Result<Bytes, Throwable>): (r: Result<Prepared, Throwable>)
    ensures r.Err? <==> !IsUrlSet(c.request) || (mapped.Err? && !mapped.error.IsException())
    ensures !IsUrlSet(c.request) ==> r == Err(UrlNotSet)
    ensures IsUrlSet(c.request) && mapped.Err? && !mapped.error.IsException() ==> r == Err(mapped.error)
    ensures r.Ok? ==>
      && r.value.httpMethod == c.request.httpMethod && r.value.url == GetUrl(c.request)
      && r.value.queryParams == Entries(c.request.queryParams)
      && r.value.headers == WithHeader(Entries(c.request.headers), "Content-Type",
                                       ContentType(contentType, c.request.headers, c.requestMapper))
      && r.value.body == Some(if mapped.Ok? then mapped.value else [])
      && r.value.response == c.response && r.value.executor == c.executor
  {
    if !IsUrlSet(c.request) then Err(UrlNotSet)
    else
      var ct := ContentType(contentType, c.request.headers, c.requestMapper);
      var body :- MapRequest(mapped);
      Ok(Prepared(c.request.httpMethod, GetUrl(c.request),
                  WithHeader(Entries(c.request.headers), "Content-Type", ct),
                  Entries(c.request.queryParams), Some(body), c.response, c.executor))
  }

  function GetAsync(c: Client): Result<Prepared, Throwable> {
    var g :- Method(c, "GET");
    ExecuteAsync(g)
  }

  function DeleteAsync(c: Client): Result<Prepared, Throwable> {
    var d :- Method(c, "DELETE");
    ExecuteAsync(d)
  }

  /** `headAsync()`: method HEAD with the status-only handler. */
  function HeadAsync(c: Client): (r: Result<Prepared, Throwable>)
    ensures r.Ok? ==> r.value.httpMethod == "HEAD" && r.value.response == StatusHandler && r.value.executor == c.executor
    ensures r.Ok? ==> r.value.body.None?
  {
    var h :- Method(c, "HEAD");
    ExecuteAsync(StatusOnly(h))
  }

  /** The body verbs' common path: the method is set, then the body sent. */
  function SendWithBody(c: Client, m: string, contentType: Option<string>, mapped: Result<Bytes, Throwable>): Result<Prepared, Throwable> {
    var p :- Method(c, m);
    ExecuteWithBody(p, contentType, mapped)
  }

  function PutAsync(c: Client, contentType: Option<string>, mapped: Result<Bytes, Throwable>): Result<Prepared, Throwable> {
    SendWithBody(c, "PUT", contentType, mapped)
  }

  function PostAsync(c: Client, contentType: Option<string>, mapped: Result<Bytes, Throwable>): Result<Prepared, Throwable> {
    SendWithBody(c, "POST", contentType, mapped)
  }

  function PatchAsync(c: Client, contentType: Option<string>, mapped: Result<Bytes, Throwable>): Result<Prepared, Throwable> {
    SendWithBody(c, "PATCH", contentType, mapped)
  }

  /** The exception `synchronize` reports: an `ExecutionException`'s cause
      when that cause is an `Exception`, else what `get()` threw. */
  function Unwrap(e: Throwable): Throwable {
    if e.ExecutionException? && e.wrapped.IsException() then e.wrapped else e
  }

  /** `synchronize(future)`, with `got` what `future.get()` returns or
      throws: a value passes through; an `Exception` becomes an
      `HttpException` naming this client's request; an `Error` is not
      caught. */
  function Synchronize<U>(c: Client, got: Result<U, Throwable>): (r: Result<U, Throwable>)
    ensures got.Ok? <==> r.Ok?
    ensures got.Ok? ==> r == got
    ensures got.Err? && got.error.IsException() ==>
      r.error == HttpException("Could not perform " + ToString(c.request), Some(Unwrap(got.error)))
    ensures got.Err? && !got.error.IsException() ==> r == got
  {
    match got
    case Ok(v) => Ok(v)
    case Err(e) =>
      if e.IsException() then Err(HttpException("Could not perform " + ToString(c.request), Some(Unwrap(e))))
      else Err(e)
  }

  /** `get()`: `getAsync()` throws before any future exists when the url is
      not set; otherwise the future's outcome, synchronized on this client. */
  function Get<U>(c: Client, got: Result<U, Throwable>): Result<U, Throwable> {
    var _ :- GetAsync(c);
    Synchronize(c, got)
  }

  function Head<U>(c: Client, got: Result<U, Throwable>): Result<U, Throwable> {
    var _ :- HeadAsync(c);
    Synchronize(c, got)
  }

  function Post<U>(c: Client, contentType: Option<string>, mapped: Result<Bytes, Throwable>, got: Result<U, Throwable>): Result<U, Throwable> {
    var _ :- PostAsync(c, contentType, mapped);
    Synchronize(c, got)
  }
}

module HttpClientLemmas {
  import opened Wrappers
  import opened HttpTypes
  import opened Multimaps
  import opened Requests
  import opened HttpClient
  import RequestLemmas

  /** The builder passes the method through: a changed method changes
      nothing else about the build, success included. */
  lemma BuildWithMethod(b: Builder, m: string)
    ensures Build(b.(httpMethod := m)).Ok? <==> Build(b).Ok?
    ensures Build(b).Ok? ==> Build(b.(httpMethod := m)) == Ok(Build(b).value.(httpMethod := m))
  {
    if !SkipsParsing(b.url) && ParseUrl(b.url.value).Some? {
      var p := ParseUrl(b.url.value).value;
      assert Build(b) == FromParsedUrl(b, p);
      assert Build(b.(httpMethod := m)) == FromParsedUrl(b.(httpMethod := m), p);
    }
  }

  /** On a client whose request the builder produced, setting the method
      cannot fail and changes the method alone. */
  lemma MethodOfBuilt(c: Client, m: string, b: Builder)
    requires Build(b) == Ok(c.request)
    ensures Method(c, m) == Ok(c.(request := c.request.(httpMethod := ToUpperAscii(m))))
  {
    RequestLemmas.BuildIdempotent(b);
    BuildWithMethod(ToBuilder(c.request), ToUpperAscii(m));
  }

  /** On such a client `getAsync` fails only on the url guard, and sends
      GET with the client's response handler. */
  lemma GetOfBuilt(c: Client, b: Builder)
    requires Build(b) == Ok(c.request)
    ensures GetAsync(c).Ok? <==> IsUrlSet(c.request)
    ensures GetAsync(c).Ok? ==> GetAsync(c).value.httpMethod == "GET" && GetAsync(c).value.response == c.response
  {
    MethodOfBuilt(c, "GET", b);
  }

  lemma DeleteOfBuilt(c: Client, b: Builder)
    requires Build(b) == Ok(c.request)
    ensures DeleteAsync(c).Ok? <==> IsUrlSet(c.request)
    ensures DeleteAsync(c).Ok? ==> DeleteAsync(c).value.httpMethod == "DELETE"
  {
    MethodOfBuilt(c, "DELETE", b);
  }

  lemma HeadOfBuilt(c: Client, b: Builder)
    requires Build(b) == Ok(c.request)
    ensures HeadAsync(c).Ok? <==> IsUrlSet(c.request)
  {
    MethodOfBuilt(c, "HEAD", b);
  }

  /** `putAsync`, `postAsync` and `patchAsync` on such a client fail only on
      the url guard or an `Error` from the request mapper, and send the
      method given when it has no lower-case letters. */
  lemma SendOfBuilt(c: Client, b: Builder, m: string, ct: Option<string>, mapped: Result<Bytes, Throwable>)
    requires Build(b) == Ok(c.request)
    requires forall i :: 0 <= i < |m| ==> !('a' <= m[i] <= 'z')
    ensures SendWithBody(c, m, ct, mapped).Ok? <==> IsUrlSet(c.request) && (mapped.Ok? || mapped.error.IsException())
    ensures SendWithBody(c, m, ct, mapped).Ok? ==> SendWithBody(c, m, ct, mapped).value.httpMethod == m
  {
    MethodOfBuilt(c, m, b);
    UpperCaseFixed(m);
  }

  /** A name without lower-case letters is its own upper-casing. */
  lemma UpperCaseFixed(s: string)
    requires forall i :: 0 <= i < |s| ==> !('a' <= s[i] <= 'z')
    ensures ToUpperAscii(s) == s
  {
    assert forall i :: 0 <= i < |s| ==> ToUpperAscii(s)[i] == s[i];
  }

  /** A client created without a url refuses to send, whatever the
      transport would have answered. */
  lemma NoUrl<U>(mapper: MapperRef, executorId: nat, got: Result<U, Throwable>)
    ensures CreateDefault(None, mapper, executorId).Ok?
    ensures HttpClient.Get(CreateDefault(None, mapper, executorId).value, got) == Err(UrlNotSet)
  {
    var c := CreateDefault(None, mapper, executorId).value;
    GetOfBuilt(c, NewBuilder(None));
  }

  /** A request with a body reaches the transport with exactly one
      Content-Type header, carrying the resolved type, and last. */
  lemma OneContentType(c: Client, ct: Option<string>, mapped: Result<Bytes, Throwable>)
    requires ExecuteWithBody(c, ct, mapped).Ok?
    ensures var h := ExecuteWithBody(c, ct, mapped).value.headers;
      && |h| > 0 && h[|h| - 1] == ("Content-Type", ContentType(ct, c.request.headers, c.requestMapper))
      && forall i :: 0 <= i < |h| && SameHeaderName(h[i].0, "Content-Type") ==> i == |h| - 1
  {
  }

  /** A request mapper that throws an `Exception` is indistinguishable from
      one that maps the body to no bytes; one that throws an `Error` sends
      nothing, and the `Error` is what the caller sees. */
  lemma MapperFailureSendsEmptyBody(c: Client, ct: Option<string>, e: Throwable)
    ensures e.IsException() ==> ExecuteWithBody(c, ct, Err(e)) == ExecuteWithBody(c, ct, Ok([]))
    ensures !e.IsException() ==>
      ExecuteWithBody(c, ct, Err(e)) == if IsUrlSet(c.request) then Err(e) else Err(UrlNotSet)
  {
  }

  /** An executor failure, `HttpException("Could not execute ...")` inside
      the future's `ExecutionException`, surfaces from `synchronize` as
      the cause of an `HttpException` naming the request. */
  lemma SynchronizeUnwrapsOnce<U>(c: Client, e: Throwable)
    ensures e.IsException() ==>
      Synchronize<U>(c, Err(ExecutionException(e))) == Err(HttpException("Could not perform " + ToString(c.request), Some(e)))
    ensures !e.IsException() ==>
      Synchronize<U>(c, Err(ExecutionException(e)))
        == Err(HttpException("Could not perform " + ToString(c.request), Some(ExecutionException(e))))
  {
  }

  /** One derivation step, as the client methods that return clients. */
  datatype Derivation =
    | ToStatusOnly
    | ToStringResponse
    | ToVoidResponse
    | ToModelType(modelType: string)
    | ToObjectMapper(mapper: MapperRef)
    | ToRequestMapper(requestMapper: RequestMapper)
    | ToForm
    | ToMaxConcurrency(max: int, newId: nat)
    | ToMethod(m: string)
    | ToUrl(url: string)
    | ToPath(path: string)
    | ToAppendPath(segment: string)
    | ToPathParam(key: string, val: string)
    | ToQueryParam(key: string, val: string)
    | ToHeader(key: string, val: string)

  function Derive(c: Client, d: Derivation): Result<Client, Throwable> {
    match d
    case ToStatusOnly => Ok(StatusOnly(c))
    case ToStringResponse => Ok(StringResponse(c))
    case ToVoidResponse => Ok(VoidResponse(c))
    case ToModelType(t) => Ok(ForModelType(c, t))
    case ToObjectMapper(m) => Ok(ObjectMapper(c, m))
    case ToRequestMapper(m) => Ok(WithRequestMapper(c, m))
    case ToForm => Ok(WithForm(c))
    case ToMaxConcurrency(max, newId) => Ok(MaxConcurrency(c, max, newId))
    case ToMethod(m) => HttpClient.Method(c, m)
    case ToUrl(u) => HttpClient.Url(c, u)
    case ToPath(p) => HttpClient.Path(c, p)
    case ToAppendPath(p) => AppendPath(c, p)
    case ToPathParam(k, v) => HttpClient.PathParam(c, k, v)
    case ToQueryParam(k, v) => HttpClient.AddQueryParam(c, k, v)
    case ToHeader(k, v) => HttpClient.AddHeader(c, k, v)
  }

  function DeriveAll(c: Client, ds: seq<Derivation>): Result<Client, Throwable>
    decreases |ds|
  {
    if ds == [] then Ok(c)
    else
      var next :- Derive(c, ds[0]);
      DeriveAll(next, ds[1..])
  }

  /** Reference: the executor a chain of derivations ends with is the one
      the last `maxConcurrency` created, or the original. */
  function ExecutorAfter(e: ExecutorRef, ds: seq<Derivation>): ExecutorRef
    decreases |ds|
  {
    if ds == [] then e
    else if ds[|ds| - 1].ToMaxConcurrency? then ExecutorRef(ds[|ds| - 1].newId, ds[|ds| - 1].max)
    else ExecutorAfter(e, ds[..|ds| - 1])
  }

  lemma DeriveExecutor(c: Client, d: Derivation)
    requires Derive(c, d).Ok?
    ensures Derive(c, d).value.executor == ExecutorAfter(c.executor, [d])
  {
    assert [d][..0] == [];
  }

  lemma {:induction false} ExecutorAfterCons(e: ExecutorRef, d: Derivation, ds: seq<Derivation>)
    ensures ExecutorAfter(e, [d] + ds) == ExecutorAfter(ExecutorAfter(e, [d]), ds)
    decreases |ds|
  {
    if ds == [] {
      assert [d] + ds == [d];
    } else {
      assert ([d] + ds)[..|[d] + ds| - 1] == [d] + ds[..|ds| - 1];
      ExecutorAfterCons(e, d, ds[..|ds| - 1]);
    }
  }

  /** Clients derived from one another share the executor until a
      `maxConcurrency` replaces it; the last one wins. */
  lemma {:induction false} SharedExecutor(c: Client, ds: seq<Derivation>)
    requires DeriveAll(c, ds).Ok?
    ensures DeriveAll(c, ds).value.executor == ExecutorAfter(c.executor, ds)
    decreases |ds|
  {
    if ds != [] {
      var next := Derive(c, ds[0]).value;
      DeriveExecutor(c, ds[0]);
      SharedExecutor(next, ds[1..]);
      ExecutorAfterCons(c.executor, ds[0], ds[1..]);
      assert [ds[0]] + ds[1..] == ds;
    }
  }

  /** Without `maxConcurrency` in the chain, the executor is the original. */
  lemma {:induction false} NoLimitKeepsExecutor(e: ExecutorRef, ds: seq<Derivation>)
    requires forall i :: 0 <= i < |ds| ==> !ds[i].ToMaxConcurrency?
    ensures ExecutorAfter(e, ds) == e
    decreases |ds|
  {
    if ds != [] {
      NoLimitKeepsExecutor(e, ds[..|ds| - 1]);
    }
  }

  /** `maxConcurrency` never hands back the receiver's pool. */
  lemma MaxConcurrencyUnshared(c: Client, max: int, newId: nat)
    requires newId != c.executor.id
    ensures MaxConcurrency(c, max, newId).executor != c.executor
  {
  }
}

=== FILE: http_types.dfy ===
/** Types shared by every component: raw bytes, the answer an asynchronous
    handler callback gives the transport, and the throwables the library raises
    or passes through. */
module HttpTypes {
  import opened Wrappers

  newtype Byte = b: int | 0 <= b < 256

  type Bytes = seq<Byte>

  /** What every AsyncHandler callback answers: keep delivering, or close the
      connection and complete. */
  datatype Signal = Continue | Abort

  /** One response header line, name and value, in arrival order. */
  type Headers = seq<(string, string)>

  /** The Java throwables that appear in the model. `TransportFailure` stands for
      anything the underlying HTTP transport raises; `DecodeFailure` for anything
      the JSON decoder raises; `Error` for any `java.lang.Error`, that
      is, a Throwable that is not an Exception. */
  datatype Throwable =
    | TransportFailure(reason: string)
    | DecodeFailure(reason: string)
    | HttpException(message: string, cause: Option<Throwable>)
    | InvalidStatusException(status: int, body: string)
    | ExecutionException(wrapped: Throwable)
    | InterruptedException
    | Error(name: string)
    | NullPointerException
    | NumberFormatException(input: string)
    | IllegalArgumentException(message: string)
    | IllegalStateException(message: string)
    | BufferOverflowException
    | IndexOutOfBoundsException(index: int)
  {
    /** True for every `java.lang.Exception`; false for `java.lang.Error`s. */
    predicate IsException() {
      !Error?
    }
  }

  /** A `CompletableFuture`: not yet resolved, resolved with a model, or
      resolved exceptionally. */
  datatype Future<M> = Pending | Completed(model: M) | Failed(error: Throwable)

  /** The concatenation of a sequence of byte chunks, in order. */
  function Concat(parts: seq<Bytes>): (r: Bytes)
    ensures |parts| == 0 ==> r == []
  {
    if |parts| == 0 then [] else Concat(parts[..|parts| - 1]) + parts[|parts| - 1]
  }

  /** `Concat` read from the front: the first chunk, then the rest. */
  lemma {:induction false} ConcatFront(parts: seq<Bytes>)
    requires parts != []
    ensures Concat(parts) == parts[0] + Concat(parts[1..])
    decreases |parts|
  {
    if |parts| > 1 {
      var init := parts[..|parts| - 1];
      ConcatFront(init);
      assert init[1..] == parts[1..][..|parts[1..]| - 1];
      assert init[0] == parts[0];
    }
  }

  /** Appending the chunks one at a time appends their concatenation. */
  lemma AppendFront(w: Bytes, parts: seq<Bytes>)
    requires parts != []
    ensures w + parts[0] + Concat(parts[1..]) == w + Concat(parts)
  {
    ConcatFront(parts);
  }

  /** ASCII lower-casing; other characters are left alone. */
  function ToLowerAscii(s: string): (r: string)
    ensures |r| == |s|
    ensures forall i :: 0 <= i < |s| ==> r[i] == (if 'A' <= s[i] <= 'Z' then (s[i] as int + 32) as char else s[i])
  {
    if s == [] then [] else [if 'A' <= s[0] <= 'Z' then (s[0] as int + 32) as char else s[0]] + ToLowerAscii(s[1..])
  }

  /** ASCII upper-casing; other characters are left alone. */
  function ToUpperAscii(s: string): (r: string)
    ensures |r| == |s|
    ensures forall i :: 0 <= i < |s| ==> r[i] == (if 'a' <= s[i] <= 'z' then (s[i] as int - 32) as char else s[i])
  {
    if s == [] then [] else [if 'a' <= s[0] <= 'z' then (s[0] as int - 32) as char else s[0]] + ToUpperAscii(s[1..])
  }

  /** Netty's `headers.get(name)`: the first value under `name`, compared
      without regard to ASCII case; `None` when no line has that name. */
  function HeaderValue(headers: Headers, name: string): (r: Option<string>)
    ensures r.Some? <==> exists i :: 0 <= i < |headers| && ToLowerAscii(headers[i].0) == ToLowerAscii(name)
    ensures r.Some? ==> exists i :: 0 <= i < |headers| && ToLowerAscii(headers[i].0) == ToLowerAscii(name) && headers[i].1 == r.value
  {
    if headers == [] then None
    else if ToLowerAscii(headers[0].0) == ToLowerAscii(name) then Some(headers[0].1)
    else
      var r := HeaderValue(headers[1..], name);
      assert forall i :: 1 <= i < |headers| ==> headers[i] == headers[1..][i - 1];
      r
  }
}

=== FILE: jackson_handler.dfy ===
/** `JacksonResponseHandler`: a JSON handler that chooses its sink from the
    `Content-Length` header. A declared length under 2048 bytes gets a
    fixed-capacity buffer of exactly that size; a larger or missing length
    streams through a pipe into a background decoder. The status is ignored.
    The JSON reader is the parameter `decode`. */
module JacksonResponseHandler {
  import opened Wrappers
  import opened HttpTypes
  import opened AsyncHandler
  import opened JavaStrings
  import JavaStringsLemmas

  const Cutoff: int := 2048

  /** `Unset`: no headers seen yet, neither sink allocated. `Buffering`: a
      buffer of `capacity` bytes holding `written`. `Streaming`: the running
      `int` byte count and what was written to the pipe. */
  datatype Mode =
    | Unset
    | Buffering(capacity: nat, written: Bytes)
    | Streaming(totalBytes: int, pipe: Bytes)

  const Init := Unset

  /** `Integer.toString` for any `int`. */
  function IntToString(n: int): (r: string)
    ensures n >= 0 ==> r == Decimal(n)
    ensures n < 0 ==> r == "-" + Decimal(-n)
  {
    if n < 0 then "-" + Decimal(-n) else Decimal(n)
  }

  /** The message JDK 8's `ByteBuffer.allocate` gives a negative capacity. */
  function CapacityMessage(n: int): string {
    "Negative capacity: " + IntToString(n)
  }

  /** The name as the header table spells it. */
  const ContentLength: string := "content-length"

  function OnStatus(m: Mode, status: int): Step<Mode> {
    Ok((m, Continue))
  }

  /** No `Content-Length`: stream. A length that does not parse, or is
      negative, throws. A length under the cutoff: a buffer of that size.
      Otherwise: stream. */
  function OnHeaders(m: Mode, headers: Headers): (r: Step<Mode>)
    ensures r.Ok? ==> r.value.1 == Continue
    ensures HeaderValue(headers, ContentLength).None? ==> r == Ok((Streaming(0, []), Continue))
    ensures HeaderValue(headers, ContentLength).Some? ==>
      var v := HeaderValue(headers, ContentLength).value;
      && (ParseInt(v).Err? ==> r == Err(NumberFormatException(v)))
      && (ParseInt(v).Ok? && ParseInt(v).value < 0 ==>
            r == Err(IllegalArgumentException(CapacityMessage(ParseInt(v).value))))
      && (ParseInt(v).Ok? && 0 <= ParseInt(v).value < Cutoff ==>
            r == Ok((Buffering(ParseInt(v).value, []), Continue)))
      && (ParseInt(v).Ok? && ParseInt(v).value >= Cutoff ==> r == Ok((Streaming(0, []), Continue)))
  {
    match HeaderValue(headers, ContentLength)
    case None => Ok((Streaming(0, []), Continue))
    case Some(v) =>
      var length :- ParseInt(v);
      if length < 0 then Err(IllegalArgumentException(CapacityMessage(length)))
      else if length < Cutoff then Ok((Buffering(length, []), Continue))
      else Ok((Streaming(0, []), Continue))
  }

  /** A part goes into the buffer if it fits, else `BufferOverflowException`;
      while streaming, it is counted and written to the pipe; with no sink the
      call dereferences null. */
  function OnPart(m: Mode, part: Bytes): (r: Step<Mode>)
    ensures m.Unset? ==> r == Err(NullPointerException)
    ensures m.Buffering? ==>
      (r.Err? <==> |m.written| + |part| > m.capacity)
      && (r.Err? ==> r.error == BufferOverflowException)
      && (r.Ok? ==> r.value == (Buffering(m.capacity, m.written + part), Continue))
    ensures m.Streaming? ==>
      r == Ok((Streaming(WrapInt(m.totalBytes + |part|), m.pipe + part), Continue))
  {
    match m
    case Unset => Err(NullPointerException)
    case Buffering(capacity, written) =>
      if |written| + |part| > capacity then Err(BufferOverflowException)
      else Ok((Buffering(capacity, written + part), Continue))
    case Streaming(totalBytes, pipe) =>
      Ok((Streaming(WrapInt(totalBytes + |part|), pipe + part), Continue))
  }

  /** The `capacity - |written|` bytes of a fresh buffer never written. */
  function Zeros(n: nat): (r: Bytes)
    ensures |r| == n && forall i :: 0 <= i < n ==> r[i] == 0
  {
    seq(n, _ => 0)
  }

  /** The buffer's backing array: what was written, then the zeros of a fresh
      allocation up to the capacity. */
  function BackingArray(capacity: nat, written: Bytes): (r: Bytes)
    ensures |written| <= capacity ==> |r| == capacity
    ensures |r| >= |written| && r[..|written|] == written
    ensures forall i :: |written| <= i < |r| ==> r[i] == 0
  {
    if |written| <= capacity then written + Zeros(capacity - |written|) else written
  }

  /** `onCompleted` with the background decoder's outcome given as `streamed`:
      an untouched buffer gives `null`; a written one is decoded over its whole
      backing array, so a body shorter than declared is padded with zeros. */
  function Finish<T>(m: Mode, decode: Bytes -> Result<T, Throwable>,
                     streamed: Result<Option<T>, Throwable>): (r: Result<Option<T>, Throwable>)
    ensures m.Unset? ==> r == Err(NullPointerException)
    ensures m.Buffering? && m.written == [] ==> r == Ok(None)
    ensures m.Buffering? && m.written != [] ==> r == Lift(decode(BackingArray(m.capacity, m.written)))
    ensures m.Streaming? ==> r == streamed
  {
    match m
    case Unset => Err(NullPointerException)
    case Buffering(capacity, written) =>
      if |written| == 0 then Ok(None)
      else Lift(decode(BackingArray(capacity, written)))
    case Streaming(_, _) => streamed
  }

  /** The streamed outcome as the code has it: the decoder's failure is
      rethrown on the executor thread, where nobody sees it, so the model is
      left `null`. `decode` sees the whole pipe, so this is the outcome of a
      decoder that fails only at end of input; one that gives up earlier
      closes the pipe, and the handler's next write fails. */
  function StreamedAsWritten<T>(m: Mode, decode: Bytes -> Result<T, Throwable>): (r: Result<Option<T>, Throwable>)
    requires m.Streaming?
    ensures r.Ok?
    ensures decode(m.pipe).Ok? ==> r == Ok(Some(decode(m.pipe).value))
    ensures decode(m.pipe).Err? ==> r == Ok(None)
  {
    match decode(m.pipe)
    case Ok(model) => Ok(Some(model))
    case Err(_) => Ok(None)
  }

  /** The streamed outcome as evidently intended: a failure on an empty body
      only warns and leaves the model `null`; any other failure fails the
      exchange. */
  function Streamed<T>(m: Mode, decode: Bytes -> Result<T, Throwable>): (r: Result<Option<T>, Throwable>)
    requires m.Streaming?
    ensures decode(m.pipe).Ok? ==> r == Ok(Some(decode(m.pipe).value))
    ensures decode(m.pipe).Err? ==> (r.Ok? <==> m.totalBytes == 0)
    ensures decode(m.pipe).Err? && r.Ok? ==> r.value.None?
    ensures r.Err? ==> r.error == decode(m.pipe).error
  {
    match decode(m.pipe)
    case Ok(model) => Ok(Some(model))
    case Err(e) => if m.totalBytes == 0 then Ok(None) else Err(e)
  }

  function OnCompleted<T>(m: Mode, decode: Bytes -> Result<T, Throwable>): Result<Option<T>, Throwable> {
    Finish(m, decode, if m.Streaming? then Streamed(m, decode) else Ok(None))
  }

  function OnCompletedAsWritten<T>(m: Mode, decode: Bytes -> Result<T, Throwable>): Result<Option<T>, Throwable> {
    Finish(m, decode, if m.Streaming? then StreamedAsWritten(m, decode) else Ok(None))
  }

  function Handler<T>(decode: Bytes -> Result<T, Throwable>): AsyncHandler.Handler<Mode, Option<T>> {
    AsyncHandler.Handler(OnStatus, OnHeaders, OnPart, m => OnCompleted(m, decode))
  }

  function HandlerAsWritten<T>(decode: Bytes -> Result<T, Throwable>): AsyncHandler.Handler<Mode, Option<T>> {
    AsyncHandler.Handler(OnStatus, OnHeaders, OnPart, m => OnCompletedAsWritten(m, decode))
  }

  /** The headers choose streaming: no `Content-Length`, or one at or above
      the cutoff. */
  predicate StreamsFor(headers: Headers) {
    var v := HeaderValue(headers, ContentLength);
    v.None? || (ParseInt(v.value).Ok? && ParseInt(v.value).value >= Cutoff)
  }

  /** The headers choose a buffer of capacity `n`. */
  predicate BuffersFor(headers: Headers, n: int) {
    var v := HeaderValue(headers, ContentLength);
    v.Some? && ParseInt(v.value) == Ok(n) && 0 <= n < Cutoff
  }

  lemma BufferStep(capacity: nat, w: Bytes, parts: seq<Bytes>)
    requires parts != [] && |w| + |parts[0]| <= capacity
    ensures Feed(OnPart, Buffering(capacity, w), parts) == Feed(OnPart, Buffering(capacity, w + parts[0]), parts[1..])
  {
    assert OnPart(Buffering(capacity, w), parts[0]) == Ok((Buffering(capacity, w + parts[0]), Continue));
  }

  /** Buffering fails with `BufferOverflowException` exactly when the body
      outgrows the declared length; otherwise the buffer holds the body. */
  lemma {:induction false} FeedBuffered(capacity: nat, w: Bytes, parts: seq<Bytes>)
    requires |w| <= capacity
    ensures Feed(OnPart, Buffering(capacity, w), parts)
      == if |w| + |Concat(parts)| > capacity then Err(BufferOverflowException)
         else Ok(Buffering(capacity, w + Concat(parts)))
    decreases |parts|
  {
    if parts == [] {
      assert w + Concat(parts) == w;
    } else {
      ConcatFront(parts);
      if |w| + |parts[0]| <= capacity {
        BufferStep(capacity, w, parts);
        FeedBuffered(capacity, w + parts[0], parts[1..]);
        AppendFront(w, parts);
      }
    }
  }

  lemma FeedFreshBuffer(capacity: nat, parts: seq<Bytes>)
    ensures Feed(OnPart, Buffering(capacity, []), parts)
      == if |Concat(parts)| > capacity then Err(BufferOverflowException)
         else Ok(Buffering(capacity, Concat(parts)))
  {
    FeedBuffered(capacity, [], parts);
    assert [] + Concat(parts) == Concat(parts);
  }

  lemma StreamStep(n: int, pipe: Bytes, parts: seq<Bytes>)
    requires parts != []
    ensures Feed(OnPart, Streaming(n, pipe), parts)
      == Feed(OnPart, Streaming(WrapInt(n + |parts[0]|), pipe + parts[0]), parts[1..])
  {
    assert OnPart(Streaming(n, pipe), parts[0]) == Ok((Streaming(WrapInt(n + |parts[0]|), pipe + parts[0]), Continue));
  }

  /** Streaming takes every part: the pipe receives the body in order and the
      count advances with `int` wrap-around. */
  lemma {:induction false} FeedStreamed(n: int, pipe: Bytes, parts: seq<Bytes>)
    requires IntMin <= n <= IntMax
    ensures Feed(OnPart, Streaming(n, pipe), parts)
      == Ok(Streaming(WrapInt(n + |Concat(parts)|), pipe + Concat(parts)))
    decreases |parts|
  {
    if parts == [] {
      assert pipe + Concat(parts) == pipe;
    } else {
      var n' := WrapInt(n + |parts[0]|);
      StreamStep(n, pipe, parts);
      FeedStreamed(n', pipe + parts[0], parts[1..]);
      assert |Concat(parts)| == |parts[0]| + |Concat(parts[1..])| by {
        ConcatFront(parts);
      }
      JavaStringsLemmas.WrapChain(n, n', WrapInt(n' + |Concat(parts[1..])|),
                                  |parts[0]|, |Concat(parts[1..])|, |Concat(parts)|);
      AppendFront(pipe, parts);
    }
  }

  /** An exchange reaches `onCompleted` unless the headers or a part throw. */
  lemma RunThrough<T>(h: AsyncHandler.Handler<Mode, T>, resp: Response)
    requires h.onStatus == OnStatus && h.onHeaders == OnHeaders && h.onPart == OnPart
    ensures OnHeaders(Init, resp.headers).Err? ==> Run(h, Init, resp) == Err(OnHeaders(Init, resp.headers).error)
    ensures OnHeaders(Init, resp.headers).Ok? ==>
      var fed := Feed(OnPart, OnHeaders(Init, resp.headers).value.0, resp.parts);
      && (fed.Err? ==> Run(h, Init, resp) == Err(fed.error))
      && (fed.Ok? ==> Run(h, Init, resp) == h.onCompleted(fed.value))
  {
    assert h.onStatus(Init, resp.status) == Ok((Init, Continue));
    assert h.onHeaders(Init, resp.headers) == OnHeaders(Init, resp.headers);
    RunStages(h, Init, resp);
  }

  /** A `Content-Length` that is not a number, or is negative, fails the
      exchange whatever the body. */
  lemma RunBadLength<T>(decode: Bytes -> Result<T, Throwable>, resp: Response)
    requires HeaderValue(resp.headers, ContentLength).Some?
    ensures var v := HeaderValue(resp.headers, ContentLength).value;
      && (ParseInt(v).Err? ==> Run(Handler(decode), Init, resp) == Err(NumberFormatException(v)))
      && (ParseInt(v).Ok? && ParseInt(v).value < 0 ==>
            Run(Handler(decode), Init, resp) == Err(IllegalArgumentException(CapacityMessage(ParseInt(v).value))))
  {
    RunThrough(Handler(decode), resp);
  }

  lemma HeadersBuffer(headers: Headers, n: int)
    requires BuffersFor(headers, n)
    ensures OnHeaders(Init, headers) == Ok((Buffering(n, []), Continue))
  {
  }

  lemma HeadersStream(headers: Headers)
    requires StreamsFor(headers)
    ensures OnHeaders(Init, headers) == Ok((Streaming(0, []), Continue))
  {
  }

  /** The state a buffered exchange completes in, unless the body overflows. */
  lemma BufferedRun<T>(h: AsyncHandler.Handler<Mode, T>, resp: Response, n: int)
    requires h.onStatus == OnStatus && h.onHeaders == OnHeaders && h.onPart == OnPart
    requires BuffersFor(resp.headers, n)
    ensures |Concat(resp.parts)| > n ==> Run(h, Init, resp) == Err(BufferOverflowException)
    ensures |Concat(resp.parts)| <= n ==> Run(h, Init, resp) == h.onCompleted(Buffering(n, Concat(resp.parts)))
  {
    HeadersBuffer(resp.headers, n);
    RunThrough(h, resp);
    FeedFreshBuffer(n, resp.parts);
  }

  /** A declared length under the cutoff: a longer body overflows, an empty
      one gives `null`, and any other is decoded over the whole buffer, padded
      with zeros to the declared length. */
  lemma RunBuffered<T>(decode: Bytes -> Result<T, Throwable>, resp: Response, n: int)
    requires BuffersFor(resp.headers, n)
    ensures |Concat(resp.parts)| > n ==> Run(Handler(decode), Init, resp) == Err(BufferOverflowException)
    ensures Concat(resp.parts) == [] ==> Run(Handler(decode), Init, resp) == Ok(None)
    ensures 0 < |Concat(resp.parts)| <= n ==>
      Run(Handler(decode), Init, resp) == Lift(decode(BackingArray(n, Concat(resp.parts))))
  {
    BufferedRun(Handler(decode), resp, n);
    var body := Concat(resp.parts);
    if |body| <= n {
      assert Handler(decode).onCompleted(Buffering(n, body)) == OnCompleted(Buffering(n, body), decode);
    }
  }

  /** The state a streamed exchange completes in. */
  lemma StreamedRun<T>(h: AsyncHandler.Handler<Mode, T>, resp: Response)
    requires h.onStatus == OnStatus && h.onHeaders == OnHeaders && h.onPart == OnPart
    requires StreamsFor(resp.headers)
    ensures Run(h, Init, resp) == h.onCompleted(Streaming(WrapInt(|Concat(resp.parts)|), Concat(resp.parts)))
  {
    var body := Concat(resp.parts);
    HeadersStream(resp.headers);
    FeedStreamed(0, [], resp.parts);
    assert [] + body == body;
    assert Feed(OnPart, Streaming(0, []), resp.parts) == Ok(Streaming(WrapInt(|body|), body));
    RunThrough(h, resp);
  }

  /** A missing or large `Content-Length`: the body's model; if it does not
      decode, `null` for an empty body and the decoder's failure otherwise. */
  lemma RunStreamed<T>(decode: Bytes -> Result<T, Throwable>, resp: Response)
    requires StreamsFor(resp.headers)
    ensures decode(Concat(resp.parts)).Ok? ==>
      Run(Handler(decode), Init, resp) == Ok(Some(decode(Concat(resp.parts)).value))
    ensures decode(Concat(resp.parts)).Err? && Concat(resp.parts) == [] ==>
      Run(Handler(decode), Init, resp) == Ok(None)
    ensures decode(Concat(resp.parts)).Err? && 0 < |Concat(resp.parts)| <= IntMax ==>
      Run(Handler(decode), Init, resp) == Err(decode(Concat(resp.parts)).error)
  {
    StreamedRun(Handler(decode), resp);
  }

  /** The code as written loses the decoder's failure on a non-empty streamed
      body that it rejects at end of input, and completes with `null`; the
      corrected handler fails. */
  lemma StreamedFailureIsLost<T>(decode: Bytes -> Result<T, Throwable>, resp: Response)
    requires StreamsFor(resp.headers)
    requires 0 < |Concat(resp.parts)| <= IntMax
    requires decode(Concat(resp.parts)).Err?
    ensures Run(HandlerAsWritten(decode), Init, resp) == Ok(None)
    ensures Run(Handler(decode), Init, resp) == Err(decode(Concat(resp.parts)).error)
  {
    StreamedRun(HandlerAsWritten(decode), resp);
    StreamedRun(Handler(decode), resp);
  }

  /** Elsewhere the two versions agree: on buffered bodies, on bodies that
      decode, and on an empty streamed body. */
  lemma AsWrittenAgreesOtherwise<T>(decode: Bytes -> Result<T, Throwable>, resp: Response)
    requires !StreamsFor(resp.headers) || decode(Concat(resp.parts)).Ok? || Concat(resp.parts) == []
    ensures Run(HandlerAsWritten(decode), Init, resp) == Run(Handler(decode), Init, resp)
  {
    var v := HeaderValue(resp.headers, ContentLength);
    if StreamsFor(resp.headers) {
      AgreeStreamed(decode, resp);
    } else if ParseInt(v.value).Ok? && 0 <= ParseInt(v.value).value {
      AgreeBuffered(decode, resp, ParseInt(v.value).value);
    } else {
      AgreeRejected(decode, resp);
    }
  }

  lemma AgreeStreamed<T>(decode: Bytes -> Result<T, Throwable>, resp: Response)
    requires StreamsFor(resp.headers)
    requires decode(Concat(resp.parts)).Ok? || Concat(resp.parts) == []
    ensures Run(HandlerAsWritten(decode), Init, resp) == Run(Handler(decode), Init, resp)
  {
    StreamedRun(HandlerAsWritten(decode), resp);
    StreamedRun(Handler(decode), resp);
  }

  lemma AgreeRejected<T>(decode: Bytes -> Result<T, Throwable>, resp: Response)
    requires OnHeaders(Init, resp.headers).Err?
    ensures Run(HandlerAsWritten(decode), Init, resp) == Run(Handler(decode), Init, resp)
  {
    RunThrough(HandlerAsWritten(decode), resp);
    RunThrough(Handler(decode), resp);
  }

  lemma AgreeBuffered<T>(decode: Bytes -> Result<T, Throwable>, resp: Response, n: int)
    requires BuffersFor(resp.headers, n)
    ensures Run(HandlerAsWritten(decode), Init, resp) == Run(Handler(decode), Init, resp)
  {
    BufferedRun(HandlerAsWritten(decode), resp, n);
    BufferedRun(Handler(decode), resp, n);
    CompletionsAgree(Buffering(n, Concat(resp.parts)), decode);
  }

  /** Only the streaming completion differs between the two handlers. */
  lemma CompletionsAgree<T>(m: Mode, decode: Bytes -> Result<T, Throwable>)
    requires !m.Streaming?
    ensures HandlerAsWritten(decode).onCompleted(m) == Handler(decode).onCompleted(m)
  {
  }

  /** A decoder that rejects every input. */
  function Reject(body: Bytes): Result<int, Throwable> {
    Err(DecodeFailure("Unexpected end-of-input"))
  }

  /** A concrete exchange showing the lost failure: no `Content-Length` and
      the one-byte body `{`. */
  lemma LostFailureExample()
    ensures Run(HandlerAsWritten(Reject), Init, Response(200, [], [[123]])) == Ok(None)
    ensures Run(Handler(Reject), Init, Response(200, [], [[123]]))
      == Err(DecodeFailure("Unexpected end-of-input"))
  {
    var resp := Response(200, [], [[123]]);
    assert Concat(resp.parts) == [123] by {
      assert resp.parts[..0] == [];
    }
    StreamedFailureIsLost(Reject, resp);
  }
}

=== FILE: jackson_mapper.dfy ===
/** `JacksonResponseMapper`: a JSON handler that buffers small bodies and
    switches, once, to streaming through a pipe into a background decoder when
    the body reaches 1024 bytes. An error status diverts everything to a
    `VoidResponseMapper`, so the exchange fails with the status and the body
    text. The JSON decoder is the parameter `decode`; the pipe is the byte
    sequence written into it. */
module JacksonResponseMapper {
  import opened Wrappers
  import opened HttpTypes
  import opened AsyncHandler
  import opened JavaStrings
  import VoidResponseMapper
  import StringResponseMapper
  import Utf8
  import JavaStringsLemmas

  const StreamingCutoff: int := 1024

  /** `error` is the void mapper, present once an error status was seen;
      `buffer` is the in-memory body while not streaming, `pipe` what has been
      written to the decoder's pipe since the switch. */
  datatype MapperState = MapperState(
    streaming: bool,
    totalBytes: int,
    totalParts: int,
    buffer: Bytes,
    pipe: Bytes,
    error: Option<VoidResponseMapper.VoidState>)

  const Init := MapperState(false, 0, 0, [], [], None)

  /** Only one of the two sinks is in use: the buffer before the switch, the
      pipe after it. */
  predicate OneSink(s: MapperState) {
    (s.streaming ==> s.buffer == []) && (!s.streaming ==> s.pipe == [])
  }

  /** Both counters hold Java `int` values. */
  predicate Counters(s: MapperState) {
    IntMin <= s.totalBytes <= IntMax && IntMin <= s.totalParts <= IntMax
  }

  /** The bytes the decoder will be given, whichever sink is in use. */
  function DecoderInput(s: MapperState): Bytes {
    if s.streaming then s.pipe else s.buffer
  }

  /** An error status hands the exchange to a fresh void mapper; every status
      answers `Continue`. */
  function OnStatus(s: MapperState, status: int): (r: Step<MapperState>)
    ensures r.Ok? && r.value.1 == Continue
    ensures VoidResponseMapper.IsErrorResponseCode(status) ==>
      r.value.0 == s.(error := Some(VoidResponseMapper.Capturing(status, "")))
    ensures !VoidResponseMapper.IsErrorResponseCode(status) ==> r.value.0 == s
  {
    if VoidResponseMapper.IsErrorResponseCode(status) then
      var v := VoidResponseMapper.OnStatus(VoidResponseMapper.Idle, status).value.0;
      Ok((s.(error := Some(v)), Continue))
    else
      Ok((s, Continue))
  }

  function OnHeaders(s: MapperState, headers: Headers): Step<MapperState> {
    Ok((s, Continue))
  }

  /** `switchToStreaming`: a fresh pipe receives the buffered bytes, the buffer
      is dropped, and the mode never goes back. */
  function SwitchToStreaming(s: MapperState): (r: MapperState)
    requires !s.streaming
    ensures r.streaming && OneSink(r) && DecoderInput(r) == DecoderInput(s)
  {
    s.(pipe := s.buffer, buffer := [], streaming := true)
  }

  /** A part taken in without an error status: both counters advance with
      `int` wrap-around, the handler switches to streaming once the total
      reaches the cutoff, and the part goes to whichever sink is in use. */
  function Accept(s: MapperState, part: Bytes): (r: MapperState)
    ensures r.error == s.error
    ensures OneSink(s) ==> OneSink(r)
    ensures DecoderInput(r) == DecoderInput(s) + part
    ensures r.totalBytes == WrapInt(s.totalBytes + |part|)
    ensures r.totalParts == WrapInt(s.totalParts + 1)
    ensures r.streaming <==> s.streaming || r.totalBytes >= StreamingCutoff
  {
    var counted := s.(totalBytes := WrapInt(s.totalBytes + |part|), totalParts := WrapInt(s.totalParts + 1));
    var switched := if !counted.streaming && counted.totalBytes >= StreamingCutoff
      then SwitchToStreaming(counted) else counted;
    if switched.streaming then switched.(pipe := switched.pipe + part)
    else switched.(buffer := switched.buffer + part)
  }

  /** `onBodyPartReceived`: after an error status the part goes to the void
      mapper; otherwise it is accepted. Every part answers `Continue`. */
  function OnPart(s: MapperState, part: Bytes): (r: Step<MapperState>)
    ensures s.error.None? ==> r == Ok((Accept(s, part), Continue))
    ensures s.error.Some? && s.error.value.Capturing? ==>
      r.Ok? && r.value.1 == Continue && r.value.0.error.Some? && r.value.0.error.value.Capturing?
      && r.value.0.error.value.status == s.error.value.status
      && r.value.0.(error := None) == s.(error := None)
  {
    match s.error
    case Some(v) =>
      var step :- VoidResponseMapper.OnPart(v, part);
      Ok((s.(error := Some(step.0)), Continue))
    case None =>
      Ok((Accept(s, part), Continue))
  }

  /** `onCompleted` with the background decoder's outcome given as `streamed`:
      the void mapper's failure in error capture; the decoder's model after the
      pipe is closed; `null` for an empty buffer; otherwise the buffer decoded. */
  function Finish<T>(s: MapperState, decode: Bytes -> Result<T, Throwable>,
                     streamed: Result<Option<T>, Throwable>): (r: Result<Option<T>, Throwable>)
    ensures s.error.Some? && s.error.value.Capturing? ==>
      r == Err(InvalidStatusException(s.error.value.status, s.error.value.body))
    ensures s.error.None? && s.streaming ==> r == streamed
    ensures s.error.None? && !s.streaming && s.totalBytes == 0 ==> r == Ok(None)
    ensures s.error.None? && !s.streaming && s.totalBytes != 0 ==> r == Lift(decode(s.buffer))
  {
    match s.error
    case Some(v) =>
      (match VoidResponseMapper.OnCompleted(v)
       case Err(e) => Err(e)
       case Ok(_) => Err(IllegalStateException("this should never happen")))
    case None =>
      if s.streaming then streamed
      else if s.totalBytes == 0 then Ok(None)
      else Lift(decode(s.buffer))
  }

  /** The streamed outcome as the code has it: the decoder runs on an executor
      thread, whose exception never reaches `onCompleted`, so a failed decode
      leaves the model `null`. `decode` sees the whole pipe, so this is the
      outcome of a decoder that fails only at end of input; one that gives
      up earlier closes the pipe, and the mapper's next write fails. */
  function StreamedAsWritten<T>(s: MapperState, decode: Bytes -> Result<T, Throwable>): (r: Result<Option<T>, Throwable>)
    ensures r.Ok?
    ensures decode(s.pipe).Ok? ==> r == Ok(Some(decode(s.pipe).value))
    ensures decode(s.pipe).Err? ==> r == Ok(None)
  {
    match decode(s.pipe)
    case Ok(m) => Ok(Some(m))
    case Err(_) => Ok(None)
  }

  /** The streamed outcome as evidently intended: a failed decode fails the
      exchange, as it does on the buffered path. */
  function Streamed<T>(s: MapperState, decode: Bytes -> Result<T, Throwable>): Result<Option<T>, Throwable> {
    Lift(decode(s.pipe))
  }

  function OnCompletedAsWritten<T>(s: MapperState, decode: Bytes -> Result<T, Throwable>): Result<Option<T>, Throwable> {
    Finish(s, decode, StreamedAsWritten(s, decode))
  }

  function OnCompleted<T>(s: MapperState, decode: Bytes -> Result<T, Throwable>): Result<Option<T>, Throwable> {
    Finish(s, decode, Streamed(s, decode))
  }

  function Mapper<T>(decode: Bytes -> Result<T, Throwable>): Handler<MapperState, Option<T>> {
    Handler(OnStatus, OnHeaders, OnPart, s => OnCompleted(s, decode))
  }

  function MapperAsWritten<T>(decode: Bytes -> Result<T, Throwable>): Handler<MapperState, Option<T>> {
    Handler(OnStatus, OnHeaders, OnPart, s => OnCompletedAsWritten(s, decode))
  }

  /** The parts taken in one after the other. */
  function AcceptAll(s: MapperState, parts: seq<Bytes>): MapperState
    decreases |parts|
  {
    if parts == [] then s else AcceptAll(Accept(s, parts[0]), parts[1..])
  }

  /** Without an error status, feeding parts never fails and accepts each. */
  lemma {:induction false} FeedAccepts(s: MapperState, parts: seq<Bytes>)
    requires s.error.None?
    ensures Feed(OnPart, s, parts) == Ok(AcceptAll(s, parts))
    decreases |parts|
  {
    if parts != [] {
      assert OnPart(s, parts[0]) == Ok((Accept(s, parts[0]), Continue));
      FeedAccepts(Accept(s, parts[0]), parts[1..]);
    }
  }

  /** The parts' bytes reach the decoder's input in order, and streaming,
      once started, stays on. */
  lemma {:induction false} AcceptBody(s: MapperState, parts: seq<Bytes>)
    requires OneSink(s)
    ensures var t := AcceptAll(s, parts);
      && t.error == s.error && OneSink(t)
      && DecoderInput(t) == DecoderInput(s) + Concat(parts)
      && (s.streaming ==> t.streaming)
    decreases |parts|
  {
    if parts == [] {
      assert DecoderInput(s) + Concat(parts) == DecoderInput(s);
    } else {
      AcceptBody(Accept(s, parts[0]), parts[1..]);
      AppendFront(DecoderInput(s), parts);
    }
  }

  /** The byte count advances with `int` wrap-around over the whole body. */
  lemma {:induction false} AcceptCountsBytes(s: MapperState, parts: seq<Bytes>)
    requires IntMin <= s.totalBytes <= IntMax
    ensures AcceptAll(s, parts).totalBytes == WrapInt(s.totalBytes + |Concat(parts)|)
    decreases |parts|
  {
    if parts == [] {
      assert AcceptAll(s, parts) == s;
    } else {
      var next := Accept(s, parts[0]);
      AcceptCountsBytes(next, parts[1..]);
      assert |Concat(parts)| == |parts[0]| + |Concat(parts[1..])| by {
        ConcatFront(parts);
      }
      JavaStringsLemmas.WrapChain(s.totalBytes, next.totalBytes, AcceptAll(next, parts[1..]).totalBytes,
                |parts[0]|, |Concat(parts[1..])|, |Concat(parts)|);
    }
  }

  /** So does the part count. */
  lemma {:induction false} AcceptCountsParts(s: MapperState, parts: seq<Bytes>)
    requires IntMin <= s.totalParts <= IntMax
    ensures AcceptAll(s, parts).totalParts == WrapInt(s.totalParts + |parts|)
    decreases |parts|
  {
    if parts == [] {
      assert AcceptAll(s, parts) == s;
    } else {
      var next := Accept(s, parts[0]);
      AcceptCountsParts(next, parts[1..]);
      JavaStringsLemmas.WrapChain(s.totalParts, next.totalParts, AcceptAll(next, parts[1..]).totalParts,
                1, |parts[1..]|, |parts|);
    }
  }

  /** While the count cannot overflow, the handler streams exactly when the
      body so far has reached the cutoff. */
  lemma {:induction false} AcceptStreamsIffLarge(s: MapperState, parts: seq<Bytes>)
    requires 0 <= s.totalBytes && s.totalBytes + |Concat(parts)| <= IntMax
    requires s.streaming <==> s.totalBytes >= StreamingCutoff
    ensures var t := AcceptAll(s, parts);
      && t.totalBytes == s.totalBytes + |Concat(parts)|
      && (t.streaming <==> t.totalBytes >= StreamingCutoff)
    decreases |parts|
  {
    if parts == [] {
    } else {
      assert |Concat(parts)| == |parts[0]| + |Concat(parts[1..])| by {
        ConcatFront(parts);
      }
      AcceptStreamsIffLarge(Accept(s, parts[0]), parts[1..]);
    }
  }

  /** One part delivered after an error status. */
  lemma FeedErrorStep(s: MapperState, status: int, body: string, parts: seq<Bytes>) returns (next: MapperState)
    requires s.error == Some(VoidResponseMapper.Capturing(status, body)) && parts != []
    ensures next == s.(error := Some(VoidResponseMapper.Capturing(status, body + Utf8.Decode(parts[0]))))
    ensures Feed(OnPart, s, parts) == Feed(OnPart, next, parts[1..])
  {
    next := s.(error := Some(VoidResponseMapper.Capturing(status, body + Utf8.Decode(parts[0]))));
    assert OnPart(s, parts[0]) == Ok((next, Continue));
  }

  lemma DecodeEachFront(body: string, parts: seq<Bytes>)
    requires parts != []
    ensures body + Utf8.Decode(parts[0]) + StringResponseMapper.DecodeEach(parts[1..])
      == body + StringResponseMapper.DecodeEach(parts)
  {
  }

  /** After an error status every part goes to the void mapper's text. */
  lemma {:induction false} FeedError(s: MapperState, status: int, body: string, parts: seq<Bytes>)
    requires s.error == Some(VoidResponseMapper.Capturing(status, body))
    ensures Feed(OnPart, s, parts)
      == Ok(s.(error := Some(VoidResponseMapper.Capturing(status, body + StringResponseMapper.DecodeEach(parts)))))
    decreases |parts|
  {
    if parts == [] {
      assert body + StringResponseMapper.DecodeEach(parts) == body;
    } else {
      var text := body + Utf8.Decode(parts[0]);
      var next := FeedErrorStep(s, status, body, parts);
      FeedError(next, status, text, parts[1..]);
      DecodeEachFront(body, parts);
    }
  }

  /** The state `onCompleted` sees after an error status: the void mapper
      holding the status and the body as text. */
  lemma ErrorRun<T>(h: Handler<MapperState, T>, resp: Response)
    requires h.onStatus == OnStatus && h.onHeaders == OnHeaders && h.onPart == OnPart
    requires VoidResponseMapper.IsErrorResponseCode(resp.status)
    ensures Run(h, Init, resp) == h.onCompleted(Init.(error := Some(
      VoidResponseMapper.Capturing(resp.status, StringResponseMapper.DecodeEach(resp.parts)))))
  {
    var captured := Init.(error := Some(VoidResponseMapper.Capturing(resp.status, "")));
    FeedError(captured, resp.status, "", resp.parts);
    assert "" + StringResponseMapper.DecodeEach(resp.parts) == StringResponseMapper.DecodeEach(resp.parts);
  }

  /** The state `onCompleted` sees after a success status and a body whose
      length fits an `int`. */
  lemma SuccessRun<T>(h: Handler<MapperState, T>, resp: Response) returns (t: MapperState)
    requires h.onStatus == OnStatus && h.onHeaders == OnHeaders && h.onPart == OnPart
    requires !VoidResponseMapper.IsErrorResponseCode(resp.status)
    requires |Concat(resp.parts)| <= IntMax
    ensures t.error.None? && DecoderInput(t) == Concat(resp.parts)
    ensures t.totalBytes == |Concat(resp.parts)|
    ensures t.streaming <==> |Concat(resp.parts)| >= StreamingCutoff
    ensures Run(h, Init, resp) == h.onCompleted(t)
  {
    FeedAccepts(Init, resp.parts);
    AcceptBody(Init, resp.parts);
    AcceptStreamsIffLarge(Init, resp.parts);
    t := AcceptAll(Init, resp.parts);
  }

  /** An exchange: an error status fails with that status and the body as
      text; otherwise an empty body gives `null` and any other body its
      decoded model or the decoder's failure, whether buffered or streamed. */
  lemma RunMapper<T>(decode: Bytes -> Result<T, Throwable>, resp: Response)
    ensures VoidResponseMapper.IsErrorResponseCode(resp.status) ==>
      Run(Mapper(decode), Init, resp)
        == Err(InvalidStatusException(resp.status, StringResponseMapper.DecodeEach(resp.parts)))
    ensures !VoidResponseMapper.IsErrorResponseCode(resp.status) && Concat(resp.parts) == [] ==>
      Run(Mapper(decode), Init, resp) == Ok(None)
    ensures !VoidResponseMapper.IsErrorResponseCode(resp.status) && 0 < |Concat(resp.parts)| <= IntMax ==>
      Run(Mapper(decode), Init, resp) == Lift(decode(Concat(resp.parts)))
  {
    if VoidResponseMapper.IsErrorResponseCode(resp.status) {
      ErrorRun(Mapper(decode), resp);
    } else if |Concat(resp.parts)| <= IntMax {
      var t := SuccessRun(Mapper(decode), resp);
    }
  }

  /** The code as written loses a streamed decoder failure: a body of at
      least 1024 bytes that the decoder rejects at end of input (truncated
      JSON) yields `null`, where the corrected handler fails the exchange
      with the decoder's error. */
  lemma StreamedFailureIsLost<T>(decode: Bytes -> Result<T, Throwable>, resp: Response)
    requires !VoidResponseMapper.IsErrorResponseCode(resp.status)
    requires StreamingCutoff <= |Concat(resp.parts)| <= IntMax
    requires decode(Concat(resp.parts)).Err?
    ensures Run(MapperAsWritten(decode), Init, resp) == Ok(None)
    ensures Run(Mapper(decode), Init, resp) == Err(decode(Concat(resp.parts)).error)
  {
    var t := SuccessRun(MapperAsWritten(decode), resp);
    var u := SuccessRun(Mapper(decode), resp);
  }

  /** The two versions differ only there: whenever the body decodes, or is
      too short to stream, they give the same outcome. */
  lemma AsWrittenAgreesOtherwise<T>(decode: Bytes -> Result<T, Throwable>, resp: Response)
    requires |Concat(resp.parts)| < StreamingCutoff || decode(Concat(resp.parts)).Ok?
    requires |Concat(resp.parts)| <= IntMax
    ensures Run(MapperAsWritten(decode), Init, resp) == Run(Mapper(decode), Init, resp)
  {
    if VoidResponseMapper.IsErrorResponseCode(resp.status) {
      ErrorRun(MapperAsWritten(decode), resp);
      ErrorRun(Mapper(decode), resp);
    } else {
      var t := SuccessRun(MapperAsWritten(decode), resp);
      var u := SuccessRun(Mapper(decode), resp);
    }
  }
}

=== FILE: java_strings.dfy ===
/** The pieces of `java.lang.String` and `java.lang.Integer` the model leans
    on: `split` with a one-character separator, joining with a separator,
    occurrence counting, `replace`, `trim`, `Integer.parseInt` and
    `Integer.toString`. */
module JavaStrings {
  import opened Wrappers
  import opened HttpTypes

  /** All the pieces of `s` between occurrences of `d`, empty ones included. */
  function Pieces(s: string, d: char): (r: seq<string>)
    ensures |r| >= 1
    ensures forall i :: 0 <= i < |r| ==> d !in r[i]
    decreases |s|
  {
    if d !in s then [s]
    else
      var i := IndexOf(s, d);
      [s[..i]] + Pieces(s[i + 1..], d)
  }

  /** Index of the first occurrence of `d` in `s`. */
  function IndexOf(s: string, d: char): (i: nat)
    requires d in s
    ensures i < |s| && s[i] == d && d !in s[..i]
  {
    if s[0] == d then 0 else
      var j := IndexOf(s[1..], d);
      assert s[..j + 1] == [s[0]] + s[1..][..j];
      j + 1
  }

  /** `xs` without its trailing empty strings. */
  function StripTrailingEmpty(xs: seq<string>): (r: seq<string>)
    ensures |r| <= |xs| && r == xs[..|r|]
    ensures r != [] ==> r[|r| - 1] != ""
    ensures forall i :: |r| <= i < |xs| ==> xs[i] == ""
  {
    if xs == [] then []
    else if xs[|xs| - 1] == "" then StripTrailingEmpty(xs[..|xs| - 1])
    else xs
  }

  /** Java's `s.split(d)` for a separator that is not a regex metacharacter:
      the input itself when the separator never occurs, otherwise every piece
      with the trailing empty ones removed (so "a=".split("=") is ["a"] and
      "&".split("&") is []). */
  function Split(s: string, d: char): (r: seq<string>)
    ensures forall i :: 0 <= i < |r| ==> d !in r[i]
    ensures d !in s ==> r == [s]
  {
    if d !in s then [s] else StripTrailingEmpty(Pieces(s, d))
  }

  /** The inverse of `Pieces`: the strings in order, `d` between neighbours. */
  function Join(xs: seq<string>, d: string): (r: string)
    ensures xs == [] ==> r == ""
  {
    if xs == [] then ""
    else if |xs| == 1 then xs[0]
    else xs[0] + d + Join(xs[1..], d)
  }

  /** Number of occurrences of `c` in `s`. */
  function Count(s: string, c: char): (n: nat)
    ensures n <= |s|
    ensures n == 0 <==> c !in s
  {
    if s == [] then 0 else (if s[0] == c then 1 else 0) + Count(s[1..], c)
  }

  /** Java's `s.replace(target, replacement)`: every non-overlapping occurrence
      of the non-empty `target`, scanning left to right, becomes `replacement`. */
  function Replace(s: string, target: string, replacement: string): (r: string)
    requires target != []
    decreases |s|
  {
    if |s| < |target| then s
    else if s[..|target|] == target then replacement + Replace(s[|target|..], target, replacement)
    else [s[0]] + Replace(s[1..], target, replacement)
  }

  /** True when `t` occurs somewhere in `s`. */
  predicate Occurs(s: string, t: string)
    decreases |s|
  {
    |s| >= |t| && (s[..|t|] == t || (s != [] && Occurs(s[1..], t)))
  }

  /** `String.trim`: drops every character at or below U+0020 from both ends. */
  function Trim(s: string): (r: string)
    ensures |r| <= |s|
    ensures r != [] ==> r[0] > ' ' && r[|r| - 1] > ' '
  {
    if s == [] then []
    else if s[0] <= ' ' then Trim(s[1..])
    else if s[|s| - 1] <= ' ' then Trim(s[..|s| - 1])
    else s
  }

  /** Smallest and largest Java `int`. */
  const IntMin: int := -0x8000_0000
  const IntMax: int := 0x7FFF_FFFF

  /** Java `int` arithmetic: the value of `n` wrapped into the 32-bit
      two's-complement range. */
  function WrapInt(n: int): (r: int)
    ensures IntMin <= r <= IntMax
    ensures (r - n) % 0x1_0000_0000 == 0
    ensures IntMin <= n <= IntMax ==> r == n
  {
    (n - IntMin) % 0x1_0000_0000 + IntMin
  }

  predicate IsDigit(c: char) {
    '0' <= c <= '9'
  }

  predicate AllDigits(s: string) {
    forall i :: 0 <= i < |s| ==> IsDigit(s[i])
  }

  /** The number a string of decimal digits denotes. */
  function DigitsValue(s: string): (n: nat)
    requires AllDigits(s)
  {
    if s == [] then 0 else DigitsValue(s[..|s| - 1]) * 10 + (s[|s| - 1] as int - '0' as int)
  }

  /** `Integer.parseInt(s)` in radix 10: an optional sign, then at least one
      digit, and the value must fit an `int`; anything else is a
      `NumberFormatException`. */
  function ParseInt(s: string): (r: Result<int, Throwable>)
    ensures r.Ok? ==> IntMin <= r.value <= IntMax
    ensures r.Err? ==> r.error == NumberFormatException(s)
    ensures r.Ok? ==> s != [] && (IsDigit(s[0]) || s[0] == '+' || s[0] == '-')
  {
    var signed := s != [] && (s[0] == '-' || s[0] == '+');
    var digits := if signed then s[1..] else s;
    if digits == [] || !AllDigits(digits) then Err(NumberFormatException(s))
    else
      var v: int := if signed && s[0] == '-' then 0 - DigitsValue(digits) as int else DigitsValue(digits) as int;
      if IntMin <= v <= IntMax then Ok(v) else Err(NumberFormatException(s))
  }

  /** `Integer.toString(n)` for a non-negative `n`. */
  function Decimal(n: nat): (r: string)
    ensures r != [] && AllDigits(r)
  {
    if n < 10 then [('0' as int + n) as char]
    else Decimal(n / 10) + [('0' as int + n % 10) as char]
  }
}

module JavaStringsLemmas {
  import opened Wrappers
  import opened JavaStrings

  /** Splitting the join of separator-free strings on the separator gives the
      strings back. */
  lemma {:induction false} PiecesJoin(xs: seq<string>, d: char)
    requires xs != []
    requires forall i :: 0 <= i < |xs| ==> d !in xs[i]
    ensures Pieces(Join(xs, [d]), d) == xs
    decreases |xs|
  {
    if |xs| == 1 {
    } else {
      var s := Join(xs, [d]);
      assert s == xs[0] + [d] + Join(xs[1..], [d]);
      assert s[|xs[0]|] == d;
      assert d in s;
      assert s[..|xs[0]|] == xs[0];
      FirstIndex(s, d, |xs[0]|);
      var i := IndexOf(s, d);
      assert s[i + 1..] == Join(xs[1..], [d]);
      PiecesJoin(xs[1..], d);
      assert [xs[0]] + xs[1..] == xs;
    }
  }

  lemma FirstIndex(s: string, d: char, j: nat)
    requires j < |s| && s[j] == d && d !in s[..j]
    ensures IndexOf(s, d) == j
  {
  }

  /** The same for Java's `split`, provided no piece is empty (an empty last
      piece would be dropped). */
  lemma SplitJoin(xs: seq<string>, d: char)
    requires xs != []
    requires forall i :: 0 <= i < |xs| ==> d !in xs[i] && xs[i] != ""
    ensures Split(Join(xs, [d]), d) == xs
  {
    var s := Join(xs, [d]);
    PiecesJoin(xs, d);
    if d in s {
      assert StripTrailingEmpty(xs) == xs;
    }
  }

  /** Joining the pieces of a string with the separator gives the string back. */
  lemma {:induction false} JoinPieces(s: string, d: char)
    ensures Join(Pieces(s, d), [d]) == s
    decreases |s|
  {
    if d in s {
      var i := IndexOf(s, d);
      var rest := Pieces(s[i + 1..], d);
      assert Pieces(s, d) == [s[..i]] + rest;
      JoinCons(s[..i], rest, [d]);
      JoinPieces(s[i + 1..], d);
      assert s == s[..i] + [d] + s[i + 1..];
    }
  }

  lemma JoinCons(x: string, xs: seq<string>, d: string)
    requires xs != []
    ensures Join([x] + xs, d) == x + d + Join(xs, d)
  {
    assert ([x] + xs)[1..] == xs;
  }

  /** Replacing a target that does not occur leaves the string unchanged. */
  lemma {:induction false} ReplaceAbsent(s: string, target: string, replacement: string)
    requires target != []
    requires !Occurs(s, target)
    ensures Replace(s, target, replacement) == s
    decreases |s|
  {
    if |s| < |target| {
    } else {
      ReplaceAbsent(s[1..], target, replacement);
    }
  }

  /** A prefix holding no first character of the target is copied through. */
  lemma {:induction false} ReplaceAfterPlain(a: string, rest: string, target: string, replacement: string)
    requires target != [] && target[0] !in a
    ensures Replace(a + rest, target, replacement) == a + Replace(rest, target, replacement)
    decreases |a|
  {
    if a != [] {
      var s := a + rest;
      assert s[0] == a[0] && s[1..] == a[1..] + rest;
      if |s| < |target| {
        assert Replace(rest, target, replacement) == rest;
      } else {
        assert s[..|target|][0] != target[0];
        ReplaceAfterPlain(a[1..], rest, target, replacement);
        assert [a[0]] + (a[1..] + Replace(rest, target, replacement)) == a + Replace(rest, target, replacement);
      }
    } else {
      assert a + rest == rest;
    }
  }

  /** An occurrence at the front becomes the replacement. */
  lemma ReplaceFront(target: string, rest: string, replacement: string)
    requires target != []
    ensures Replace(target + rest, target, replacement) == replacement + Replace(rest, target, replacement)
  {
    var s := target + rest;
    assert s[..|target|] == target && s[|target|..] == rest;
  }

  /** A single occurrence, after a prefix free of the target's first
      character, is the only one replaced. */
  lemma ReplaceOnce(before: string, target: string, after: string, replacement: string)
    requires target != [] && target[0] !in before && !Occurs(after, target)
    ensures Replace(before + target + after, target, replacement) == before + replacement + after
  {
    assert before + target + after == before + (target + after);
    ReplaceAfterPlain(before, target + after, target, replacement);
    ReplaceFront(target, after, replacement);
    ReplaceAbsent(after, target, replacement);
  }

  /** Replacing a target by itself changes nothing. */
  lemma {:induction false} ReplaceBySelf(s: string, target: string)
    requires target != []
    ensures Replace(s, target, target) == s
    decreases |s|
  {
    if |s| < |target| {
    } else if s[..|target|] == target {
      ReplaceBySelf(s[|target|..], target);
      assert s == s[..|target|] + s[|target|..];
    } else {
      ReplaceBySelf(s[1..], target);
      assert s == [s[0]] + s[1..];
    }
  }

  /** Occurrence counting splits over concatenation. */
  lemma {:induction false} CountAppend(a: string, b: string, c: char)
    ensures Count(a + b, c) == Count(a, c) + Count(b, c)
    decreases |a|
  {
    if a != [] {
      assert (a + b)[1..] == a[1..] + b;
      CountAppend(a[1..], b, c);
    } else {
      assert a + b == b;
    }
  }

  /** `Integer.toString` and `Integer.parseInt` are inverse on the
      non-negative `int`s. */
  lemma ParseDecimal(n: nat)
    requires n <= IntMax
    ensures ParseInt(Decimal(n)) == Ok(n)
  {
    DecimalValue(n);
  }

  lemma {:induction false} DecimalValue(n: nat)
    ensures DigitsValue(Decimal(n)) == n
  {
    if n >= 10 {
      DecimalValue(n / 10);
      var r := Decimal(n);
      assert r[..|r| - 1] == Decimal(n / 10);
    }
  }

  /** The sign and range rules of `Integer.parseInt`. */
  lemma ParseIntExamples()
    ensures ParseInt("+12") == Ok(12)
    ensures ParseInt("-0") == Ok(0)
    ensures ParseInt("-").Err? && ParseInt("").Err? && ParseInt("1x").Err?
  {
    assert DigitsValue("1") == 1;
    assert DigitsValue("12") == 12;
    assert DigitsValue("0") == 0;
    assert !IsDigit('x');
  }

  /** Java `int` addition is associative through the wrap-around: adding in
      steps and wrapping each time gives the wrapped total. */
  lemma WrapAdd(a: int, b: int)
    ensures WrapInt(WrapInt(a) + b) == WrapInt(a + b)
  {
    var q := (a - IntMin) / 0x1_0000_0000;
    assert WrapInt(a) - IntMin == (a - IntMin) - q * 0x1_0000_0000;
    ModShift(a - IntMin + b, q);
  }

  /** Two wrapped additions in a row wrap like their sum. */
  lemma WrapChain(before: int, mid: int, after: int, x: int, y: int, total: int)
    requires mid == WrapInt(before + x) && after == WrapInt(mid + y) && total == x + y
    ensures after == WrapInt(before + total)
  {
    WrapAdd(before + x, y);
  }

  lemma ModShift(x: int, q: int)
    ensures (x - q * 0x1_0000_0000) % 0x1_0000_0000 == x % 0x1_0000_0000
  {
  }
}

=== FILE: multimap.dfy ===
/** Guava's `ImmutableMultimap`, as built by `ImmutableMultimap.builder()`:
    values are grouped per key, keys keep the order in which they were first
    put, and the values of one key keep the order in which they were put.
    `entries()` iterates key group by key group. */
module Multimaps {

  datatype Group = Group(key: string, values: seq<string>)

  type Multimap = seq<Group>

  function Keys(m: Multimap): (r: seq<string>)
    ensures |r| == |m|
    ensures forall i :: 0 <= i < |m| ==> r[i] == m[i].key
  {
    if m == [] then [] else [m[0].key] + Keys(m[1..])
  }

  /** No key has two groups and no group is empty: the shape every built multimap has. */
  predicate Wf(m: Multimap) {
    (forall i, j :: 0 <= i < j < |m| ==> m[i].key != m[j].key)
    && (forall i :: 0 <= i < |m| ==> m[i].values != [])
  }

  /** `get(k)`: the values under `k`, empty when the key is absent. */
  function Get(m: Multimap, k: string): seq<string> {
    if m == [] then []
    else if m[0].key == k then m[0].values
    else Get(m[1..], k)
  }

  function Entries(m: Multimap): (r: seq<(string, string)>)
    ensures m == [] ==> r == []
  {
    if m == [] then [] else GroupEntries(m[0]) + Entries(m[1..])
  }

  function GroupEntries(g: Group): (r: seq<(string, string)>)
    ensures |r| == |g.values|
    ensures forall i :: 0 <= i < |r| ==> r[i] == (g.key, g.values[i])
    decreases |g.values|
  {
    if g.values == [] then [] else [(g.key, g.values[0])] + GroupEntries(Group(g.key, g.values[1..]))
  }

  /** `builder().putAll(m).put(k, v).build()`: `v` joins the group of `k`, or
      starts a new group at the end when `k` is new. */
  function Put(m: Multimap, k: string, v: string): (r: Multimap)
    ensures |r| == |m| || |r| == |m| + 1
  {
    if m == [] then [Group(k, [v])]
    else if m[0].key == k then [Group(k, m[0].values + [v])] + m[1..]
    else [m[0]] + Put(m[1..], k, v)
  }

  /** Putting every entry of `es`, in order. */
  function PutAll(m: Multimap, es: seq<(string, string)>): Multimap
    decreases |es|
  {
    if es == [] then m else PutAll(Put(m, es[0].0, es[0].1), es[1..])
  }

  /** Reference definition: the values that `es` lists under `k`, in order. */
  function ValuesIn(es: seq<(string, string)>, k: string): (r: seq<string>)
    ensures |r| <= |es|
  {
    if es == [] then []
    else (if es[0].0 == k then [es[0].1] else []) + ValuesIn(es[1..], k)
  }
}

module MultimapLemmas {
  import opened Multimaps

  lemma {:induction false} GetAbsent(m: Multimap, k: string)
    requires k !in Keys(m)
    ensures Get(m, k) == []
  {
    if m != [] {
      assert Keys(m[1..]) == Keys(m)[1..];
      GetAbsent(m[1..], k);
    }
  }

  /** `put` adds `v` after the values already under `k` and leaves every other key alone. */
  lemma {:induction false} GetPut(m: Multimap, k: string, v: string, k': string)
    ensures Get(Put(m, k, v), k') == if k' == k then Get(m, k) + [v] else Get(m, k')
  {
    if m != [] && m[0].key != k {
      GetPut(m[1..], k, v, k');
    }
  }

  /** The keys stay in first-insertion order; a new key goes last. */
  lemma {:induction false} KeysPut(m: Multimap, k: string, v: string)
    ensures Keys(Put(m, k, v)) == if k in Keys(m) then Keys(m) else Keys(m) + [k]
  {
    if m != [] && m[0].key != k {
      KeysPut(m[1..], k, v);
      assert Keys(m) == [m[0].key] + Keys(m[1..]);
    }
  }

  lemma {:induction false} PutWf(m: Multimap, k: string, v: string)
    requires Wf(m)
    ensures Wf(Put(m, k, v))
  {
    var r := Put(m, k, v);
    KeysPut(m, k, v);
    var ks := Keys(r);
    forall i, j | 0 <= i < j < |r|
      ensures r[i].key != r[j].key
    {
      assert ks[i] == r[i].key && ks[j] == r[j].key;
      if k in Keys(m) {
        assert Keys(m)[i] == m[i].key && Keys(m)[j] == m[j].key;
      } else if j < |m| {
        assert Keys(m)[i] == m[i].key && Keys(m)[j] == m[j].key;
      } else {
        assert Keys(m)[i] == m[i].key;
      }
    }
    PutValuesNonEmpty(m, k, v);
  }

  lemma {:induction false} PutValuesNonEmpty(m: Multimap, k: string, v: string)
    requires forall i :: 0 <= i < |m| ==> m[i].values != []
    ensures forall i :: 0 <= i < |Put(m, k, v)| ==> Put(m, k, v)[i].values != []
  {
    if m != [] && m[0].key != k {
      PutValuesNonEmpty(m[1..], k, v);
      var r := Put(m, k, v);
      assert r == [m[0]] + Put(m[1..], k, v);
      forall i | 0 <= i < |r|
        ensures r[i].values != []
      {
        if i > 0 {
          assert r[i] == Put(m[1..], k, v)[i - 1];
        }
      }
    }
  }

  /** Building from a sequence of puts: the values under every key are those
      the sequence lists under it, after the ones already there. */
  lemma {:induction false} GetPutAll(m: Multimap, es: seq<(string, string)>, k: string)
    ensures Get(PutAll(m, es), k) == Get(m, k) + ValuesIn(es, k)
    decreases |es|
  {
    if es != [] {
      GetPutAll(Put(m, es[0].0, es[0].1), es[1..], k);
      GetPut(m, es[0].0, es[0].1, k);
    }
  }

  lemma {:induction false} PutAllWf(m: Multimap, es: seq<(string, string)>)
    requires Wf(m)
    ensures Wf(PutAll(m, es))
    decreases |es|
  {
    if es != [] {
      PutWf(m, es[0].0, es[0].1);
      PutAllWf(Put(m, es[0].0, es[0].1), es[1..]);
    }
  }

  /** `put` adds exactly one entry: the multiset of entries grows by `(k, v)`. */
  lemma {:induction false} EntriesPut(m: Multimap, k: string, v: string)
    ensures multiset(Entries(Put(m, k, v))) == multiset(Entries(m)) + multiset{(k, v)}
  {
    if m == [] {
      assert GroupEntries(Group(k, [v])) == [(k, v)];
    } else if m[0].key == k {
      EntriesPutFirst(m, k, v);
    } else {
      EntriesPut(m[1..], k, v);
      EntriesPutLater(m, k, v);
    }
  }

  /** `put` on the first group's key extends that group. */
  lemma EntriesPutFirst(m: Multimap, k: string, v: string)
    requires m != [] && m[0].key == k
    ensures multiset(Entries(Put(m, k, v))) == multiset(Entries(m)) + multiset{(k, v)}
  {
    GroupEntriesSnoc(m[0], v);
    assert Entries(Put(m, k, v)) == GroupEntries(Group(k, m[0].values + [v])) + Entries(m[1..]);
  }

  /** `put` on another key leaves the first group in front. */
  lemma EntriesPutLater(m: Multimap, k: string, v: string)
    requires m != [] && m[0].key != k
    requires multiset(Entries(Put(m[1..], k, v))) == multiset(Entries(m[1..])) + multiset{(k, v)}
    ensures multiset(Entries(Put(m, k, v))) == multiset(Entries(m)) + multiset{(k, v)}
  {
    var r := Put(m, k, v);
    assert r[0] == m[0] && r[1..] == Put(m[1..], k, v);
    assert Entries(r) == GroupEntries(m[0]) + Entries(Put(m[1..], k, v));
  }

  lemma GroupEntriesSnoc(g: Group, v: string)
    ensures GroupEntries(Group(g.key, g.values + [v])) == GroupEntries(g) + [(g.key, v)]
  {
  }

  /** Entries of a multimap whose keys are all different come out in the order they were put. */
  lemma {:induction false} EntriesPutAllDistinct(es: seq<(string, string)>)
    requires forall i, j :: 0 <= i < j < |es| ==> es[i].0 != es[j].0
    ensures Entries(PutAll([], es)) == es
  {
    PutAllSingletons([], es);
    assert [] + es == es;
  }

  lemma {:induction false} PutAllSingletons(m: Multimap, es: seq<(string, string)>)
    requires forall i, j :: 0 <= i < j < |es| ==> es[i].0 != es[j].0
    requires forall i, j :: 0 <= i < |m| && 0 <= j < |es| ==> m[i].key != es[j].0
    ensures Entries(PutAll(m, es)) == Entries(m) + es
    decreases |es|
  {
    if es == [] {
      assert Entries(m) + es == Entries(m);
    } else {
      var m' := PutSingleton(m, es);
      PutAllSingletons(m', es[1..]);
      SplitFirst(Entries(m), es);
    }
  }

  /** The first entry of `es` starts a group of its own at the end, and no
      later entry's key is among the groups so far. */
  lemma PutSingleton(m: Multimap, es: seq<(string, string)>) returns (m': Multimap)
    requires es != []
    requires forall i, j :: 0 <= i < j < |es| ==> es[i].0 != es[j].0
    requires forall i, j :: 0 <= i < |m| && 0 <= j < |es| ==> m[i].key != es[j].0
    ensures m' == Put(m, es[0].0, es[0].1)
    ensures Entries(m') == Entries(m) + [es[0]]
    ensures forall i, j :: 0 <= i < |m'| && 0 <= j < |es[1..]| ==> m'[i].key != es[1..][j].0
  {
    var g := Group(es[0].0, [es[0].1]);
    m' := m + [g];
    PutFresh(m, es[0].0, es[0].1);
    EntriesAppend(m, [g]);
    assert GroupEntries(g) == [es[0]];
    assert Entries([g]) == [es[0]];
    forall i, j | 0 <= i < |m'| && 0 <= j < |es[1..]|
      ensures m'[i].key != es[1..][j].0
    {
      assert es[1..][j] == es[j + 1];
    }
  }

  lemma SplitFirst<T>(a: seq<T>, s: seq<T>)
    requires s != []
    ensures a + [s[0]] + s[1..] == a + s
  {
    assert [s[0]] + s[1..] == s;
  }

  lemma {:induction false} PutFresh(m: Multimap, k: string, v: string)
    requires forall i :: 0 <= i < |m| ==> m[i].key != k
    ensures Put(m, k, v) == m + [Group(k, [v])]
  {
    if m != [] {
      PutFresh(m[1..], k, v);
      assert [m[0]] + (m[1..] + [Group(k, [v])]) == m + [Group(k, [v])];
    }
  }

  lemma {:induction false} EntriesAppend(a: Multimap, b: Multimap)
    ensures Entries(a + b) == Entries(a) + Entries(b)
  {
    if a == [] {
      assert a + b == b;
    } else {
      assert (a + b)[1..] == a[1..] + b;
      EntriesAppend(a[1..], b);
    }
  }
}

=== FILE: request.dfy ===
/** `Request` and `Request.Builder`: an immutable description of one HTTP call
    (method, base url, path template, query parameters, path parameters,
    headers), and the builder every client edit goes through. */
module Requests {
  import opened Wrappers
  import opened HttpTypes
  import opened JavaStrings
  import opened Multimaps
  import Form

  /** A built request. `url` is `None` for Java's `null`. Path parameters are
      an `ImmutableMap`: distinct keys in insertion order. */
  datatype Request = Request(
    httpMethod: string,
    url: Option<string>,
    path: string,
    queryParams: Multimap,
    pathParams: seq<(string, string)>,
    headers: Multimap)

  datatype Builder = Builder(
    httpMethod: string,
    url: Option<string>,
    path: string,
    queryParams: Multimap,
    pathParams: seq<(string, string)>,
    headers: Multimap)

  /** What the constructor reads back from `java.net.URL`. `authority` is
      `None` when the URL has no "//" part (`getAuthority()` is null). */
  datatype Url = Url(protocol: string, authority: Option<string>, path: string, query: Option<string>)

  // ---------------------------------------------------------------- builder

  /** `Request.builder(url)`: method "GET", path "/", nothing else. */
  function NewBuilder(url: Option<string>): (b: Builder)
    ensures b.url == url && b.httpMethod == "GET" && b.path == "/"
    ensures Entries(b.queryParams) == [] && b.pathParams == [] && Entries(b.headers) == []
  {
    Builder("GET", url, "/", [], [], [])
  }

  /** `url(u)`: a new base url clears the path and the query parameters. */
  function SetUrl(b: Builder, url: Option<string>): (r: Builder)
    ensures r.url == url && r.path == "" && Entries(r.queryParams) == []
    ensures r.httpMethod == b.httpMethod && r.pathParams == b.pathParams && r.headers == b.headers
  {
    b.(url := url, path := "", queryParams := [])
  }

  /** `method(m)`: stored upper-cased. */
  function SetMethod(b: Builder, m: string): (r: Builder)
    ensures |r.httpMethod| == |m|
    ensures forall i :: 0 <= i < |m| ==> r.httpMethod[i] == if 'a' <= m[i] <= 'z' then (m[i] as int - 32) as char else m[i]
    ensures r == b.(httpMethod := r.httpMethod)
  {
    b.(httpMethod := ToUpperAscii(m))
  }

  function SetPath(b: Builder, path: string): Builder {
    b.(path := path)
  }

  /** `addPath(p)`: plain concatenation, no separator is inserted. */
  function AddPath(b: Builder, path: string): (r: Builder)
    ensures |r.path| == |b.path| + |path| && r.path[..|b.path|] == b.path && r.path[|b.path|..] == path
    ensures r == b.(path := r.path)
  {
    b.(path := b.path + path)
  }

  function PathParamKeys(ps: seq<(string, string)>): (r: seq<string>)
    ensures |r| == |ps|
    ensures forall i :: 0 <= i < |ps| ==> r[i] == ps[i].0
  {
    if ps == [] then [] else [ps[0].0] + PathParamKeys(ps[1..])
  }

  /** `pathParam(k, v)`: `ImmutableMap.builder().putAll(old).put(k, v).build()`,
      which refuses a key that is already there. */
  function PathParam(b: Builder, key: string, val: string): (r: Result<Builder, Throwable>)
    ensures r.Ok? <==> key !in PathParamKeys(b.pathParams)
    ensures r.Ok? ==> r.value == b.(pathParams := b.pathParams + [(key, val)])
    ensures r.Err? ==> r.error.IllegalArgumentException?
  {
    if key in PathParamKeys(b.pathParams) then
      Err(IllegalArgumentException("Multiple entries with same key: " + key))
    else
      Ok(b.(pathParams := b.pathParams + [(key, val)]))
  }

  /** `setQueryParam(k, v)`: `putAll(k, v)` with one value, which appends
      exactly like `put`. */
  function SetQueryParam(b: Builder, key: string, val: string): (r: Builder)
    ensures r == b.(queryParams := r.queryParams)
  {
    b.(queryParams := Put(b.queryParams, key, val))
  }

  function AddQueryParam(b: Builder, key: string, val: string): (r: Builder)
    ensures r == b.(queryParams := r.queryParams)
  {
    b.(queryParams := Put(b.queryParams, key, val))
  }

  /** `setHeader(k, v)`: like `setQueryParam`, an append. */
  function SetHeader(b: Builder, key: string, val: string): (r: Builder)
    ensures r == b.(headers := r.headers)
  {
    b.(headers := Put(b.headers, key, val))
  }

  function AddHeader(b: Builder, key: string, val: string): (r: Builder)
    ensures r == b.(headers := r.headers)
  {
    b.(headers := Put(b.headers, key, val))
  }

  function ToBuilder(r: Request): Builder {
    Builder(r.httpMethod, r.url, r.path, r.queryParams, r.pathParams, r.headers)
  }

  // ------------------------------------------------------------ url parsing

  /** Index of the first character of `s` that is in `cs`, or `|s|`. */
  function FirstOf(s: string, cs: set<char>): (i: nat)
    ensures i <= |s|
    ensures i < |s| ==> s[i] in cs
    ensures forall j :: 0 <= j < i ==> s[j] !in cs
  {
    if s == [] || s[0] in cs then 0 else 1 + FirstOf(s[1..], cs)
  }

  predicate IsSchemeStart(c: char) {
    'a' <= c <= 'z' || 'A' <= c <= 'Z'
  }

  predicate IsSchemeChar(c: char) {
    IsSchemeStart(c) || '0' <= c <= '9' || c == '.' || c == '+' || c == '-'
  }

  predicate ValidProtocol(p: string) {
    |p| >= 1 && IsSchemeStart(p[0]) && forall i :: 1 <= i < |p| ==> IsSchemeChar(p[i])
  }

  /** The protocols JDK 8 ships a URL stream handler for. */
  const KnownProtocols: set<string> := {"http", "https", "ftp", "file", "jar", "mailto", "netdoc"}

  /** The host part of an authority whose port the handler parses: after a
      single '@'; with several '@' the authority is not server based and no
      port is read. */
  function Host(authority: string): Option<string> {
    var at := Count(authority, '@');
    if at == 0 then Some(authority)
    else if at == 1 then Some(authority[FirstOf(authority, {'@'}) + 1..])
    else None
  }

  /** A port, when present, must parse as an `int` of at least -1. */
  predicate ValidAuthority(authority: string) {
    match Host(authority)
    case None => true
    case Some(host) =>
      if host != [] && host[0] == '[' then true
      else
        var i := FirstOf(host, {':'});
        i + 1 >= |host| ||
        (ParseInt(host[i + 1..]).Ok? && ParseInt(host[i + 1..]).value >= -1)
  }

  /** `new URL(spec)` as far as the constructor uses it: trim, an optional
      "url:" prefix, a protocol before the first ':' (and before any '/'),
      which must have a handler; the reference after '#' is dropped; the query
      is what follows the first '?'; a "//" introduces an authority that runs
      to the next '/', except in a UNC name ("////" and on), which has no
      authority and keeps all its slashes in the path. `None` stands for
      `MalformedURLException`. */
  function ParseUrl(spec: string): (r: Option<Url>)
    ensures r.Some? ==> r.value.protocol in KnownProtocols
    ensures r.Some? && r.value.authority.Some? ==> '/' !in r.value.authority.value && '?' !in r.value.authority.value
  {
    var t0 := Trim(spec);
    var t := if |t0| >= 4 && ToLowerAscii(t0[..4]) == "url:" then t0[4..] else t0;
    var i := FirstOf(t, {':', '/'});
    if i == |t| || t[i] != ':' || !ValidProtocol(t[..i]) then None
    else
      var protocol := ToLowerAscii(t[..i]);
      if protocol !in KnownProtocols then None
      else
        var rest := t[i + 1..];
        var noRef := rest[..FirstOf(rest, {'#'})];
        var q := FirstOf(noRef, {'?'});
        var query := if q < |noRef| then Some(noRef[q + 1..]) else None;
        FromHier(protocol, noRef[..q], query)
  }

  /** The part of a url between the protocol's ':' and the query: a "//"
      introduces an authority that runs to the next '/'; a UNC name ("////")
      and anything else is all path. */
  function FromHier(protocol: string, hier: string, query: Option<string>): (r: Option<Url>)
    ensures r.Some? ==> r.value.protocol == protocol && r.value.query == query
    ensures r.Some? && r.value.authority.Some? ==> '/' !in r.value.authority.value
    ensures r.Some? && r.value.authority.Some? && '?' !in hier ==> '?' !in r.value.authority.value
  {
    if |hier| >= 2 && hier[..2] == "//" && !(|hier| >= 4 && hier[..4] == "////") then
      var a := hier[2..];
      var j := FirstOf(a, {'/'});
      if !ValidAuthority(a[..j]) then None
      else Some(Url(protocol, Some(a[..j]), a[j..], query))
    else
      Some(Url(protocol, None, hier, query))
  }

  /** How Java renders a possibly-null string in a concatenation. */
  function Text(s: Option<string>): (r: string)
    ensures s.Some? ==> r == s.value
  {
    match s
    case None => "null"
    case Some(v) => v
  }

  // ------------------------------------------------------------ constructor

  /** The constructor's shortcut: no url, or one without '?' and with exactly
      two '/', is taken as a bare base url. */
  predicate SkipsParsing(url: Option<string>) {
    url.None? || ('?' !in url.value && Count(url.value, '/') == 2)
  }

  /** The query pairs carried by the url itself; an empty query adds nothing. */
  function QueryEntries(query: Option<string>): Result<Form.Entries, Throwable> {
    if query.None? || query.value == "" then Ok([]) else Form.Decode(query.value)
  }

  /** `new Request(...)` via `Builder.build()`. Failures: a url that does not
      parse (IllegalArgumentException "invalid URL: ..."), and whatever
      `Form.decode` throws on its query. */
  function Build(b: Builder): (r: Result<Request, Throwable>)
    ensures r.Ok? ==> r.value.httpMethod == b.httpMethod && r.value.pathParams == b.pathParams && r.value.headers == b.headers
    ensures r.Err? ==> !SkipsParsing(b.url)
  {
    if SkipsParsing(b.url) then
      Ok(Request(b.httpMethod, b.url, b.path, b.queryParams, b.pathParams, b.headers))
    else
      match ParseUrl(b.url.value)
      case None => Err(IllegalArgumentException("invalid URL: " + b.url.value))
      case Some(p) => FromParsedUrl(b, p)
  }

  /** The constructor's second half, once the url has parsed. */
  function FromParsedUrl(b: Builder, p: Url): (r: Result<Request, Throwable>)
    ensures r.Ok? ==> r.value.httpMethod == b.httpMethod && r.value.pathParams == b.pathParams && r.value.headers == b.headers
    ensures r.Ok? <==> QueryEntries(p.query).Ok?
  {
    var fromUrl :- QueryEntries(p.query);
    Ok(Request(
      b.httpMethod,
      Some(p.protocol + "://" + Text(p.authority)),
      if b.path == "" then p.path else b.path,
      PutAll(PutAll([], fromUrl), Entries(b.queryParams)),
      b.pathParams,
      b.headers))
  }

  // -------------------------------------------------------------- rendering

  /** Every `{key}` of the path replaced by the form-encoded value, one path
      parameter after the other in map order. */
  function Substitute(path: string, params: seq<(string, string)>): string
    decreases |params|
  {
    if params == [] then path
    else Substitute(Replace(path, "{" + params[0].0 + "}", Form.UrlEncode(params[0].1)), params[1..])
  }

  function GetUrl(r: Request): string {
    Text(r.url) + Substitute(r.path, r.pathParams)
  }

  predicate IsUrlSet(r: Request) {
    r.url.Some? && r.url.value != ""
  }

  function ToString(r: Request): string {
    if Entries(r.queryParams) == [] then r.httpMethod + " " + GetUrl(r)
    else r.httpMethod + " " + GetUrl(r) + "?" + Form.Encode(Entries(r.queryParams))
  }
}

module RequestLemmas {
  import opened Wrappers
  import opened HttpTypes
  import opened JavaStrings
  import opened Multimaps
  import MultimapLemmas
  import JavaStringsLemmas
  import Form
  import FormLemmas
  import opened Requests

  /** `setQueryParam` and `addQueryParam` both append: the new value goes after
      the values already under the key, other keys keep theirs, and the
      multimap stays well formed. */
  lemma QueryParamAppends(b: Builder, key: string, val: string, k: string)
    ensures SetQueryParam(b, key, val) == AddQueryParam(b, key, val)
    ensures Get(AddQueryParam(b, key, val).queryParams, k)
         == if k == key then Get(b.queryParams, key) + [val] else Get(b.queryParams, k)
    ensures Wf(b.queryParams) ==> Wf(AddQueryParam(b, key, val).queryParams)
    ensures multiset(Entries(AddQueryParam(b, key, val).queryParams))
         == multiset(Entries(b.queryParams)) + multiset{(key, val)}
  {
    MultimapLemmas.GetPut(b.queryParams, key, val, k);
    if Wf(b.queryParams) {
      MultimapLemmas.PutWf(b.queryParams, key, val);
    }
    MultimapLemmas.EntriesPut(b.queryParams, key, val);
  }

  /** The same for `setHeader` and `addHeader`. */
  lemma HeaderAppends(b: Builder, key: string, val: string, k: string)
    ensures SetHeader(b, key, val) == AddHeader(b, key, val)
    ensures Get(AddHeader(b, key, val).headers, k)
         == if k == key then Get(b.headers, key) + [val] else Get(b.headers, k)
    ensures Wf(b.headers) ==> Wf(AddHeader(b, key, val).headers)
    ensures multiset(Entries(AddHeader(b, key, val).headers))
         == multiset(Entries(b.headers)) + multiset{(key, val)}
  {
    MultimapLemmas.GetPut(b.headers, key, val, k);
    if Wf(b.headers) {
      MultimapLemmas.PutWf(b.headers, key, val);
    }
    MultimapLemmas.EntriesPut(b.headers, key, val);
  }

  /** Setting a query parameter twice keeps both values: "set" does not
      replace. */
  lemma SetQueryParamTwiceKeepsBoth(b: Builder, key: string, v1: string, v2: string)
    ensures Get(SetQueryParam(SetQueryParam(b, key, v1), key, v2).queryParams, key)
         == Get(b.queryParams, key) + [v1, v2]
  {
    var m1 := Put(b.queryParams, key, v1);
    MultimapLemmas.GetPut(b.queryParams, key, v1, key);
    MultimapLemmas.GetPut(m1, key, v2, key);
    assert Get(b.queryParams, key) + [v1] + [v2] == Get(b.queryParams, key) + [v1, v2];
  }

  lemma {:induction false} UpperIdempotent(s: string)
    ensures ToUpperAscii(ToUpperAscii(s)) == ToUpperAscii(s)
  {
    var u := ToUpperAscii(s);
    var uu := ToUpperAscii(u);
    assert forall i :: 0 <= i < |s| ==> uu[i] == u[i];
  }

  /** Upper-casing the method twice is upper-casing it once. */
  lemma MethodIdempotent(b: Builder, m: string)
    ensures SetMethod(SetMethod(b, m), SetMethod(b, m).httpMethod) == SetMethod(b, m)
  {
    UpperIdempotent(m);
  }

  /** `addPath` twice is `addPath` of the concatenation. */
  lemma AddPathTwice(b: Builder, p: string, q: string)
    ensures AddPath(AddPath(b, p), q) == AddPath(b, p + q)
  {
    assert b.path + p + q == b.path + (p + q);
  }

  /** `url(u)` then `build()` with a bare base url: path and query stay empty. */
  lemma UrlResetsPathAndQuery(b: Builder, u: string)
    requires '?' !in u && Count(u, '/') == 2
    ensures Build(SetUrl(b, Some(u))).Ok?
    ensures Build(SetUrl(b, Some(u))).value.path == ""
    ensures Entries(Build(SetUrl(b, Some(u))).value.queryParams) == []
    ensures Build(SetUrl(b, Some(u))).value.headers == b.headers
  {
  }

  /** The constructor's shortcut keeps url, path and query parameters as given. */
  lemma BuildShortcut(b: Builder)
    requires SkipsParsing(b.url)
    ensures Build(b).Ok?
    ensures Build(b).value.url == b.url && Build(b).value.path == b.path
    ensures Build(b).value.queryParams == b.queryParams
  {
  }

  /** An unparseable url is rejected with the message the constructor uses. */
  lemma BuildInvalid(b: Builder)
    requires !SkipsParsing(b.url) && ParseUrl(b.url.value).None?
    ensures Build(b) == Err(IllegalArgumentException("invalid URL: " + b.url.value))
  {
  }

  /** A parsed url is cut down to "protocol://authority"; its path is used
      only when the builder's path is empty; its query pairs come before the
      builder's own parameters under every key. */
  lemma BuildParsed(b: Builder, p: Url, es: Form.Entries, k: string)
    requires !SkipsParsing(b.url) && ParseUrl(b.url.value) == Some(p)
    requires QueryEntries(p.query) == Ok(es)
    ensures Build(b).Ok?
    ensures Build(b).value.url == Some(p.protocol + "://" + Text(p.authority))
    ensures Build(b).value.path == if b.path == "" then p.path else b.path
    ensures Get(Build(b).value.queryParams, k) == ValuesIn(es, k) + ValuesIn(Entries(b.queryParams), k)
    ensures Wf(Build(b).value.queryParams)
  {
    assert Build(b) == FromParsedUrl(b, p);
    var m := PutAll([], es);
    var qp := PutAll(m, Entries(b.queryParams));
    assert FromParsedUrl(b, p).value.queryParams == qp;
    QueryParamsOfParsed(m, es, Entries(b.queryParams), k);
  }

  /** A UNC name ("////" after the scheme) has no authority: every slash
      stays in the path, up to the query. */
  lemma UncNameHasNoAuthority(rest: string, q: nat)
    requires rest != [] && rest[|rest| - 1] > ' ' && '#' !in rest
    requires q <= |rest| && (q < |rest| ==> rest[q] == '?') && '?' !in rest[..q]
    requires q >= 4 && rest[..4] == "////"
    ensures ParseUrl("http:" + rest) == Some(Url("http", None, rest[..q], if q < |rest| then Some(rest[q + 1..]) else None))
  {
    ParseHttp(rest, q);
    assert rest[..q][..4] == "////";
  }

  /** The constructor on a UNC name without a query: the base url becomes
      "http://null" and the whole name is the path. */
  lemma UncNameBuildsNullAuthority(b: Builder, rest: string)
    requires rest != [] && rest[|rest| - 1] > ' ' && '#' !in rest && '?' !in rest
    requires |rest| >= 4 && rest[..4] == "////"
    requires b.url == Some("http:" + rest) && b.path == ""
    ensures Build(b).Ok?
    ensures Build(b).value.url == Some("http://null") && Build(b).value.path == rest
  {
    assert rest[..|rest|] == rest;
    UncNameHasNoAuthority(rest, |rest|);
    UncNameIsParsed(rest);
    var p := Url("http", None, rest, None);
    assert ParseUrl(b.url.value) == Some(p);
    assert !SkipsParsing(b.url);
    assert QueryEntries(p.query) == Ok([]);
    BuildParsed(b, p, [], "");
    NullBaseUrl();
  }

  lemma NullBaseUrl()
    ensures "http" + "://" + Text(None) == "http://null"
  {
  }

  lemma UncNameIsParsed(rest: string)
    requires |rest| >= 4 && rest[..4] == "////"
    ensures !SkipsParsing(Some("http:" + rest))
  {
    assert rest == "////" + rest[4..];
    JavaStringsLemmas.CountAppend("////", rest[4..], '/');
    JavaStringsLemmas.CountAppend("http:", rest, '/');
    assert Count("////", '/') == 4;
  }

  /** How an "http:" url with no '#', no blank ends and its first '?' at
      `q` reaches the authority test. */
  lemma ParseHttp(rest: string, q: nat)
    requires rest != [] && rest[|rest| - 1] > ' ' && '#' !in rest
    requires q <= |rest| && (q < |rest| ==> rest[q] == '?') && '?' !in rest[..q]
    ensures ParseUrl("http:" + rest) == FromHier("http", rest[..q], if q < |rest| then Some(rest[q + 1..]) else None)
  {
    var t := "http:" + rest;
    HttpPrefix(rest);
    assert t[5..] == rest;
    assert FirstOf(rest, {'#'}) == |rest|;
    assert rest[..|rest|] == rest;
    assert FirstOf(rest, {'?'}) == q;
  }

  lemma HttpPrefix(rest: string)
    requires rest != [] && rest[|rest| - 1] > ' '
    ensures var t := "http:" + rest;
      Trim(t) == t && ToLowerAscii(t[..4]) == "http" && FirstOf(t, {':', '/'}) == 4 && ValidProtocol(t[..4])
  {
    var t := "http:" + rest;
    assert t[0] == 'h' && t[1] == 't' && t[2] == 't' && t[3] == 'p' && t[4] == ':';
    assert Trim(t) == t;
    assert t[..4] == "http";
    assert ToLowerAscii("http") == "http";
    assert FirstOf(t, {':', '/'}) == 4 by {
      var f := FirstOf(t, {':', '/'});
      assert f <= 4;
    }
    assert ValidProtocol("http");
  }

  lemma QueryParamsOfParsed(m: Multimap, es: Form.Entries, own: seq<(string, string)>, k: string)
    requires m == PutAll([], es)
    ensures Get(PutAll(m, own), k) == ValuesIn(es, k) + ValuesIn(own, k)
    ensures Wf(PutAll(m, own))
  {
    MultimapLemmas.GetPutAll([], es, k);
    assert Get(m, k) == ValuesIn(es, k) by {
      assert Get([], k) == [];
      assert [] + ValuesIn(es, k) == ValuesIn(es, k);
    }
    MultimapLemmas.GetPutAll(m, own, k);
    MultimapLemmas.PutAllWf([], es);
    MultimapLemmas.PutAllWf(m, own);
  }

  /** A built request goes through the builder and the constructor unchanged:
      the normalisation is idempotent. */
  lemma BuildIdempotent(b: Builder)
    requires Build(b).Ok?
    ensures Build(ToBuilder(Build(b).value)) == Build(b)
  {
    var r := Build(b).value;
    if !SkipsParsing(b.url) {
      var p := ParseUrl(b.url.value).value;
      assert Build(b) == FromParsedUrl(b, p);
      assert r.url == Some(p.protocol + "://" + Text(p.authority));
      BaseUrlSkipsParsing(p);
    }
    assert Build(ToBuilder(r)) == Ok(Request(r.httpMethod, r.url, r.path, r.queryParams, r.pathParams, r.headers));
  }

  /** "protocol://authority" has no '?' and exactly two '/'. */
  lemma BaseUrlSkipsParsing(p: Url)
    requires p.protocol in KnownProtocols
    requires p.authority.Some? ==> '/' !in p.authority.value && '?' !in p.authority.value
    ensures SkipsParsing(Some(p.protocol + "://" + Text(p.authority)))
  {
    var a := Text(p.authority);
    assert '/' !in a && '?' !in a by {
      if p.authority.None? {
        assert a == "null";
      }
    }
    ProtocolHasNoSlash(p.protocol);
    JavaStringsLemmas.CountAppend(p.protocol, "://", '/');
    JavaStringsLemmas.CountAppend(p.protocol + "://", a, '/');
    assert Count("://", '/') == 2;
  }

  lemma ProtocolHasNoSlash(p: string)
    requires p in KnownProtocols
    ensures '/' !in p && '?' !in p
  {
    assert p == "http" || p == "https" || p == "ftp" || p == "file" || p == "jar" || p == "mailto" || p == "netdoc";
  }

  /** Whether a url is set survives building: a request built from a
      non-empty url has one, and one built from no url or "" does not. */
  lemma BuildKeepsUrlSet(b: Builder)
    requires Build(b).Ok?
    ensures IsUrlSet(Build(b).value) <==> b.url.Some? && b.url.value != ""
  {
    if !SkipsParsing(b.url) {
      assert b.url.value != "" by {
        if b.url.value == "" {
          assert Trim("") == "";
        }
      }
    }
  }

  /** With no path parameters the url is the base url followed by the path. */
  lemma GetUrlWithoutParams(r: Request)
    requires r.pathParams == []
    ensures GetUrl(r) == Text(r.url) + r.path
  {
  }

  /** Path parameters whose placeholders do not occur leave the path alone. */
  lemma {:induction false} SubstituteAbsent(path: string, params: seq<(string, string)>)
    requires forall i :: 0 <= i < |params| ==> !Occurs(path, "{" + params[i].0 + "}")
    ensures Substitute(path, params) == path
    decreases |params|
  {
    if params != [] {
      JavaStringsLemmas.ReplaceAbsent(path, "{" + params[0].0 + "}", Form.UrlEncode(params[0].1));
      assert forall i :: 0 <= i < |params[1..]| ==> params[1..][i] == params[i + 1];
      SubstituteAbsent(path, params[1..]);
    }
  }

  /** `getUrl` with one path parameter: its single `{key}` placeholder in the
      path becomes the form-encoded value, and the rest of the path is kept. */
  lemma PathParamSubstituted(r: Request, before: string, after: string)
    requires |r.pathParams| == 1
    requires r.path == before + "{" + r.pathParams[0].0 + "}" + after
    requires '{' !in before && !Occurs(after, "{" + r.pathParams[0].0 + "}")
    ensures GetUrl(r) == Text(r.url) + before + Form.UrlEncode(r.pathParams[0].1) + after
  {
    var t := "{" + r.pathParams[0].0 + "}";
    var enc := Form.UrlEncode(r.pathParams[0].1);
    assert r.path == before + t + after;
    JavaStringsLemmas.ReplaceOnce(before, t, after, enc);
    assert r.pathParams[1..] == [];
    assert Substitute(r.path, r.pathParams) == before + enc + after;
  }

  /** `toString` is the method, a space and the url; the query parameters
      follow after a '?' exactly when there are any, and that suffix is the
      form encoding of the entries, which `Form.decode` turns back into the
      same entries when every value is non-empty. */
  lemma ToStringQuery(r: Request)
    ensures var head := r.httpMethod + " " + GetUrl(r);
      && |ToString(r)| >= |head| && ToString(r)[..|head|] == head
      && (Entries(r.queryParams) == [] <==> ToString(r) == head)
      && (Entries(r.queryParams) != [] ==> ToString(r)[|head|] == '?')
      && (Entries(r.queryParams) != [] && (forall i :: 0 <= i < |Entries(r.queryParams)| ==> Entries(r.queryParams)[i].1 != "") ==>
            Form.Decode(ToString(r)[|head| + 1..]) == Ok(Entries(r.queryParams)))
  {
    var head := r.httpMethod + " " + GetUrl(r);
    var es := Entries(r.queryParams);
    if es != [] {
      var q := Form.Encode(es);
      assert ToString(r) == head + "?" + q;
      assert ToString(r)[|head| + 1..] == q;
      FormLemmas.FormRoundTrip(es);
    }
  }
}

=== FILE: simple_handlers.dfy ===
/** `StringResponseMapper`: the body, each part decoded as UTF-8 on its own
    and appended to a `StringBuilder`. */
module StringResponseMapper {
  import opened Wrappers
  import opened HttpTypes
  import opened AsyncHandler
  import Utf8
  import Utf8Lemmas

  /** The builder's contents. */
  type StringState = string

  const Init: StringState := ""

  function OnStatus(s: StringState, status: int): Step<StringState> {
    Ok((s, Continue))
  }

  function OnHeaders(s: StringState, headers: Headers): Step<StringState> {
    Ok((s, Continue))
  }

  function OnPart(s: StringState, part: Bytes): (r: Step<StringState>)
    ensures r.Ok? && r.value.1 == Continue
    ensures |r.value.0| >= |s| && r.value.0[..|s|] == s
  {
    Ok((s + Utf8.Decode(part), Continue))
  }

  function OnCompleted(s: StringState): Result<string, Throwable> {
    Ok(s)
  }

  function Mapper(): Handler<StringState, string> {
    Handler(OnStatus, OnHeaders, OnPart, OnCompleted)
  }

  /** Reference definition: every part decoded separately, in arrival order. */
  function DecodeEach(parts: seq<Bytes>): (r: string)
    ensures parts == [] ==> r == ""
  {
    if parts == [] then "" else Utf8.Decode(parts[0]) + DecodeEach(parts[1..])
  }

  lemma {:induction false} FeedString(s: StringState, parts: seq<Bytes>)
    ensures Feed(OnPart, s, parts) == Ok(s + DecodeEach(parts))
    decreases |parts|
  {
    if parts != [] {
      assert OnPart(s, parts[0]) == Ok((s + Utf8.Decode(parts[0]), Continue));
      FeedString(s + Utf8.Decode(parts[0]), parts[1..]);
      assert s + Utf8.Decode(parts[0]) + DecodeEach(parts[1..]) == s + DecodeEach(parts);
    } else {
      assert s + DecodeEach(parts) == s;
    }
  }

  /** An exchange yields the parts decoded one by one and joined; no body
      gives the empty string. */
  lemma RunString(resp: Response)
    ensures Run(Mapper(), Init, resp) == Ok(DecodeEach(resp.parts))
  {
    FeedString(Init, resp.parts);
    assert Init + DecodeEach(resp.parts) == DecodeEach(resp.parts);
  }

  /** Strings joined in order. */
  function JoinAll(xs: seq<string>): (r: string) {
    if xs == [] then "" else xs[0] + JoinAll(xs[1..])
  }

  /** When every part ends on a character boundary, decoding part by part
      agrees with decoding the whole body: both give back the text sent. */
  lemma {:induction false} DecodeEachOnBoundaries(texts: seq<string>, parts: seq<Bytes>)
    requires |parts| == |texts|
    requires forall i :: 0 <= i < |parts| ==> parts[i] == Utf8.Encode(texts[i])
    ensures DecodeEach(parts) == JoinAll(texts)
    decreases |parts|
  {
    if parts != [] {
      Utf8Lemmas.DecodeEncode(texts[0]);
      DecodeEachOnBoundaries(texts[1..], parts[1..]);
    }
  }
}

/** `VoidResponseMapper`: reads nothing after a success status; after an error
    status it captures the body as a string and fails at completion. */
module VoidResponseMapper {
  import opened Wrappers
  import opened HttpTypes
  import opened AsyncHandler
  import StringResponseMapper
  import Utf8

  /** `Idle`: no error seen, no string mapper. `Capturing`: the recorded error
      status and the string mapper's contents. */
  datatype VoidState = Idle | Capturing(status: int, body: string)

  /** 3xx, 4xx and 5xx all count as failures. */
  predicate IsErrorResponseCode(status: int) {
    status >= 300
  }

  function OnStatus(s: VoidState, status: int): (r: Step<VoidState>)
    ensures r.Ok?
    ensures r.value.1 == Continue <==> IsErrorResponseCode(status)
    ensures IsErrorResponseCode(status) ==> r.value.0 == Capturing(status, StringResponseMapper.Init)
    ensures !IsErrorResponseCode(status) ==> r.value.0 == s
  {
    if IsErrorResponseCode(status) then Ok((Capturing(status, StringResponseMapper.Init), Continue))
    else Ok((s, Abort))
  }

  function OnHeaders(s: VoidState, headers: Headers): Step<VoidState> {
    Ok((s, Continue))
  }

  /** Delegates to the string mapper; without one (no error status) the call
      dereferences null. */
  function OnPart(s: VoidState, part: Bytes): (r: Step<VoidState>)
    ensures s.Idle? <==> r == Err(NullPointerException)
    ensures s.Capturing? ==>
      && r.Ok? && r.value.1 == Continue && r.value.0.Capturing?
      && r.value.0.status == s.status
      && |r.value.0.body| >= |s.body| && r.value.0.body[..|s.body|] == s.body
  {
    match s
    case Idle => Err(NullPointerException)
    case Capturing(status, body) =>
      var step := StringResponseMapper.OnPart(body, part).value;
      Ok((Capturing(status, step.0), Continue))
  }

  function OnCompleted(s: VoidState): (r: Result<(), Throwable>)
    ensures r.Err? <==> s.Capturing?
    ensures s.Capturing? ==> r.error == InvalidStatusException(s.status, s.body)
  {
    match s
    case Idle => Ok(())
    case Capturing(status, body) => Err(InvalidStatusException(status, StringResponseMapper.OnCompleted(body).value))
  }

  function Mapper(): Handler<VoidState, ()> {
    Handler(OnStatus, OnHeaders, OnPart, OnCompleted)
  }

  lemma {:induction false} FeedCapture(status: int, body: string, parts: seq<Bytes>)
    ensures Feed(OnPart, Capturing(status, body), parts)
      == Ok(Capturing(status, body + StringResponseMapper.DecodeEach(parts)))
    decreases |parts|
  {
    if parts != [] {
      var next := body + Utf8.Decode(parts[0]);
      assert OnPart(Capturing(status, body), parts[0]) == Ok((Capturing(status, next), Continue));
      FeedCapture(status, next, parts[1..]);
      assert next + StringResponseMapper.DecodeEach(parts[1..]) == body + StringResponseMapper.DecodeEach(parts);
    } else {
      assert body + StringResponseMapper.DecodeEach(parts) == body;
    }
  }

  /** A success status ends the exchange at once with no value; an error
      status fails it with that status and the whole body as text. */
  lemma RunVoid(resp: Response)
    ensures Run(Mapper(), Idle, resp) ==
      if IsErrorResponseCode(resp.status)
      then Err(InvalidStatusException(resp.status, StringResponseMapper.DecodeEach(resp.parts)))
      else Ok(())
  {
    FeedCapture(resp.status, "", resp.parts);
    assert "" + StringResponseMapper.DecodeEach(resp.parts) == StringResponseMapper.DecodeEach(resp.parts);
  }
}

/** `RawResponseMapper`: status, headers and the whole body, unmapped. */
module RawResponseMapper {
  import opened Wrappers
  import opened HttpTypes
  import opened AsyncHandler

  /** `FullResponse`: status and headers (null until received) and the body. */
  datatype FullResponse = FullResponse(status: Option<int>, headers: Option<Headers>, body: Bytes)

  datatype RawState = RawState(status: Option<int>, headers: Option<Headers>, body: Bytes)

  const Init := RawState(None, None, [])

  function OnStatus(s: RawState, status: int): Step<RawState> {
    Ok((s.(status := Some(status)), Continue))
  }

  function OnHeaders(s: RawState, headers: Headers): Step<RawState> {
    Ok((s.(headers := Some(headers)), Continue))
  }

  /** All `length()` bytes of the part go to the output stream. */
  function OnPart(s: RawState, part: Bytes): (r: Step<RawState>)
    ensures r.Ok? && r.value.1 == Continue
    ensures r.value.0.body == s.body + part && r.value.0.status == s.status && r.value.0.headers == s.headers
  {
    Ok((s.(body := s.body + part), Continue))
  }

  function OnCompleted(s: RawState): Result<FullResponse, Throwable> {
    Ok(FullResponse(s.status, s.headers, s.body))
  }

  function Mapper(): Handler<RawState, FullResponse> {
    Handler(OnStatus, OnHeaders, OnPart, OnCompleted)
  }

  lemma {:induction false} FeedRaw(s: RawState, parts: seq<Bytes>)
    ensures Feed(OnPart, s, parts) == Ok(s.(body := s.body + Concat(parts)))
    decreases |parts|
  {
    if parts != [] {
      FeedRaw(s.(body := s.body + parts[0]), parts[1..]);
      ConcatFront(parts);
      assert s.body + parts[0] + Concat(parts[1..]) == s.body + Concat(parts);
    } else {
      assert s.body + [] == s.body;
    }
  }

  /** An exchange yields the status, the headers and the parts' bytes in
      order; no body gives an empty array. */
  lemma RunRaw(resp: Response)
    ensures Run(Mapper(), Init, resp) == Ok(FullResponse(Some(resp.status), Some(resp.headers), Concat(resp.parts)))
  {
    FeedRaw(RawState(Some(resp.status), Some(resp.headers), []), resp.parts);
    assert [] + Concat(resp.parts) == Concat(resp.parts);
  }
}

/** `HeaderResponseMapper`: status and headers only; the body is never
    requested. */
module HeaderResponseMapper {
  import opened Wrappers
  import opened HttpTypes
  import opened AsyncHandler

  /** `RawResponse`: status, headers and a body. */
  datatype RawResponse = RawResponse(status: Option<int>, headers: Option<Headers>, body: Bytes)

  datatype HeaderState = HeaderState(status: Option<int>, headers: Option<Headers>)

  const Init := HeaderState(None, None)

  function OnStatus(s: HeaderState, status: int): Step<HeaderState> {
    Ok((s.(status := Some(status)), Continue))
  }

  function OnHeaders(s: HeaderState, headers: Headers): Step<HeaderState> {
    Ok((s.(headers := Some(headers)), Abort))
  }

  function OnPart(s: HeaderState, part: Bytes): Step<HeaderState> {
    Ok((s, Abort))
  }

  function OnCompleted(s: HeaderState): Result<RawResponse, Throwable> {
    Ok(RawResponse(s.status, s.headers, []))
  }

  function Mapper(): Handler<HeaderState, RawResponse> {
    Handler(OnStatus, OnHeaders, OnPart, OnCompleted)
  }

  /** Whatever the body, the exchange yields the status and headers with an
      empty body. */
  lemma RunHeaders(resp: Response)
    ensures Run(Mapper(), Init, resp) == Ok(RawResponse(Some(resp.status), Some(resp.headers), []))
  {
  }

  /** The result does not depend on the body at all. */
  lemma BodyIgnored(resp: Response, parts: seq<Bytes>)
    ensures Run(Mapper(), Init, resp) == Run(Mapper(), Init, resp.(parts := parts))
  {
  }
}

/** `StatusResponseHandler`: the status code, then close the connection. */
module StatusResponseHandler {
  import opened Wrappers
  import opened HttpTypes
  import opened AsyncHandler

  /** The status before any status line arrives. */
  const Init: int := 500

  function OnStatus(s: int, status: int): Step<int> {
    Ok((status, Abort))
  }

  function OnHeaders(s: int, headers: Headers): Step<int> {
    Ok((s, Abort))
  }

  function OnPart(s: int, part: Bytes): Step<int> {
    Ok((s, Abort))
  }

  function OnCompleted(s: int): Result<int, Throwable> {
    Ok(s)
  }

  function Handler(): AsyncHandler.Handler<int, int> {
    AsyncHandler.Handler(OnStatus, OnHeaders, OnPart, OnCompleted)
  }

  /** Every exchange yields its status code, error codes included, and
      nothing after the status line is read. */
  lemma RunStatus(resp: Response)
    ensures Run(Handler(), Init, resp) == Ok(resp.status)
    ensures forall h: Headers, ps: seq<Bytes> :: Run(Handler(), Init, Response(resp.status, h, ps)) == Ok(resp.status)
  {
  }

  /** Completing before any status line gives the default 500. */
  lemma DefaultStatus()
    ensures OnCompleted(Init) == Ok(500)
  {
  }
}

=== FILE: throttler.dfy ===
/** `RequestThrottler`: a tree of throttlers that share one semaphore. Each
    node has its own FIFO backlog; a request runs at once when a permit can be
    taken and otherwise waits in the backlog of the node it was submitted to.
    Every completion gives its permit back and drains the whole tree from the
    root, depth-first, children before the node itself.

    The tree is an arena: node `x` is `shape[x]`, the list of its children's
    indices, and `deques[x]`, its backlog. Node 0 is the root every other node
    points at; a child always has a larger index than its parent. */
module RequestThrottler {
  import opened Wrappers
  import opened HttpTypes

  /** A request and the node whose backlog it was submitted to. */
  datatype Task = Task(id: nat, node: nat)

  /** `permits` is the size of the shared semaphore and `free` its available
      permits; `inFlight` are the requests the transport is running. */
  datatype Throttler<M> = Throttler(
    permits: int,
    free: int,
    shape: seq<seq<nat>>,
    deques: seq<seq<Task>>,
    inFlight: seq<Task>,
    futures: map<nat, Future<M>>,
    nextId: nat)

  /** Every child index lies after its parent and inside the arena. */
  predicate ShapeWf(shape: seq<seq<nat>>) {
    forall x, k :: 0 <= x < |shape| && 0 <= k < |shape[x]| ==> x < shape[x][k] < |shape|
  }

  predicate Wf<M>(t: Throttler<M>) {
    |t.shape| >= 1 && ShapeWf(t.shape) && |t.deques| == |t.shape|
  }

  function Ids(ts: seq<Task>): (r: seq<nat>)
    ensures |r| == |ts|
    ensures forall i :: 0 <= i < |ts| ==> r[i] == ts[i].id
  {
    if ts == [] then [] else [ts[0].id] + Ids(ts[1..])
  }

  /** `new RequestThrottler(handler, maxConcurrency)`: a node with no root is
      its own root, with a fresh semaphore of `maxConcurrency` permits. */
  function New<M>(maxConcurrency: int): (t: Throttler<M>)
    ensures Wf(t) && |t.shape| == 1 && t.shape[0] == [] && t.deques[0] == []
    ensures t.permits == t.free == maxConcurrency && t.inFlight == []
  {
    Throttler(maxConcurrency, maxConcurrency, [[]], [[]], [], map[], 0)
  }

  /** `node.withHandler(h)`: a new node with an empty backlog that shares the
      semaphore, registered among `node`'s children. Returns its index. */
  function WithHandler<M>(t: Throttler<M>, node: nat): (r: (Throttler<M>, nat))
    requires Wf(t) && node < |t.shape|
    ensures Wf(r.0) && r.1 == |t.shape| && |r.0.shape| == |t.shape| + 1
    ensures r.0.shape[r.1] == [] && r.0.deques[r.1] == []
    ensures r.0.shape[node] == t.shape[node] + [r.1]
    ensures forall x :: 0 <= x < |t.shape| && x != node ==> r.0.shape[x] == t.shape[x]
    ensures r.0.deques[..|t.deques|] == t.deques
    ensures r.0.permits == t.permits && r.0.free == t.free && r.0.inFlight == t.inFlight
    ensures r.0.futures == t.futures && r.0.nextId == t.nextId
  {
    var n := |t.shape|;
    (t.(shape := t.shape[node := t.shape[node] + [n]] + [[]], deques := t.deques + [[]]), n)
  }

  /** `node.withMaxConcurrency(n)`: a new root with a fresh semaphore of `n`
      permits; it shares nothing with the tree `node` belongs to. */
  function WithMaxConcurrency<M>(t: Throttler<M>, node: nat, maxConcurrency: int): (r: Throttler<M>)
    requires Wf(t) && node < |t.shape|
    ensures Wf(r) && |r.shape| == 1 && r.deques == [[]]
    ensures r.permits == r.free == maxConcurrency && r.inFlight == [] && r.futures == map[]
  {
    New(maxConcurrency)
  }

  /** `node.execute(request)`: run it now if `tryAcquire` succeeds, otherwise
      append it to this node's own backlog. Either way the caller gets the
      request's future (by its id), unresolved. */
  function Execute<M>(t: Throttler<M>, node: nat): (r: (Throttler<M>, nat))
    requires Wf(t) && node < |t.shape|
    ensures Wf(r.0) && r.0.shape == t.shape && r.0.permits == t.permits
    ensures r.1 == t.nextId && r.0.nextId == t.nextId + 1
    ensures r.0.futures == t.futures[r.1 := Pending]
    ensures t.free > 0 <==> r.0.inFlight == t.inFlight + [Task(r.1, node)]
    ensures t.free > 0 ==> r.0.free == t.free - 1 && r.0.deques == t.deques
    ensures t.free <= 0 <==> r.0.deques == t.deques[node := t.deques[node] + [Task(r.1, node)]]
    ensures t.free <= 0 ==> r.0.free == t.free && r.0.inFlight == t.inFlight
  {
    var task := Task(t.nextId, node);
    var t' := t.(futures := t.futures[task.id := Pending], nextId := t.nextId + 1);
    var queued := t.deques[node := t.deques[node] + [task]];
    assert queued != t.deques by {
      assert |queued[node]| != |t.deques[node]|;
    }
    if t.free > 0 then
      (t'.(free := t.free - 1, inFlight := t.inFlight + [task]), task.id)
    else
      (t'.(deques := queued), task.id)
  }

  /** The body of `checkQueueTree` at node `y`, after its children: take a
      permit if one is free; poll the first queued task and run it, or give
      the permit back when the backlog is empty. */
  function Visit<M>(t: Throttler<M>, y: nat): (r: Throttler<M>)
    requires Wf(t) && y < |t.shape|
    ensures Wf(r) && r.shape == t.shape && r.permits == t.permits
    ensures r.futures == t.futures && r.nextId == t.nextId
    ensures r.free + |r.inFlight| == t.free + |t.inFlight|
    ensures t.free > 0 && t.deques[y] != [] ==>
      r.free == t.free - 1 && r.inFlight == t.inFlight + [t.deques[y][0]]
      && r.deques == t.deques[y := t.deques[y][1..]]
    ensures !(t.free > 0 && t.deques[y] != []) ==> r == t
  {
    if t.free > 0 && t.deques[y] != [] then
      t.(free := t.free - 1, deques := t.deques[y := t.deques[y][1..]],
         inFlight := t.inFlight + [t.deques[y][0]])
    else
      t
  }

  /** `checkQueueTree` at node `x`: every child's subtree first, in order,
      then `x` itself. */
  function DrainNode<M>(t: Throttler<M>, x: nat): (r: Throttler<M>)
    requires Wf(t) && x < |t.shape|
    ensures Wf(r) && r.shape == t.shape && r.permits == t.permits
    ensures r.futures == t.futures && r.nextId == t.nextId
    ensures r.free + |r.inFlight| == t.free + |t.inFlight|
    ensures r.free <= t.free && (t.free >= 0 ==> r.free >= 0)
    decreases |t.shape| - x, |t.shape[x]| + 1
  {
    Visit(DrainChildren(t, x, 0), x)
  }

  /** The children of `x` from position `k` on, each drained in turn. */
  function DrainChildren<M>(t: Throttler<M>, x: nat, k: nat): (r: Throttler<M>)
    requires Wf(t) && x < |t.shape| && k <= |t.shape[x]|
    ensures Wf(r) && r.shape == t.shape && r.permits == t.permits
    ensures r.futures == t.futures && r.nextId == t.nextId
    ensures r.free + |r.inFlight| == t.free + |t.inFlight|
    ensures r.free <= t.free && (t.free >= 0 ==> r.free >= 0)
    decreases |t.shape| - x, |t.shape[x]| - k
  {
    if k == |t.shape[x]| then t
    else DrainChildren(DrainNode(t, t.shape[x][k]), x, k + 1)
  }

  /** Position of the running task with the given id. */
  function IndexOfId(ts: seq<Task>, id: nat): (i: nat)
    requires id in Ids(ts)
    ensures i < |ts| && ts[i].id == id
  {
    if ts[0].id == id then 0 else 1 + IndexOfId(ts[1..], id)
  }

  /** A queued task's future gets the transport's outcome as it is: the model,
      or the transport's own throwable, unwrapped. */
  function Resolution<M>(outcome: Result<M, Throwable>): (f: Future<M>)
    ensures outcome.Ok? ==> f == Completed(outcome.value)
    ensures outcome.Err? ==> f == Failed(outcome.error)
  {
    match outcome
    case Ok(model) => Completed(model)
    case Err(e) => Failed(e)
  }

  /** The completion callback of a running request: release its permit, drain
      the tree from the root, then resolve the request's future. */
  function Complete<M>(t: Throttler<M>, id: nat, outcome: Result<M, Throwable>): (r: Throttler<M>)
    requires Wf(t) && id in Ids(t.inFlight)
    ensures Wf(r) && r.shape == t.shape && r.permits == t.permits
    ensures r.free + |r.inFlight| == t.free + |t.inFlight|
    ensures r.futures == t.futures[id := Resolution(outcome)]
  {
    var i := IndexOfId(t.inFlight, id);
    var released := t.(free := t.free + 1, inFlight := t.inFlight[..i] + t.inFlight[i + 1..]);
    var drained := DrainNode(released, 0);
    drained.(futures := drained.futures[id := Resolution(outcome)])
  }

  /** `awaitAll()` returns once the available permits reach the initial count. */
  predicate AwaitAllDone<M>(t: Throttler<M>) {
    t.free >= t.permits
  }
}

module RequestThrottlerLemmas {
  import opened Wrappers
  import opened HttpTypes
  import opened RequestThrottler

  predicate InArena(order: seq<nat>, n: nat) {
    forall j :: 0 <= j < |order| ==> order[j] < n
  }

  /** Every backlog is empty. */
  predicate AllEmpty(ds: seq<seq<Task>>) {
    forall y :: 0 <= y < |ds| ==> ds[y] == []
  }

  /** Every node but the root has a parent with a smaller index: the shape
      `withHandler` builds. */
  predicate Rooted(shape: seq<seq<nat>>) {
    forall y :: 0 < y < |shape| ==> HasParent(shape, y)
  }

  predicate HasParent(shape: seq<seq<nat>>, y: nat)
    requires y < |shape|
  {
    exists p, k :: 0 <= p < y && 0 <= k < |shape[p]| && shape[p][k] == y
  }

  /** The facts every reachable tree satisfies. */
  ghost predicate Inv<M>(t: Throttler<M>) {
    && Wf(t)
    && Rooted(t.shape)
    // conservation of the shared permits
    && t.free + |t.inFlight| == t.permits
    && (t.permits >= 0 ==> t.free >= 0)
    // no idle permit while any backlog holds work
    && (t.free <= 0 || AllEmpty(t.deques))
    // futures and tasks only carry ids already issued
    && (forall id :: id in t.futures ==> id < t.nextId)
    && TasksBelow(t, t.nextId)
    // a future is pending exactly while its one task is held
    && PendingIffHeld(t)
  }

  /** How many of the tasks carry the id. */
  function Count(ts: seq<Task>, id: nat): (n: nat)
    ensures n <= |ts|
  {
    if ts == [] then 0 else (if ts[0].id == id then 1 else 0) + Count(ts[1..], id)
  }

  /** How many tasks waiting in the backlogs carry the id. */
  function QueuedCount(ds: seq<seq<Task>>, id: nat): nat {
    if ds == [] then 0 else Count(ds[0], id) + QueuedCount(ds[1..], id)
  }

  /** How many tasks the tree holds with the id, running or waiting. */
  function HeldCount<M>(t: Throttler<M>, id: nat): nat {
    Count(t.inFlight, id) + QueuedCount(t.deques, id)
  }

  /** Each pending future has exactly one task, running or waiting, and a
      resolved or unknown id has none: no task runs twice and no future is
      resolved while its task is still held. */
  ghost predicate PendingIffHeld<M>(t: Throttler<M>) {
    forall id :: HeldCount(t, id) == if id in t.futures && t.futures[id].Pending? then 1 else 0
  }

  lemma {:induction false} CountConcat(a: seq<Task>, b: seq<Task>, id: nat)
    ensures Count(a + b, id) == Count(a, id) + Count(b, id)
    decreases |a|
  {
    if a == [] {
      assert a + b == b;
    } else {
      assert (a + b)[0] == a[0] && (a + b)[1..] == a[1..] + b;
      CountConcat(a[1..], b, id);
    }
  }

  /** A task with the id is among the tasks exactly when the count is
      positive. */
  lemma {:induction false} CountPositive(ts: seq<Task>, id: nat)
    ensures Count(ts, id) > 0 <==> id in Ids(ts)
    decreases |ts|
  {
    if ts != [] {
      CountPositive(ts[1..], id);
      assert Ids(ts) == [ts[0].id] + Ids(ts[1..]);
    }
  }

  /** Replacing one backlog changes the queued count by exactly that
      backlog's difference. */
  lemma {:induction false} QueuedUpdate(ds: seq<seq<Task>>, y: nat, d: seq<Task>, id: nat)
    requires y < |ds|
    ensures QueuedCount(ds[y := d], id) + Count(ds[y], id) == QueuedCount(ds, id) + Count(d, id)
    decreases |ds|
  {
    var us := ds[y := d];
    if y == 0 {
      assert us[1..] == ds[1..];
    } else {
      assert us[0] == ds[0] && us[1..] == ds[1..][y - 1 := d];
      assert ds[1..][y - 1] == ds[y];
      QueuedUpdate(ds[1..], y - 1, d, id);
    }
  }

  lemma {:induction false} QueuedAppendEmpty(ds: seq<seq<Task>>, id: nat)
    ensures QueuedCount(ds + [[]], id) == QueuedCount(ds, id)
    decreases |ds|
  {
    if ds != [] {
      assert (ds + [[]])[0] == ds[0] && (ds + [[]])[1..] == ds[1..] + [[]];
      QueuedAppendEmpty(ds[1..], id);
    } else {
      assert QueuedCount([[]], id) == Count([], id) + QueuedCount([], id);
    }
  }

  /** A backlog's tasks are among the queued ones. */
  lemma {:induction false} QueuedHas(ds: seq<seq<Task>>, y: nat, id: nat)
    requires y < |ds|
    ensures Count(ds[y], id) <= QueuedCount(ds, id)
    decreases |ds|
  {
    if y > 0 {
      assert ds[1..][y - 1] == ds[y];
      QueuedHas(ds[1..], y - 1, id);
    }
  }

  /** A visit moves a task from a backlog to the running list; the tree
      holds the same tasks. */
  lemma VisitHeld<M>(t: Throttler<M>, y: nat)
    requires Wf(t) && y < |t.shape|
    ensures forall id :: HeldCount(Visit(t, y), id) == HeldCount(t, id)
  {
    var r := Visit(t, y);
    if r != t {
      var d := t.deques[y];
      forall id
        ensures HeldCount(r, id) == HeldCount(t, id)
      {
        CountConcat(t.inFlight, [d[0]], id);
        assert Count([d[0]], id) == (if d[0].id == id then 1 else 0) + Count([], id);
        QueuedUpdate(t.deques, y, d[1..], id);
      }
    }
  }

  lemma {:induction false} DrainListHeld<M>(t: Throttler<M>, order: seq<nat>)
    requires Wf(t) && InArena(order, |t.shape|)
    ensures forall id :: HeldCount(DrainList(t, order), id) == HeldCount(t, id)
    decreases |order|
  {
    if order != [] {
      VisitHeld(t, order[0]);
      DrainListHeld(Visit(t, order[0]), order[1..]);
    }
  }

  predicate TasksBelow<M>(t: Throttler<M>, n: nat) {
    && (forall i :: 0 <= i < |t.inFlight| ==> t.inFlight[i].id < n)
    && (forall y, j :: 0 <= y < |t.deques| && 0 <= j < |t.deques[y]| ==> t.deques[y][j].id < n)
  }

  lemma {:induction false} DrainListTasksBelow<M>(t: Throttler<M>, order: seq<nat>, n: nat)
    requires Wf(t) && InArena(order, |t.shape|) && TasksBelow(t, n)
    ensures TasksBelow(DrainList(t, order), n)
    decreases |order|
  {
    if order != [] {
      var t1 := Visit(t, order[0]);
      assert TasksBelow(t1, n) by {
        if t1 != t {
          var y := order[0];
          forall z, j | 0 <= z < |t1.deques| && 0 <= j < |t1.deques[z]|
            ensures t1.deques[z][j].id < n
          {
            if z == y {
              assert t1.deques[z][j] == t.deques[y][j + 1];
            } else {
              assert t1.deques[z] == t.deques[z];
            }
          }
        }
      }
      DrainListTasksBelow(t1, order[1..], n);
    }
  }

  /** The order in which `checkQueueTree` at `x` visits nodes. */
  function DfsOrder(shape: seq<seq<nat>>, x: nat): (r: seq<nat>)
    requires ShapeWf(shape) && x < |shape|
    ensures InArena(r, |shape|) && r != []
    decreases |shape| - x, |shape[x]| + 1
  {
    DfsChildren(shape, x, 0) + [x]
  }

  function DfsChildren(shape: seq<seq<nat>>, x: nat, k: nat): (r: seq<nat>)
    requires ShapeWf(shape) && x < |shape| && k <= |shape[x]|
    ensures InArena(r, |shape|)
    decreases |shape| - x, |shape[x]| - k
  {
    if k == |shape[x]| then [] else DfsOrder(shape, shape[x][k]) + DfsChildren(shape, x, k + 1)
  }

  /** Reference definition of a drain: one `Visit` per node of `order`, in
      order. */
  function DrainList<M>(t: Throttler<M>, order: seq<nat>): (r: Throttler<M>)
    requires Wf(t) && InArena(order, |t.shape|)
    ensures Wf(r) && r.shape == t.shape && r.permits == t.permits
    ensures r.futures == t.futures && r.nextId == t.nextId
    ensures r.free + |r.inFlight| == t.free + |t.inFlight|
    ensures r.free <= t.free && (t.free >= 0 ==> r.free >= 0)
    ensures r.free == t.free ==> r == t
    decreases |order|
  {
    if order == [] then t else DrainList(Visit(t, order[0]), order[1..])
  }

  /** `y` is `x` or lies in the subtree of one of `x`'s children. */
  predicate Reaches(shape: seq<seq<nat>>, x: nat, y: nat)
    requires ShapeWf(shape) && x < |shape|
    decreases |shape| - x, |shape[x]| + 1
  {
    y == x || ReachesVia(shape, x, 0, y)
  }

  predicate ReachesVia(shape: seq<seq<nat>>, x: nat, k: nat, y: nat)
    requires ShapeWf(shape) && x < |shape| && k <= |shape[x]|
    decreases |shape| - x, |shape[x]| - k
  {
    k < |shape[x]| && (Reaches(shape, shape[x][k], y) || ReachesVia(shape, x, k + 1, y))
  }

  lemma {:induction false} DrainListAppend<M>(t: Throttler<M>, a: seq<nat>, b: seq<nat>)
    requires Wf(t) && InArena(a, |t.shape|) && InArena(b, |t.shape|)
    ensures InArena(a + b, |t.shape|)
    ensures DrainList(t, a + b) == DrainList(DrainList(t, a), b)
    decreases |a|
  {
    if a != [] {
      assert (a + b)[1..] == a[1..] + b;
      DrainListAppend(Visit(t, a[0]), a[1..], b);
    } else {
      assert a + b == b;
    }
  }

  /** The recursive drain visits exactly the nodes of `DfsOrder`, in that
      order: every child's subtree, depth-first, before the node itself. */
  lemma {:induction false} DrainNodeIsDfs<M>(t: Throttler<M>, x: nat)
    requires Wf(t) && x < |t.shape|
    ensures DrainNode(t, x) == DrainList(t, DfsOrder(t.shape, x))
    decreases |t.shape| - x, |t.shape[x]| + 1
  {
    DrainChildrenIsDfs(t, x, 0);
    DrainListAppend(t, DfsChildren(t.shape, x, 0), [x]);
    var c := DrainChildren(t, x, 0);
    assert DrainList(c, [x]) == DrainList(Visit(c, x), []);
  }

  lemma {:induction false} DrainChildrenIsDfs<M>(t: Throttler<M>, x: nat, k: nat)
    requires Wf(t) && x < |t.shape| && k <= |t.shape[x]|
    ensures DrainChildren(t, x, k) == DrainList(t, DfsChildren(t.shape, x, k))
    decreases |t.shape| - x, |t.shape[x]| - k
  {
    if k < |t.shape[x]| {
      var c := t.shape[x][k];
      DrainNodeIsDfs(t, c);
      DrainChildrenIsDfs(DrainNode(t, c), x, k + 1);
      DrainListAppend(t, DfsOrder(t.shape, c), DfsChildren(t.shape, x, k + 1));
    }
  }

  /** A node occurs in the drain order of `x` exactly when it lies in `x`'s
      subtree. */
  lemma {:induction false} DfsOrderReaches(shape: seq<seq<nat>>, x: nat, y: nat)
    requires ShapeWf(shape) && x < |shape|
    ensures y in DfsOrder(shape, x) <==> Reaches(shape, x, y)
    decreases |shape| - x, |shape[x]| + 1
  {
    DfsChildrenReaches(shape, x, 0, y);
  }

  lemma {:induction false} DfsChildrenReaches(shape: seq<seq<nat>>, x: nat, k: nat, y: nat)
    requires ShapeWf(shape) && x < |shape| && k <= |shape[x]|
    ensures y in DfsChildren(shape, x, k) <==> ReachesVia(shape, x, k, y)
    decreases |shape| - x, |shape[x]| - k
  {
    if k < |shape[x]| {
      DfsOrderReaches(shape, shape[x][k], y);
      DfsChildrenReaches(shape, x, k + 1, y);
    }
  }

  /** A witness child for `ReachesVia`. */
  lemma {:induction false} ViaIndex(shape: seq<seq<nat>>, x: nat, j: nat, y: nat) returns (k: nat)
    requires ShapeWf(shape) && x < |shape| && j <= |shape[x]|
    requires ReachesVia(shape, x, j, y)
    ensures j <= k < |shape[x]| && Reaches(shape, shape[x][k], y)
    decreases |shape[x]| - j
  {
    if Reaches(shape, shape[x][j], y) {
      k := j;
    } else {
      k := ViaIndex(shape, x, j + 1, y);
    }
  }

  lemma {:induction false} ViaWitness(shape: seq<seq<nat>>, x: nat, j: nat, k: nat, y: nat)
    requires ShapeWf(shape) && x < |shape| && j <= k < |shape[x]|
    requires Reaches(shape, shape[x][k], y)
    ensures ReachesVia(shape, x, j, y)
    decreases k - j
  {
    if j < k {
      ViaWitness(shape, x, j + 1, k, y);
    }
  }

  /** A child of a node in `x`'s subtree is in it too. */
  lemma {:induction false} ReachesChild(shape: seq<seq<nat>>, x: nat, p: nat, k: nat)
    requires ShapeWf(shape) && x < |shape| && p < |shape| && k < |shape[p]|
    requires Reaches(shape, x, p)
    ensures Reaches(shape, x, shape[p][k])
    decreases |shape| - x
  {
    var c := shape[p][k];
    if p == x {
      assert Reaches(shape, c, c);
      ViaWitness(shape, x, 0, k, c);
    } else {
      var j := ViaIndex(shape, x, 0, p);
      ReachesChild(shape, shape[x][j], p, k);
      ViaWitness(shape, x, 0, j, c);
    }
  }

  /** In a tree built by `withHandler`, the root reaches every node. */
  lemma {:induction false} RootReaches(shape: seq<seq<nat>>, y: nat)
    requires ShapeWf(shape) && Rooted(shape) && y < |shape|
    ensures Reaches(shape, 0, y)
    decreases y
  {
    if y > 0 {
      assert HasParent(shape, y);
      var p, k :| 0 <= p < y && 0 <= k < |shape[p]| && shape[p][k] == y;
      RootReaches(shape, p);
      ReachesChild(shape, 0, p, k);
    }
  }

  /** Every drain from the root visits every node of the tree. */
  lemma EveryNodeVisited<M>(t: Throttler<M>)
    requires Inv(t)
    ensures forall y :: 0 <= y < |t.shape| ==> y in DfsOrder(t.shape, 0)
  {
    forall y | 0 <= y < |t.shape|
      ensures y in DfsOrder(t.shape, 0)
    {
      RootReaches(t.shape, y);
      DfsOrderReaches(t.shape, 0, y);
    }
  }

  /** A drain over an order that includes every node with queued work, started
      with at most one spare permit (or nothing queued anywhere), leaves no
      permit idle while work waits. */
  lemma {:induction false} DrainListWorkConserving<M>(t: Throttler<M>, order: seq<nat>)
    requires Wf(t) && InArena(order, |t.shape|)
    requires t.free <= 1 || AllEmpty(t.deques)
    requires forall y :: 0 <= y < |t.deques| && t.deques[y] != [] ==> y in order
    ensures DrainList(t, order).free <= 0 || AllEmpty(DrainList(t, order).deques)
    decreases |order|
  {
    if order != [] {
      var y := order[0];
      var t1 := Visit(t, y);
      if t.free > 0 && t.deques[y] == [] {
        forall z | 0 <= z < |t.deques| && t.deques[z] != []
          ensures z in order[1..]
        {
          assert z in order && z != y;
        }
        DrainListWorkConserving(t, order[1..]);
      }
    }
  }

  /** On a tree with no queued work, a drain changes nothing. */
  lemma {:induction false} DrainListIdle<M>(t: Throttler<M>, order: seq<nat>)
    requires Wf(t) && InArena(order, |t.shape|) && AllEmpty(t.deques)
    ensures DrainList(t, order) == t
    decreases |order|
  {
    if order != [] {
      DrainListIdle(t, order[1..]);
    }
  }

  /** A drain only ever takes tasks from the front of a backlog and appends
      them to the running tasks: each backlog keeps a suffix of itself. */
  lemma {:induction false} DrainListFifo<M>(t: Throttler<M>, order: seq<nat>)
    requires Wf(t) && InArena(order, |t.shape|)
    ensures |DrainList(t, order).inFlight| >= |t.inFlight|
    ensures DrainList(t, order).inFlight[..|t.inFlight|] == t.inFlight
    ensures forall y :: 0 <= y < |t.deques| ==> IsSuffix(DrainList(t, order).deques[y], t.deques[y])
    decreases |order|
  {
    if order != [] {
      var t1 := Visit(t, order[0]);
      DrainListFifo(t1, order[1..]);
      var r := DrainList(t, order);
      assert r.inFlight[..|t1.inFlight|][..|t.inFlight|] == t.inFlight;
      forall y | 0 <= y < |t.deques|
        ensures IsSuffix(r.deques[y], t.deques[y])
      {
        SuffixTrans(r.deques[y], t1.deques[y], t.deques[y]);
      }
    }
  }

  predicate IsSuffix(a: seq<Task>, b: seq<Task>) {
    |a| <= |b| && a == b[|b| - |a|..]
  }

  lemma SuffixTrans(a: seq<Task>, b: seq<Task>, c: seq<Task>)
    requires IsSuffix(a, b) && (b == c || (c != [] && b == c[1..]))
    ensures IsSuffix(a, c)
  {
  }

  lemma NewInv<M>(maxConcurrency: int)
    ensures Inv(New<M>(maxConcurrency))
  {
    forall id
      ensures HeldCount(New<M>(maxConcurrency), id) == 0
    {
      assert QueuedCount([[]], id) == Count([], id) + QueuedCount([], id);
    }
  }

  /** Adding a handler node keeps the invariant: the new node hangs off an
      existing one, so the root still reaches every node. */
  lemma WithHandlerInv<M>(t: Throttler<M>, node: nat)
    requires Inv(t) && node < |t.shape|
    ensures Inv(WithHandler(t, node).0)
  {
    var (r, n) := WithHandler(t, node);
    forall y | 0 < y < |r.shape|
      ensures HasParent(r.shape, y)
    {
      if y == n {
        assert r.shape[node][|t.shape[node]|] == y;
      } else {
        assert HasParent(t.shape, y);
        var p, k :| 0 <= p < y && 0 <= k < |t.shape[p]| && t.shape[p][k] == y;
        assert r.shape[p][k] == y;
      }
    }
    forall id
      ensures HeldCount(r, id) == HeldCount(t, id)
    {
      QueuedAppendEmpty(t.deques, id);
    }
    assert AllEmpty(t.deques) ==> AllEmpty(r.deques) by {
      if AllEmpty(t.deques) {
        forall y | 0 <= y < |r.deques|
          ensures r.deques[y] == []
        {
          if y < |t.deques| {
            assert r.deques[y] == r.deques[..|t.deques|][y];
          }
        }
      }
    }
  }

  /** Submitting keeps the invariant. */
  lemma ExecuteInv<M>(t: Throttler<M>, node: nat)
    requires Inv(t) && node < |t.shape|
    ensures Inv(Execute(t, node).0)
  {
    var r := Execute(t, node).0;
    var task := Task(t.nextId, node);
    assert t.nextId !in t.futures;
    forall id
      ensures HeldCount(r, id) == HeldCount(t, id) + if id == t.nextId then 1 else 0
    {
      assert Count([task], id) == (if id == t.nextId then 1 else 0) + Count([], id);
      if t.free > 0 {
        CountConcat(t.inFlight, [task], id);
      } else {
        var d := t.deques[node];
        QueuedUpdate(t.deques, node, d + [task], id);
        CountConcat(d, [task], id);
      }
    }
    if t.free <= 0 {
      forall y, j | 0 <= y < |r.deques| && 0 <= j < |r.deques[y]|
        ensures r.deques[y][j].id < r.nextId
      {
        if y == node && j == |t.deques[node]| {
          assert r.deques[y][j] == Task(t.nextId, node);
        } else {
          assert r.deques[y][j] == t.deques[y][j];
        }
      }
    }
  }

  /** A completion keeps the invariant: its drain visits every node, and it
      starts with at most one spare permit unless nothing is queued. */
  lemma CompleteInv<M>(t: Throttler<M>, id: nat, outcome: Result<M, Throwable>)
    requires Inv(t) && id in Ids(t.inFlight)
    ensures Inv(Complete(t, id, outcome))
  {
    var released := Released(t, id);
    ReleasedDrain(t, id, outcome);
    DrainListWorkConserving(released, DfsOrder(t.shape, 0));
    ReleasedTasksBelow(t, id);
    DrainListTasksBelow(released, DfsOrder(t.shape, 0), t.nextId);
    assert id == t.inFlight[IndexOfId(t.inFlight, id)].id;
    ReleasedHeld(t, id);
    DrainListHeld(released, DfsOrder(t.shape, 0));
    CountPositive(t.inFlight, id);
  }

  /** Releasing takes exactly the completed task out of the tree. */
  lemma ReleasedHeld<M>(t: Throttler<M>, id: nat)
    requires Wf(t) && id in Ids(t.inFlight)
    ensures forall x :: HeldCount(Released(t, id), x) + (if x == id then 1 else 0) == HeldCount(t, x)
  {
    var i := IndexOfId(t.inFlight, id);
    var f := t.inFlight;
    assert f == f[..i] + ([f[i]] + f[i + 1..]);
    forall x
      ensures HeldCount(Released(t, id), x) + (if x == id then 1 else 0) == HeldCount(t, x)
    {
      CountConcat(f[..i], [f[i]] + f[i + 1..], x);
      CountConcat([f[i]], f[i + 1..], x);
      CountConcat(f[..i], f[i + 1..], x);
      assert Count([f[i]], x) == (if x == id then 1 else 0) + Count([], x);
    }
  }

  /** Releasing a permit leaves only ids already issued. */
  lemma ReleasedTasksBelow<M>(t: Throttler<M>, id: nat)
    requires Wf(t) && id in Ids(t.inFlight) && TasksBelow(t, t.nextId)
    ensures TasksBelow(Released(t, id), t.nextId)
  {
    var released := Released(t, id);
    var i := IndexOfId(t.inFlight, id);
    forall j | 0 <= j < |released.inFlight|
      ensures released.inFlight[j].id < t.nextId
    {
      assert released.inFlight[j] == t.inFlight[if j < i then j else j + 1];
    }
  }

  /** The state between the permit's release and the drain. */
  function Released<M>(t: Throttler<M>, id: nat): (r: Throttler<M>)
    requires Wf(t) && id in Ids(t.inFlight)
    ensures Wf(r) && r.shape == t.shape && r.deques == t.deques
  {
    var i := IndexOfId(t.inFlight, id);
    t.(free := t.free + 1, inFlight := t.inFlight[..i] + t.inFlight[i + 1..])
  }

  lemma ReleasedDrain<M>(t: Throttler<M>, id: nat, outcome: Result<M, Throwable>)
    requires Inv(t) && id in Ids(t.inFlight)
    ensures Released(t, id).free == t.free + 1
    ensures |Released(t, id).inFlight| == |t.inFlight| - 1
    ensures forall y :: 0 <= y < |t.deques| && t.deques[y] != [] ==> y in DfsOrder(t.shape, 0)
    ensures Complete(t, id, outcome)
      == DrainList(Released(t, id), DfsOrder(t.shape, 0)).(futures := t.futures[id := Resolution(outcome)])
  {
    EveryNodeVisited(t);
    DrainNodeIsDfs(Released(t, id), 0);
  }

  /** A completion while work waits starts exactly one waiting task: the
      released permit is taken again at once. */
  lemma CompleteWithWaiting<M>(t: Throttler<M>, id: nat, outcome: Result<M, Throwable>)
    requires Inv(t) && id in Ids(t.inFlight) && t.permits >= 0 && !AllEmpty(t.deques)
    ensures Complete(t, id, outcome).free == t.free == 0
    ensures |Complete(t, id, outcome).inFlight| == |t.inFlight|
  {
    var released := Released(t, id);
    ReleasedDrain(t, id, outcome);
    DrainListWorkConserving(released, DfsOrder(t.shape, 0));
  }

  /** A completion with nothing queued just gives its permit back. */
  lemma CompleteIdle<M>(t: Throttler<M>, id: nat, outcome: Result<M, Throwable>)
    requires Inv(t) && id in Ids(t.inFlight) && AllEmpty(t.deques)
    ensures Complete(t, id, outcome).free == t.free + 1
    ensures |Complete(t, id, outcome).inFlight| == |t.inFlight| - 1
    ensures Complete(t, id, outcome).deques == t.deques
  {
    ReleasedDrain(t, id, outcome);
    DrainListIdle(Released(t, id), DfsOrder(t.shape, 0));
  }

  /** A completion resolves a future that was pending until then, and the
      task leaves the tree for good: it runs nowhere and waits nowhere, so
      it cannot complete a second time. */
  lemma CompleteResolvesOnce<M>(t: Throttler<M>, id: nat, outcome: Result<M, Throwable>)
    requires Inv(t) && id in Ids(t.inFlight)
    ensures id in t.futures && t.futures[id].Pending?
    ensures var r := Complete(t, id, outcome);
      && !r.futures[id].Pending?
      && id !in Ids(r.inFlight)
      && (forall y :: 0 <= y < |r.deques| ==> id !in Ids(r.deques[y]))
  {
    CountPositive(t.inFlight, id);
    CompleteInv(t, id, outcome);
    var r := Complete(t, id, outcome);
    assert HeldCount(r, id) == 0;
    CountPositive(r.inFlight, id);
    forall y | 0 <= y < |r.deques|
      ensures id !in Ids(r.deques[y])
    {
      QueuedHas(r.deques, y, id);
      CountPositive(r.deques[y], id);
    }
  }

  /** Resolved futures never change: neither a submission nor the completion
      of another request touches them. */
  lemma ResolvedStays<M>(t: Throttler<M>, id: nat, node: nat, other: nat, outcome: Result<M, Throwable>)
    requires Inv(t) && id in t.futures && !t.futures[id].Pending? && node < |t.shape|
    ensures id in Execute(t, node).0.futures && Execute(t, node).0.futures[id] == t.futures[id]
    ensures other in Ids(t.inFlight) ==>
      id in Complete(t, other, outcome).futures && Complete(t, other, outcome).futures[id] == t.futures[id]
  {
    if other in Ids(t.inFlight) {
      CountPositive(t.inFlight, other);
      assert HeldCount(t, other) >= 1;
    }
  }

  /** `awaitAll` can return exactly when nothing is running. */
  lemma AwaitAllIff<M>(t: Throttler<M>)
    requires Inv(t)
    ensures AwaitAllDone(t) <==> t.inFlight == []
  {
  }
}

=== FILE: utf8.dfy ===
/** UTF-8 as the Java runtime applies it when a byte array becomes a String
    (`new String(bytes, "UTF-8")`) and when a String becomes bytes. Decoding
    never fails: every maximal subpart of an ill-formed sequence becomes one
    U+FFFD, following "U+FFFD Substitution of Maximal Subparts" in section 3.9
    of the Unicode Standard, with the JDK's one exception: after the lead
    byte ED it reads any continuation byte, so an encoded surrogate
    (ED A0..BF and one more continuation byte) is taken as one three-byte
    sequence and becomes a single U+FFFD. */
module Utf8 {
  import opened HttpTypes

  const Replacement: char := '�'

  /** The UTF-8 encoding of one scalar value. */
  function EncodeChar(c: char): (bs: Bytes)
    ensures 1 <= |bs| <= 4
    ensures |bs| == SequenceLength(bs[0])
    ensures (c as int < 0x80) <==> |bs| == 1
  {
    var n := c as int;
    if n < 0x80 then [n as Byte]
    else if n < 0x800 then [(0xC0 + n / 64) as Byte, (0x80 + n % 64) as Byte]
    else if n < 0x10000 then
      [(0xE0 + n / 4096) as Byte, (0x80 + (n / 64) % 64) as Byte, (0x80 + n % 64) as Byte]
    else
      [(0xF0 + n / 262144) as Byte, (0x80 + (n / 4096) % 64) as Byte,
       (0x80 + (n / 64) % 64) as Byte, (0x80 + n % 64) as Byte]
  }

  /** The UTF-8 encoding of a string: the encodings of its characters, in order. */
  function Encode(s: string): (bs: Bytes)
    ensures |bs| >= |s|
    ensures s == [] <==> bs == []
  {
    if s == [] then [] else EncodeChar(s[0]) + Encode(s[1..])
  }

  /** Length of the well-formed sequence a lead byte announces; 0 when the byte
      cannot start one (a continuation byte, C0, C1 or F5..FF). */
  function SequenceLength(b: Byte): nat {
    if b < 0x80 then 1
    else if 0xC2 <= b <= 0xDF then 2
    else if 0xE0 <= b <= 0xEF then 3
    else if 0xF0 <= b <= 0xF4 then 4
    else 0
  }

  /** The range the second byte must fall in after lead byte `b` (Table 3-7 of
      the Unicode Standard, except that the JDK lets ED take A0..BF too). */
  function SecondLow(b: Byte): Byte {
    if b == 0xE0 then 0xA0 else if b == 0xF0 then 0x90 else 0x80
  }

  function SecondHigh(b: Byte): Byte {
    if b == 0xF4 then 0x8F else 0xBF
  }

  predicate IsContinuation(b: Byte) {
    0x80 <= b <= 0xBF
  }

  /** How many bytes the decoder consumes at the front of `bs`: the whole
      sequence when it is well formed, otherwise its maximal subpart (at least
      the lead byte). */
  function Consumed(bs: Bytes): (k: nat)
    requires |bs| > 0
    ensures 1 <= k <= |bs|
    ensures k <= 4
  {
    var b := bs[0];
    var n := SequenceLength(b);
    if n <= 1 then 1
    else if |bs| < 2 || !(SecondLow(b) <= bs[1] <= SecondHigh(b)) then 1
    else if n == 2 then 2
    else if |bs| < 3 || !IsContinuation(bs[2]) then 2
    else if n == 3 then 3
    else if |bs| < 4 || !IsContinuation(bs[3]) then 3
    else 4
  }

  /** True when the front of `bs` is a complete well-formed sequence. */
  predicate WellFormedFront(bs: Bytes)
    requires |bs| > 0
  {
    Consumed(bs) == SequenceLength(bs[0])
  }

  /** The scalar value a complete sequence at the front of `bs` stands for;
      U+FFFD for an encoded surrogate, which has none. */
  function ScalarAt(bs: Bytes): (c: char)
    requires |bs| > 0 && WellFormedFront(bs)
  {
    var n := SequenceLength(bs[0]);
    var b0 := bs[0] as int;
    if n == 1 then b0 as char
    else if n == 2 then ((b0 - 0xC0) * 64 + (bs[1] as int - 0x80)) as char
    else if n == 3 then
      ThreeByteScalar(b0, bs[1] as int, bs[2] as int)
    else
      FourByteScalar(b0, bs[1] as int, bs[2] as int, bs[3] as int)
  }

  function ThreeByteScalar(b0: int, b1: int, b2: int): (c: char)
    requires 0xE0 <= b0 <= 0xEF && 0x80 <= b1 <= 0xBF && 0x80 <= b2 <= 0xBF
    requires b0 == 0xE0 ==> b1 >= 0xA0
    ensures b0 == 0xED && b1 >= 0xA0 ==> c == Replacement
    ensures !(b0 == 0xED && b1 >= 0xA0) ==> c as int == (b0 - 0xE0) * 4096 + (b1 - 0x80) * 64 + (b2 - 0x80)
  {
    var v := (b0 - 0xE0) * 4096 + (b1 - 0x80) * 64 + (b2 - 0x80);
    assert b0 <= 0xEC ==> v < 0xD000;
    assert b0 >= 0xEE ==> v >= 0xE000;
    if 0xD800 <= v <= 0xDFFF then Replacement else v as char
  }

  function FourByteScalar(b0: int, b1: int, b2: int, b3: int): char
    requires 0xF0 <= b0 <= 0xF4 && 0x80 <= b1 <= 0xBF && 0x80 <= b2 <= 0xBF && 0x80 <= b3 <= 0xBF
    requires b0 == 0xF0 ==> b1 >= 0x90
    requires b0 == 0xF4 ==> b1 <= 0x8F
  {
    var v := (b0 - 0xF0) * 262144 + (b1 - 0x80) * 4096 + (b2 - 0x80) * 64 + (b3 - 0x80);
    assert v >= 0x10000;
    v as char
  }

  /** Java's `new String(bytes, "UTF-8")`. */
  function Decode(bs: Bytes): (s: string)
    ensures |s| <= |bs|
    ensures bs == [] <==> s == []
    decreases |bs|
  {
    if bs == [] then []
    else
      var k := Consumed(bs);
      var c := if WellFormedFront(bs) then ScalarAt(bs) else Replacement;
      [c] + Decode(bs[k..])
  }
}

module Utf8Lemmas {
  import opened HttpTypes
  import opened Utf8

  /** The decoder consumes exactly the encoding of `c` and yields `c` back. */
  lemma DecodeEncodeCharFront(c: char, rest: Bytes)
    ensures var bs := EncodeChar(c) + rest;
      Consumed(bs) == |EncodeChar(c)| && WellFormedFront(bs) && ScalarAt(bs) == c
  {
    var e := EncodeChar(c);
    var bs := e + rest;
    var n := c as int;
    assert bs[0] == e[0];
    if n < 0x80 {
    } else if n < 0x800 {
      assert bs[1] == e[1];
      assert n == (n / 64) * 64 + n % 64;
    } else if n < 0x10000 {
      assert bs[1] == e[1] && bs[2] == e[2];
      var q := n / 64;
      assert n == q * 64 + n % 64;
      assert q == (q / 64) * 64 + q % 64;
      assert q / 64 == n / 4096;
      assert ThreeByteScalar(bs[0] as int, bs[1] as int, bs[2] as int) == c;
    } else {
      assert bs[1] == e[1] && bs[2] == e[2] && bs[3] == e[3];
      var q := n / 64;
      var r := q / 64;
      assert n == q * 64 + n % 64;
      assert q == r * 64 + q % 64;
      assert r == (r / 64) * 64 + r % 64;
      assert q == n / 64 && r == n / 4096 && r / 64 == n / 262144;
      assert FourByteScalar(bs[0] as int, bs[1] as int, bs[2] as int, bs[3] as int) == c;
    }
  }

  lemma {:induction false} DecodeEncodeChar(c: char, rest: Bytes)
    ensures Decode(EncodeChar(c) + rest) == [c] + Decode(rest)
  {
    var bs := EncodeChar(c) + rest;
    DecodeEncodeCharFront(c, rest);
    assert bs[|EncodeChar(c)|..] == rest;
  }

  /** Encoding distributes over concatenation. */
  lemma {:induction false} EncodeAppend(a: string, b: string)
    ensures Encode(a + b) == Encode(a) + Encode(b)
    decreases |a|
  {
    if a == [] {
      assert a + b == b;
    } else {
      assert (a + b)[0] == a[0];
      assert (a + b)[1..] == a[1..] + b;
      EncodeAppend(a[1..], b);
    }
  }

  /** Decoding the encoding of `s` followed by any bytes yields `s` followed by
      the decoding of those bytes: well-formed text is never merged with what
      comes after it. */
  lemma {:induction false} DecodeEncodePrefix(s: string, rest: Bytes)
    ensures Decode(Encode(s) + rest) == s + Decode(rest)
    decreases |s|
  {
    if s == [] {
      assert Encode(s) + rest == rest;
    } else {
      calc {
        Decode(Encode(s) + rest);
        { assert Encode(s) + rest == EncodeChar(s[0]) + (Encode(s[1..]) + rest); }
        Decode(EncodeChar(s[0]) + (Encode(s[1..]) + rest));
        { DecodeEncodeChar(s[0], Encode(s[1..]) + rest); }
        [s[0]] + Decode(Encode(s[1..]) + rest);
        { DecodeEncodePrefix(s[1..], rest); }
        [s[0]] + (s[1..] + Decode(rest));
        { assert [s[0]] + s[1..] == s; }
        s + Decode(rest);
      }
    }
  }

  /** Round trip: decoding an encoded string gives the string back. */
  lemma DecodeEncode(s: string)
    ensures Decode(Encode(s)) == s
  {
    DecodeEncodePrefix(s, []);
    assert Encode(s) + [] == Encode(s);
  }

  /** Decoding is compositional on character boundaries: two well-formed chunks
      decode separately to what they decode to together. */
  lemma DecodeSplitOnBoundary(a: string, b: string)
    ensures Decode(Encode(a) + Encode(b)) == Decode(Encode(a)) + Decode(Encode(b))
  {
    DecodeEncodePrefix(a, Encode(b));
    DecodeEncode(a);
  }

  /** An encoded surrogate is one malformed three-byte sequence: it becomes a
      single U+FFFD, cut short it still is one, and a following non-continuation
      byte is decoded on its own. */
  lemma EncodedSurrogateIsOneReplacement()
    ensures Decode([0xED, 0xA0, 0x80]) == [Replacement]
    ensures Decode([0xED, 0xA0]) == [Replacement]
    ensures Decode([0xED, 0xA0, 0x41]) == [Replacement, 'A']
    ensures Decode([0xED, 0x9F, 0xBF]) == ['\U{D7FF}']
  {
    assert [0xED, 0xA0, 0x80][3..] == [];
    assert [0xED, 0xA0][2..] == [];
    assert [0xED, 0xA0, 0x41][2..] == [0x41];
    assert [0xED, 0x9F, 0xBF][3..] == [];
  }

  /** Decoding a chunk that ends in the middle of a character yields a
      replacement character: the two bytes of "é" decoded one at a time give
      two U+FFFD instead of "é". */
  lemma SplitCharacterIsReplaced()
    ensures EncodeChar('é') == [0xC3, 0xA9]
    ensures Decode([0xC3]) + Decode([0xA9]) == [Replacement, Replacement]
    ensures Decode([0xC3, 0xA9]) == "é"
  {
    DecodeEncode("é");
    assert Encode("é") == [0xC3, 0xA9];
  }
}

=== FILE: wrappers.dfy ===
/** Failure-compatible wrappers used throughout the model: `Option` stands for a
    Java reference that may be null, `Result` for a call that either returns a
    value or throws. */
module Wrappers {

  datatype Option<+T> = None | Some(value: T) {

    predicate IsFailure() {
      None?
    }

    function PropagateFailure<U>(): Option<U>
      requires None?
    {
      None
    }

    function Extract(): T
      requires Some?
    {
      value
    }

    function GetOr(default: T): T {
      match this
      case Some(v) => v
      case None => default
    }
  }

  datatype Result<+T, +E> = Ok(value: T) | Err(error: E) {

    predicate IsFailure() {
      Err?
    }

    function PropagateFailure<U>(): Result<U, E>
      requires Err?
    {
      Err(error)
    }

    function Extract(): T
      requires Ok?
    {
      value
    }
  }

  /** A call that returns a `T` seen as one that returns a nullable `T`. */
  function Lift<T, E>(r: Result<T, E>): (o: Result<Option<T>, E>)
    ensures r.Ok? <==> o.Ok?
    ensures r.Ok? ==> o.value == Some(r.value)
    ensures r.Err? ==> o.error == r.error
  {
    match r
    case Ok(v) => Ok(Some(v))
    case Err(e) => Err(e)
  }
}
